=== FILE: README.md ===
# Traffic signal optimisation: a Dafny model

This project models the core of a traffic-signal optimisation tool. The tool
has two sides.

The first side is a browser front end. It has:

- an upload page. It posts a CSV file of traffic observations with an
  intersection type, normalises the returned records and builds a
  downloadable CSV;
- a smaller upload widget. It posts the file and parses the CSV that comes
  back;
- a visualizer. It reads the parsed CSV from browser storage, maps each row
  to chart data and filters the data by day of the week;
- a dashboard. It derives headline metrics and per-signal improvements from
  "radar" items;
- a radar chart. It averages per-parameter improvements and formats the
  parameter names;
- a mock `optimize-traffic` API route. It reads either JSON or form data,
  validates it and scales the given green times.

The second side is two Flask services:

- `live_traffic.py`. Its JSON branch turns a signal colour and a list of
  green times into optimised green times. Its file branch computes, for
  each day and each hour with data, peak and non-peak hours from the 75th
  percentile of the hourly mean vehicle counts. It then computes weighted
  green times and random queue and delay metrics;
- `ahso.py`. It is an earlier single-day version of the same optimiser. It
  also has a night-cycle advice.

Effects are parameters or are left out. This covers the network, browser
storage, JSON text, number parsing and number printing, and random draws.
`parseInt`/`parseFloat` are the `Js.NumberParsers` parameter, where `None`
means NaN. `JSON.parse`/`JSON.stringify` are parameters. Each random draw is
a fraction `u` in `[0, 1]`, and `np.random.uniform(a, b)` is
`a + (b - a) * u`.

Modules follow the program's files:

- `UploadPage`, `UploadWidget`, `Visualizer`, `Dashboard`, `RadarChart`,
  `OptimizeRoute`, `LiveTraffic` and `Ahso` model one source file each.
- They share these helper modules:
  - `Wrappers`: `Option` and `Result`;
  - `Text`: trim, split, join, replace and ASCII case mapping;
  - `Seqs`: filter and insertion sort;
  - `Numerics`: JavaScript `%` and `Math.round`, Python banker's `round`,
    `round(x, 2)`, uniform draws and means;
  - `Js`: JavaScript values and truthiness;
  - `Calendar`: the week;
  - `CsvCodec`: the front end's CSV parser and writer;
  - `Hourly`: hourly means, `np.percentile(…, 75)` with linear
    interpolation, peak and non-peak hours;
  - `SignalWeights`: base weights, weight adjustment, green times and the
    output file name.

## Model

| member | source | states |
|---|---|---|
| CsvCodec.Parse | traffic_optimization/components/file-upload.tsx:105-112 | After trimming the text there is one row per newline. There is always at least one header. Every header and cell is whitespace-trimmed. |
| CsvCodec.HeadersFromFirstLine | traffic_optimization/components/file-upload.tsx:106-107 | The headers are the first line of the trimmed text split on commas: one more header than that line has commas. |
| CsvCodec.RowFromLine | traffic_optimization/components/file-upload.tsx:108-110 | Row i is line i+1 split on commas and trimmed. |
| CsvCodec.ParseBlank | traffic_optimization/components/file-upload.tsx:105-112 | Blank or all-whitespace text parses to a single empty header and no rows. |
| CsvCodec.RoundTrip | traffic_optimization/components/file-upload.tsx:214-221 | Joining cells with commas and lines with newlines, then parsing, gives back the header line and the rows. This holds when cells contain no comma or newline and carry no edge whitespace, and every line has at least two cells: a one-cell last line that is empty is lost to the trim, as `[["a"], [""]]` serializes to `a\n` and parses back with no rows. |
| CsvCodec.LineRoundTrip | traffic_optimization/components/file-upload.tsx:215-219 | Parsing one comma-joined line of safe cells gives back exactly those cells. |
| Calendar.NextPreviousInverse | traffic_optimization/components/file-upload.tsx:268-280 | Next-day and previous-day navigation modulo 7 undo each other. |
| Calendar.ForwardIsModular | traffic_optimization/components/file-upload.tsx:268-270 | Stepping forward n days from day i lands on (i + n) mod 7, so seven steps return to the start. |
| Calendar.DayIndexOf | traffic_optimization/app/visualizer/page.tsx:65 | A name has an index exactly when it is one of the seven day names, and the index names it back. |
| UploadPage.NormalizeItem | traffic_optimization/components/file-upload.tsx:149-177 | A null or undefined item throws. Otherwise the record has exactly the fields for the intersection type. Each field keeps a truthy given value and otherwise gets its default ("Monday" for Day, 0 for the rest). |
| UploadPage.TopologyOnlyDecidesSignal4 | traffic_optimization/components/file-upload.tsx:171-176 | Signal 4 fields are present exactly when the intersection is not "T-Junction". Every other field is the same whatever the intersection. |
| UploadPage.EmptyItemIsDefaults | traffic_optimization/components/file-upload.tsx:152-169 | An empty item normalises to Day "Monday" and zero everywhere else. |
| UploadPage.NormalizeAll | traffic_optimization/components/file-upload.tsx:150-179 | The mapping succeeds exactly when no item is null or undefined. It then normalises each item in order, and every record has exactly the intersection's field names. |
| UploadPage.DownloadHeaders | traffic_optimization/components/file-upload.tsx:185-212 | The download has 21 columns with a fourth signal and 17 for a T-junction. |
| UploadPage.HeadersMatchFields | traffic_optimization/components/file-upload.tsx:185-212 | The download headers are exactly the normalised record's field names. |
| UploadPage.HeadersDistinct | traffic_optimization/components/file-upload.tsx:185-212 | No column is named twice in the download header. |
| UploadPage.CsvLines | traffic_optimization/components/file-upload.tsx:214-221 | The first line is the header line, and there is one line per record. Every line has one cell per header. Each cell is the record's field under that header. |
| UploadPage.Cell | traffic_optimization/components/file-upload.tsx:218 | A missing or falsy field writes an empty cell. A truthy string is written as itself, and a truthy number as its printed form. |
| UploadPage.DownloadStartsWithHeader | traffic_optimization/components/file-upload.tsx:214-215 | The CSV text begins with the comma-joined headers. |
| UploadPage.DownloadHasNoTrailingNewline | traffic_optimization/components/file-upload.tsx:214-221 | When no cell contains a newline, the CSV text is non-empty and does not end with a newline. |
| UploadPage.DownloadParsesBack | traffic_optimization/components/file-upload.tsx:105-112 | Parsing the downloaded CSV gives back the download headers, one row per record, one cell per header in each row, and in each cell exactly the text written for that record and header. |
| UploadPage.ProcessReply | traffic_optimization/components/file-upload.tsx:135-227 | A thrown request fails with its message. Success requires a 2xx status, `status === "success"` and truthy array data. The records are then the normalised data and the CSV is built from them. Conversely, a 2xx reply with `status === "success"` and an array of object items always succeeds, with those normalised records and their CSV. |
| UploadPage.UnsuccessfulReplyFails | traffic_optimization/components/file-upload.tsx:225-227 | A 2xx reply without success status or data fails with the reply's message, or with "Optimization failed". |
| UploadPage.AddFiles | traffic_optimization/components/file-upload.tsx:114-118 | Dropped files are appended after the existing ones and the results are cleared. The download link, message, intersection, day index, day name and loading flag are unchanged. |
| UploadPage.RemoveDataset | traffic_optimization/components/file-upload.tsx:254-259 | Removing the dataset clears the files, results, download link and message. The intersection, day and loading flag are kept. |
| UploadPage.NextDay | traffic_optimization/components/file-upload.tsx:268-271 | The day index moves forward modulo 7. The selected day name stays in step with the index. |
| UploadPage.PreviousDay | traffic_optimization/components/file-upload.tsx:273-280 | The day index moves back modulo 7. The selected day name stays in step with the index. |
| UploadPage.DayNavigationRoundTrip | traffic_optimization/components/file-upload.tsx:268-280 | Forward then back, or back then forward, restores a consistent page state. |
| UploadPage.VisibleResults | traffic_optimization/components/file-upload.tsx:282-287 | The table shows exactly the results whose Day equals the selected day, in their original order and with their repetitions, and nothing before results exist. |
| UploadPage.UploadRequest | traffic_optimization/components/file-upload.tsx:125-133 | Nothing is sent without files. Otherwise the first file is sent with the selected intersection type. |
| UploadPage.Upload | traffic_optimization/components/file-upload.tsx:124-234 | Without files the state is unchanged. Otherwise loading always ends, and the files, intersection, day index and selected day stay unchanged. |
| UploadPage.UploadOutcome | traffic_optimization/components/file-upload.tsx:181-233 | On failure the old results and link are kept and the message is "Error: " followed by the error's message, or "Unknown error" when it is empty. On success the results, CSV link and "Optimization complete!" are set. |
| UploadWidget.ParseShape | traffic_optimization/components/ui/file-upload.tsx:52-59 | The widget's parser gives one more header than the first line has commas, and trims every header and cell. |
| UploadWidget.AddFiles | traffic_optimization/components/ui/file-upload.tsx:61-65 | New files are appended after the old ones and the parsed CSV is cleared. |
| UploadWidget.UploadRequest | traffic_optimization/components/ui/file-upload.tsx:71-78 | Nothing is posted without files. Otherwise the first file and the intersection type are posted. |
| UploadWidget.Upload | traffic_optimization/components/ui/file-upload.tsx:71-98 | A throw or a non-ok reply changes nothing. An ok reply sets the download link and the parsed reply text. |
| Visualizer.CellAt | traffic_optimization/app/visualizer/page.tsx:142-153 | A cell exists exactly when the row has that index. |
| Visualizer.OptionalIntAt | traffic_optimization/app/visualizer/page.tsx:146-147 | Signals 3 and 4 are absent exactly when the cell is missing or empty. Otherwise they are the parsed integer, where NaN is possible. |
| Visualizer.RealOrZeroAt | traffic_optimization/app/visualizer/page.tsx:150-151 | The original queue and delay fall back to 0 when the cell is missing or not a number. |
| Visualizer.ToSignalData | traffic_optimization/app/visualizer/page.tsx:142-153 | Each chart field is read from its fixed column: day 0, hour 1, signals 2-5, metrics 6-7, originals 8-9. |
| Visualizer.ChartRows | traffic_optimization/app/visualizer/page.tsx:142-153 | There is one chart entry per CSV row, in order. |
| Visualizer.ThreeSignalRowsHaveNoSignal4 | traffic_optimization/app/visualizer/page.tsx:147 | Rows without a sixth cell, or with an empty one, chart no fourth signal. |
| Visualizer.Transform | traffic_optimization/app/visualizer/page.tsx:139-161 | Zero rows set "No valid data found in the CSV file." and keep the old chart. Otherwise the chart is replaced and the error cleared. |
| Visualizer.TransformIgnoresHeaders | traffic_optimization/app/visualizer/page.tsx:140-153 | The chart depends only on the rows, not on the header names. |
| Visualizer.ProcessCsv | traffic_optimization/app/visualizer/page.tsx:124-137 | Processing raw CSV stores its parse under the parsed key and charts that same parse. |
| Visualizer.Mount | traffic_optimization/app/visualizer/page.tsx:87-106 | Loading always ends. Stored parsed data wins over raw CSV. With neither, the "No optimization data" error is shown. Undecodable parsed data shows the load error. Readable parsed data is charted by `transformDataForChart` and the storage is left alone. Raw CSV alone goes through `processCSV`: the view and the storage are what it produces. |
| Visualizer.ParsedTakesPrecedence | traffic_optimization/app/visualizer/page.tsx:90-96 | When parsed data is present, the raw CSV does not affect the view. |
| Visualizer.MountCachesParse | traffic_optimization/app/visualizer/page.tsx:97-99 | Mounting from raw CSV caches the parse. A second mount from the cache shows the same view. |
| Visualizer.Refresh | traffic_optimization/app/visualizer/page.tsx:68-84 | Missing parsed data empties the chart and shows the "No optimization data" error. Undecodable data shows the load error. Readable data is charted by `transformDataForChart`. The day and the loading flag are kept. |
| Visualizer.RefreshAgreesWithMount | traffic_optimization/app/visualizer/page.tsx:68-106 | With parsed data stored, a refresh shows exactly what the first mount shows, except for the loading flag. |
| Visualizer.RawMountChartsParse | traffic_optimization/app/visualizer/page.tsx:87-99 | A first visit with only raw CSV charts one row per data row of the CSV's parse and clears the error. A CSV without data rows keeps the old chart and reports that no valid data was found. |
| Visualizer.RemovalClearsChart | traffic_optimization/app/visualizer/page.tsx:71-75 | Once the parsed data is removed, the next check empties the chart. |
| Visualizer.DayNavigationRoundTrip | traffic_optimization/app/visualizer/page.tsx:163-169 | Day navigation is a bijection on the seven days and leaves the chart untouched. |
| Visualizer.FilteredData | traffic_optimization/app/visualizer/page.tsx:175 | The shown data is exactly the chart entries whose Day is the current day's name, in chart order and with their repetitions. |
| Visualizer.RowVisibleOnItsDay | traffic_optimization/app/visualizer/page.tsx:175 | An entry is shown exactly when its day name's index is the current index. |
| Dashboard.Find | traffic_optimization/app/dashboard/page.tsx:78-91 | A lookup finds an item with that parameter name exactly when one exists. |
| Dashboard.FindFirst | traffic_optimization/app/dashboard/page.tsx:78-91 | `Array.find` returns the first item with the name. |
| Seqs.FilterAtKeptIndices | traffic_optimization/app/dashboard/page.tsx:113-114 | `Array.filter` keeps the elements at the satisfying positions, in increasing position order: the k-th kept element is the element at the k-th satisfying position. |
| Seqs.KeptIndicesComplete | traffic_optimization/app/dashboard/page.tsx:113-114 | Every position whose element satisfies the test is among the kept positions. |
| Dashboard.CalculateMetrics | traffic_optimization/app/dashboard/page.tsx:68-101 | No data gives all zeros. Vehicles, delay and queue are the before value of the first item with that parameter name, and 0 when there is none. An improved value is 0 only when the original is 0, because `after \|\| before` falls back. |
| Dashboard.EmptyGuardRedundant | traffic_optimization/app/dashboard/page.tsx:69-76 | The early return for empty data agrees with the general formula. |
| Dashboard.MetricsFromFirstEntry | traffic_optimization/app/dashboard/page.tsx:81-89 | Delay comes from the first Avg_Delay_Time item. The improved delay is its after value, or its before value when after is 0. |
| Dashboard.VehiclesFromFirstEntry | traffic_optimization/app/dashboard/page.tsx:78-80 | The vehicle count is the before value of the first Total_Vehicles item, whatever follows it. |
| Dashboard.QueueFromFirstEntry | traffic_optimization/app/dashboard/page.tsx:84-92 | The queue is the before value of the first Avg_Queue_Length item. The improved queue is its after value, or its before value when after is 0. |
| Dashboard.ImprovementPercentage | traffic_optimization/app/dashboard/page.tsx:134-136 | A non-positive before value gives 0. Otherwise the percentage is positive exactly when after drops below before, and 0 exactly when they are equal. It is at most 100 for a non-negative after value. |
| Dashboard.ChangeIsNegatedImprovement | traffic_optimization/app/dashboard/page.tsx:114-120 | The table's change column is the negated improvement percentage. |
| Dashboard.ToImprovement | traffic_optimization/app/dashboard/page.tsx:116-126 | A row carries the item's before and after values, its display name, and minus the item's improvement percentage as the change. |
| Dashboard.DisplayName | traffic_optimization/app/dashboard/page.tsx:122 | `replace("_", " ")` replaces only the first underscore: the length is kept, one underscore fewer remains when there was one, a name without underscores is unchanged, and no "Signal" appears that was not there. When there is an underscore, the first one becomes a space and every other character is kept. |
| Dashboard.DisplayNameRoundTrip | traffic_optimization/app/dashboard/page.tsx:122 | For a name without spaces, putting the underscore back in place of the first space gives the original name: the display name loses nothing. |
| Dashboard.CalculateImprovements | traffic_optimization/app/dashboard/page.tsx:105-130 | Row i is the improvement of the i-th signal item in input order, and there are no other rows. |
| Dashboard.SummaryCards | traffic_optimization/app/dashboard/page.tsx:357-375 | Card i shows the display name and improvement percentage of the i-th non-signal item in input order. There are no other cards, and no card names a signal. |
| Dashboard.TablesPartitionEntries | traffic_optimization/app/dashboard/page.tsx:105-130 | The signal and non-signal items together are exactly the radar items as a multiset, so the table rows and the cards add up to the item count. |
| Dashboard.EachEntryInOneTable | traffic_optimization/app/dashboard/page.tsx:114 | Each input position is kept by exactly one of the two filters: the signal table's or the summary cards'. |
| RadarChart.NumericValue | traffic_optimization/components/ui/radarchart.tsx:56-57 | A number is itself, a non-number string counts as 0, and a missing value counts as 0. |
| RadarChart.Displayed | traffic_optimization/components/ui/radarchart.tsx:36-46 | Empty data is replaced by the nine-entry sample data. Other data is shown as given. |
| RadarChart.EmptyDataShowsSample | traffic_optimization/components/ui/radarchart.tsx:36-74 | Substituting the sample is idempotent, and for empty data the shown improvement is the sample's improvement. |
| RadarChart.Score | traffic_optimization/components/ui/radarchart.tsx:58-66 | For a positive before value the score is positive exactly when the parameter moved in its good direction: down for timings, queue and delay, up otherwise. |
| RadarChart.Tally | traffic_optimization/components/ui/radarchart.tsx:53-69 | At most every entry is counted, and nothing counted means a zero sum. |
| RadarChart.UncountedIgnored | traffic_optimization/components/ui/radarchart.tsx:58 | Inserting an entry with a non-positive before value anywhere does not change the tally. |
| RadarChart.AllImprovedPositive | traffic_optimization/components/ui/radarchart.tsx:53-69 | If every counted entry improved, the sum of scores is positive. |
| RadarChart.Improvement | traffic_optimization/components/ui/radarchart.tsx:49-72 | Empty data gives no value. No counted entry gives 0. Otherwise the value times the count is the score sum, so it is the mean score. |
| RadarChart.ShownImprovement | traffic_optimization/components/ui/radarchart.tsx:36-74 | The chart always shows a value, computed on the displayed data. |
| RadarChart.ImprovingDataShowsGain | traffic_optimization/components/ui/radarchart.tsx:49-74 | When every counted entry improved and at least one counts, the shown improvement is positive. |
| RadarChart.ImprovingEntriesGain | traffic_optimization/components/ui/radarchart.tsx:49-74 | When every counted entry improved and at least one counts, the mean improvement of the entries is positive. |
| RadarChart.SplitCapitalizeIsCaseByPosition | traffic_optimization/components/ui/radarchart.tsx:83-89 | Splitting on spaces, capitalising each word and rejoining is the same as upper-casing each word-initial letter and lower-casing the rest. |
| RadarChart.FormatByPosition | traffic_optimization/components/ui/radarchart.tsx:83-89 | A formatted parameter has the same length and no underscore, and is cased by position in its word. |
| RadarChart.CaseIdempotent | traffic_optimization/components/ui/radarchart.tsx:83-89 | Casing by position twice changes nothing more. |
| RadarChart.FormatIdempotent | traffic_optimization/components/ui/radarchart.tsx:83-89 | Formatting an already formatted parameter leaves it unchanged. |
| OptimizeRoute.Get | traffic_optimization/app/api/optimize-traffic/route.ts:26-45 | A form lookup succeeds exactly when the key is present, and returns an entry of the form. |
| OptimizeRoute.FromForm | traffic_optimization/app/api/optimize-traffic/route.ts:26-54 | With color and green_times, a green_times text that is not JSON is a 400 "Invalid green_times format". Otherwise the data is an object holding the color field and the parsed green_times. Without both fields, a file gives 501 and anything else gives 400. |
| OptimizeRoute.InvalidFormGreenTimesRejected | traffic_optimization/app/api/optimize-traffic/route.ts:26-39 | A form request whose green_times is not JSON is answered with that 400, whatever else the form holds. |
| OptimizeRoute.FormScalesGreenTimes | traffic_optimization/app/api/optimize-traffic/route.ts:26-76 | A form with a non-empty color and a green_times text that parses to an array of at least three integers gets the same mock as a JSON body: items 0 to 2 scaled by 0.9, 1.1 and 1.0 and rounded. |
| OptimizeRoute.RequestData | traffic_optimization/app/api/optimize-traffic/route.ts:11-55 | A JSON content type reads the JSON body, and an unreadable body is a 500. Otherwise the form is read, and an unreadable form is a 500. |
| OptimizeRoute.MockGreen | traffic_optimization/app/api/optimize-traffic/route.ts:70-74 | Green time i is the array item printed as a string, parsed as an integer, scaled and rounded half up. It is NaN when the parse fails or the item is missing. |
| OptimizeRoute.Handle | traffic_optimization/app/api/optimize-traffic/route.ts:6-117 | Errors are 400, 500 or 501. A failed read answers with that read's error. Data that was read but lacks a truthy color or green_times is "Missing required fields" (400). Otherwise the mock gives three green times and a delay in 45..75. |
| OptimizeRoute.MockScalesGreenTimes | traffic_optimization/app/api/optimize-traffic/route.ts:66-76 | Any JSON body with a truthy color and a green_times array of at least three items whose first three print as integers, whether JSON numbers or numeric strings: those three come back scaled by 0.9, 1.1 and 1.0 and rounded, and further items and other keys are ignored. The delay is 45 + 30·random, rounded. |
| OptimizeRoute.NumericGreenTimes | traffic_optimization/app/api/optimize-traffic/route.ts:66-76 | A body with four green times 30, 25, 20 and 40 and an extra intersection_type key comes back as 27, 28 and 20. |
| OptimizeRoute.EmptyGreenTimesPass | traffic_optimization/app/api/optimize-traffic/route.ts:58-74 | An empty green_times array is truthy, so it passes validation and yields three NaN green times. |
| Numerics.JsRound | traffic_optimization/app/api/optimize-traffic/route.ts:71 | `Math.round` returns the integer within half of x, with halves going up. |
| Numerics.PyRound | live_traffic.py:27 | Python `round` returns the nearest integer, with ties going to the even one. |
| Numerics.PyRoundMonotonic | live_traffic.py:27 | Python `round` never decreases as its argument grows. |
| Numerics.PyRound2 | live_traffic.py:122-123 | `round(x, 2)` is within 0.005 of x. |
| Numerics.Uniform | live_traffic.py:22-26 | A draw `uniform(lo, hi)` lies between lo and hi. |
| Numerics.Mean | live_traffic.py:119 | The mean exists exactly for non-empty data, and mean times count is the sum. |
| Numerics.MeanBounds | live_traffic.py:119 | The mean lies between any bounds of the data. |
| Hourly.DistinctHours | live_traffic.py:59 | The groupby keys: each observed hour once, and empty only for empty data. |
| Hourly.HourlyMeans | live_traffic.py:59 | There is one mean per distinct hour, each being that hour's mean count. |
| Hourly.HourMean | live_traffic.py:59 | An hour with a mean has at least one observation. |
| Hourly.Percentile75 | live_traffic.py:62 | The 75th percentile with linear interpolation lies between the smallest and largest value. |
| Hourly.PercentileOfConstant | live_traffic.py:62 | The 75th percentile of constant data is that constant. |
| Hourly.Threshold | live_traffic.py:59-62 | Empty data fails, since numpy rejects it. If all hourly means are numbers, the threshold is their 75th percentile. A NaN mean makes it NaN. |
| Hourly.BandOf | live_traffic.py:64-66 | An hour is peak exactly when its mean exceeds the threshold, and non-peak exactly when it does not. A NaN mean or threshold is neither. |
| Hourly.PeakPartition | live_traffic.py:64-66 | Peak and non-peak hours are disjoint observed hours. They cover every observed hour when no mean is NaN. |
| Hourly.SomeHourNonPeak | live_traffic.py:59-66 | On numeric data some hour is non-peak, so not every observed hour is peak. |
| SignalWeights.BaseWeights | live_traffic.py:75-83 | Only the four listed topologies have weights: three for a T-junction, four otherwise, each between 0.1 and 0.4. |
| SignalWeights.WeightTotals | live_traffic.py:77-82 | The weights total 1.0, except for the T-junction, where they total 0.9. |
| SignalWeights.Adjust | live_traffic.py:105-113 | Peak weights are min(1.3w, 0.6), non-peak weights max(0.7w, 0.1), and other weights are unchanged. |
| SignalWeights.Cycle | live_traffic.py:105-113 | The cycle is 120 s at peak and 90 s otherwise. |
| SignalWeights.GreenTimes | live_traffic.py:116 | There is one green time per weight, each within half a second of weight times cycle. |
| SignalWeights.GreenBounds | live_traffic.py:105-116 | A peak green is at most 72 s and a non-peak green at least 9 s. |
| SignalWeights.PeakNotShorter | live_traffic.py:105-116 | For every topology, each signal's peak green is at least its non-peak green. |
| SignalWeights.OutputFileName | live_traffic.py:140 | The file name is "optimized_" + lower-cased type + "_signals.csv": it starts with "optimized_" and is 22 characters longer than the type. |
| LiveTraffic.VehicleCount | live_traffic.py:11-13 | A colour maps to 60 exactly when it lower-cases to "red" and to 10 exactly for "green". Anything else gives 40. |
| LiveTraffic.VehicleCountIgnoresCase | live_traffic.py:13 | The colour lookup ignores letter case. |
| LiveTraffic.RawTiming | live_traffic.py:20-26 | Heavy traffic caps a green at half the cycle. Light traffic keeps it at least 10 s. |
| LiveTraffic.Timings | live_traffic.py:19-27 | There is one rounded timing per given green time, in order. |
| LiveTraffic.CalculateOptimizedTimings | live_traffic.py:15-32 | An empty list fails, by division by zero. Otherwise there is one green per input. Light traffic gives at least 10 s. Heavy traffic gives at most half the cycle, plus rounding. |
| LiveTraffic.ModerateNeverShortens | live_traffic.py:23-24 | Under moderate traffic a whole-second green is never shortened. |
| LiveTraffic.OneSecondGreen | live_traffic.py:15-32 | A 1 s green under green light becomes 10 s with a delay of 2. |
| LiveTraffic.BooleansCountAsNumbers | live_traffic.py:163 | `True` passes the number check and is treated as 1. |
| LiveTraffic.OptimizeJson | live_traffic.py:148-173 | Malformed JSON and a falsy body are 400s, and a truthy non-object is a 500. A falsy color or green_times is "Missing required parameters" (400). A green_times that is not a list of numbers is "green_times must be a list of numbers" (400). Valid finite input answers with the optimised timings of the colour and numbers, one per entry. |
| LiveTraffic.WithDays | live_traffic.py:39-41 | A dataset without a Day column is all Monday. Otherwise the rows are unchanged. |
| LiveTraffic.DayRows | live_traffic.py:56 | The day's data is exactly the observations of that day, in their original order and with their repetitions. |
| Hourly.Metric | live_traffic.py:119-123 | A metric is NaN exactly when the hour's mean is. Both services compute their queue length and delay with this one definition. |
| Hourly.MetricBounds | live_traffic.py:122-123 | A metric lies between mean·lo and mean·hi, give or take the rounding to 2 places. |
| LiveTraffic.MakeRow | live_traffic.py:104-133 | A row carries its day and hour. Its greens are the shared rule's greens for the band of the hour's mean against that day's threshold. Its queue length is the metric of the hour's mean with factors 0.01 to 0.04, and its delay the metric with factors 0.02 to 0.05, each with the slot's own random draw. So both are NaN exactly when the mean is. |
| LiveTraffic.RowMetricsBounded | live_traffic.py:122-123 | For a non-negative mean, a row's queue length lies within 1–4% of the mean and its delay within 2–5%, give or take the rounding to cents. |
| LiveTraffic.SlotParts | live_traffic.py:90-97 | Week slot n stands for weekday n div 24 and hour n mod 24. |
| LiveTraffic.DataSlots | live_traffic.py:88-102 | The enumerated slots lie within the week, all have data, and come in strictly increasing order. |
| LiveTraffic.DataSlotsComplete | live_traffic.py:90-102 | No slot with data is skipped by the enumeration. |
| LiveTraffic.WeekRows | live_traffic.py:88-133 | There is one output row per enumerated slot, at that slot, with one green per weight. |
| LiveTraffic.WeekRowsAreSlotRows | live_traffic.py:88-133 | Row i is the row computed for the i-th slot with data. |
| LiveTraffic.RowsOrdered | live_traffic.py:88-133 | Rows come in strictly increasing (day, hour) order, and each is for a day and hour that has data. |
| LiveTraffic.RowsComplete | live_traffic.py:90-133 | Every day and hour with data has an output row. |
| LiveTraffic.RowBandMatchesPeakHours | live_traffic.py:94-113 | The row's peak test on the day's lists agrees with comparing that hour's mean with the day's threshold. |
| LiveTraffic.OptimizeFile | live_traffic.py:175-197 | No file is "No file provided" (400). An unreadable file, a day outside the week and an unknown type are 500s. Otherwise the download is named after the type, which defaults to "Four-Way", and holds the week's rows for the type's weights. |
| LiveTraffic.DownloadIsWeekSchedule | live_traffic.py:88-197 | An upload that passes every check is answered with a download of one row per day and hour with data, in (day, hour) order and none missing. |
| LiveTraffic.DownloadGreensFollowBands | live_traffic.py:94-197 | Each downloaded row has the greens of its hour's band, judged against its own day's threshold, under the topology's weights. |
| LiveTraffic.DiamondIntersectionRejected | live_traffic.py:77-83 | The front end's "Diamond Intersection" is not a weights key, so the file endpoint answers 500. |
| Ahso.HourBandIsMeanBand | ahso.py:36-42 | An hour's list membership agrees with comparing its mean with the threshold. An hour without data is neither. |
| Ahso.RowUsesBandCycle | ahso.py:36-45 | Each hour's greens use the adjusted weights for its band with a 120 s cycle exactly at peak. |
| Ahso.OptimizeSignalTimings | ahso.py:33-57 | There is one row for every hour 0..23, in order, each the row of that hour, with one green per weight. |
| Ahso.MakeRow | ahso.py:44-56 | The queue length is the metric of the hour's mean with factors 0.01 to 0.04, and the delay the metric with factors 0.02 to 0.05, each with the hour's own random draw. Each is NaN exactly when the hour has no numeric count. |
| Ahso.RowMetricsBounded | ahso.py:46-48 | For a non-negative mean, an hour's queue length lies within 1–4% of the mean and its delay within 2–5%, give or take the rounding to cents. |
| Hourly.MetricPairBounded | ahso.py:47-48 | A queue length and a delay computed from the same non-negative mean lie within 1–4% and 2–5% of it, up to rounding. |
| Ahso.EmptyHourRow | ahso.py:36-49 | An hour without data gets base-weight greens on a 90 s cycle and NaN metrics. |
| Ahso.Advice | ahso.py:69-74 | Low is below 0.3 of daytime and moderate is from 0.3 up to 0.7. A NaN on either side keeps the normal cycle. |
| Ahso.WindowValues | ahso.py:66-67 | A value is selected exactly when some row's hour is in the window and that row has a numeric vehicle count equal to it; there are never more values than rows. |
| Ahso.AsWrittenAlwaysKeeps | ahso.py:65-74 | With the window `between(22, 5)`, the advice is always to keep the normal cycle. |
| Ahso.WindowsSplitRows | ahso.py:66-67 | With the corrected night window, every counted row is in exactly one of night and day. |
| Ahso.QuietNightDetected | ahso.py:65-74 | A night at a tenth of daytime traffic is reported as low by the corrected window and missed as written. |
| Ahso.Optimize | ahso.py:76-86 | A missing form field or file is a 400. An unreadable or empty dataset and an unknown type are 500s. Otherwise the reply is the 24 hourly rows for the type's weights and the dataset's threshold, under the type's file name. |
| Ahso.ReplyRowsFollowBands | ahso.py:33-86 | Each hour's row in a reply has the greens of the band of that hour's mean against the dataset's threshold. |

## Left out

- Network, browser storage, file reading and writing, `send_file`, timers, logging, and the React rendering. Storage contents and fetch outcomes are inputs.
- Number parsing and printing are parameters, with `None` for NaN. These are `parseInt`, `parseFloat`, `JSON.parse`, `JSON.stringify` and JavaScript's number-to-string. The model does not fix their text formats.
- Floating point. Reals are exact, so rounding error and `Infinity` arithmetic are not modelled.
- LiveTraffic.OptimizeJson: a list holding `NaN` or an infinity is modelled as a server error. That is what Python does for `NaN` and `Infinity`, whose rounding raises. It is not what it does for `{"color": "green", "green_times": [-Infinity]}`: there `max(-inf, 10)` is 10, so the reply is 200 with `[10]` and a delay of 2.
- SignalWeights.GreenTimes: a green time is rounded from the exact product. CPython computes 0.35 × 90 as 31.499999999999996 and rounds it to 31, where the exact 31.5 rounds to 32. This shows in the Diamond weights on a 90 s cycle: `ahso.py` hours without data and `live_traffic.py` hours in neither band.
- Case mapping is ASCII only. JavaScript's and Python's Unicode case tables are not modelled.
- CSV formatting on the Python side. `pandas.read_csv` is an input dataset of observations, and `to_csv` is the row sequence it would print.
- Random draws are per-slot inputs. In `live_traffic.py` and `ahso.py`, slot n's queue and delay use `draw(2n)` and `draw(2n+1)`, not one shared stream. The JSON branch uses `draw(k)` for green time k.
- The `astype(int)` cast of the hours in `live_traffic.py`. The model's observations carry the hours after the cast. The cast truncates a fractional hour such as 3.5 to 3, and the request then succeeds; that truncation is not modelled. A NaN, infinite or non-numeric hour makes the cast raise, which is a 500 through the catch-all; the model counts it as an unreadable dataset.
- Fractional hours in `ahso.py`, which never casts. The model's observations have whole-number hours. In the source a 3.5 hour is a group-by key of its own: it moves the threshold but never gets a row, since rows are made only for hours 0 to 23.
- The upload page's download click and its "No download link available" branch. They only touch the browser.
- The dashboard's storage listener and date stamp. They are UI effects that are not part of the computations.
- `ahso.py` computes the night advice and discards it. `Ahso.Optimize` does not call it, because it cannot change the reply.
- OptimizeRoute.Handle: the commented-out Flask forwarding is dead code and is not modelled.
- RadarChart.EmptyDataShowsSample: the sample's improvement figure itself is not computed. It depends on which of the nine literal parameter names contain "Timings", "Queue" or "Delay", and the model leaves that evaluation out.
- LiveTraffic.CalculateOptimizedTimings: the delay estimate is modelled but not bounded.

## Findings

| source | as written | input that shows it | evidently intended | confidence | as-written member | corrected member |
|---|---|---|---|---|---|---|
| ahso.py:66 | `Hour.between(22, 5)` is inclusive on both ends, so it selects no hour. The night mean is then NaN, every comparison fails, and the advice is always "Keeping normal cycle length". | Hour 2 with 10 vehicles and hour 12 with 100 vehicles: as written the advice is to keep the normal cycle. | The night window wraps midnight (hour ≥ 22 or hour ≤ 5), so this input is reported as low night traffic. | not executed | Ahso.AsWrittenAlwaysKeeps | Ahso.QuietNightDetected |

=== FILE: ahso.dfy ===
/** The earlier Flask service `ahso.py`: one optimization over the whole
    dataset, hour by hour, with a night-time cycle advice that the endpoint
    computes and then discards. */
module Ahso {
  import opened Wrappers
  import Numerics
  import Hourly
  import SignalWeights

  /** One output row: `Hour`, `Signal_k_Green` for each weight,
      `Avg_Queue_Length` and `Avg_Delay_Time` (`None` is NaN). */
  datatype HourRow = HourRow(hour: int, greens: seq<int>, queue: Option<real>, delay: Option<real>)

  /** The band of an hour as the loop decides it: in the peak list, else in
      the non-peak list, else neither. */
  function HourBand(obs: seq<Hourly.Observation>, threshold: Option<real>, hour: int): Hourly.Band
  {
    if hour in Hourly.PeakHours(obs, threshold) then Hourly.Peak
    else if hour in Hourly.NonPeakHours(obs, threshold) then Hourly.NonPeak
    else Hourly.Neither
  }

  /** The list lookups agree with classifying the hour's own mean; an hour
      without data has a NaN mean and so belongs to neither list. */
  lemma HourBandIsMeanBand(obs: seq<Hourly.Observation>, threshold: Option<real>, hour: int)
    ensures HourBand(obs, threshold, hour) == Hourly.BandOf(Hourly.HourMean(obs, hour), threshold)
    ensures !Hourly.HasHour(obs, hour) ==> HourBand(obs, threshold, hour) == Hourly.Neither
  {
  }

  /** The row of one hour; `draw(2h)` and `draw(2h+1)` are the random
      fractions of the two metrics. The cycle is 120 s exactly for a peak
      hour (`120 if hour in peak_hours else 90`). */
  function MakeRow(obs: seq<Hourly.Observation>, w: seq<real>, threshold: Option<real>, hour: nat, draw: nat -> real): (r: HourRow)
    ensures r.hour == hour && |r.greens| == |w|
    ensures r.queue.Some? <==> Hourly.HourMean(obs, hour).Some?
    ensures r.delay.Some? <==> Hourly.HourMean(obs, hour).Some?
    ensures r.queue == Hourly.Metric(Hourly.HourMean(obs, hour), 0.01, 0.04, draw(2 * hour))
    ensures r.delay == Hourly.Metric(Hourly.HourMean(obs, hour), 0.02, 0.05, draw(2 * hour + 1))
  {
    var band := HourBand(obs, threshold, hour);
    var cycle := if hour in Hourly.PeakHours(obs, threshold) then 120 else 90;
    var mean := Hourly.HourMean(obs, hour);
    HourRow(hour, SignalWeights.GreenTimes(SignalWeights.Adjust(w, band), cycle),
            Hourly.Metric(mean, 0.01, 0.04, draw(2 * hour)), Hourly.Metric(mean, 0.02, 0.05, draw(2 * hour + 1)))
  }

  /** An hour's queue length lies between 1% and 4% of its mean count, and
      its delay between 2% and 5%, up to rounding to cents. */
  lemma RowMetricsBounded(obs: seq<Hourly.Observation>, w: seq<real>, threshold: Option<real>, hour: nat, draw: nat -> real)
    requires Hourly.HourMean(obs, hour).Some? && Hourly.HourMean(obs, hour).value >= 0.0
    requires 0.0 <= draw(2 * hour) <= 1.0 && 0.0 <= draw(2 * hour + 1) <= 1.0
    ensures var m := Hourly.HourMean(obs, hour).value;
            var r := MakeRow(obs, w, threshold, hour, draw);
            m * 0.01 - 0.005 <= r.queue.value <= m * 0.04 + 0.005
            && m * 0.02 - 0.005 <= r.delay.value <= m * 0.05 + 0.005
  {
    var r := MakeRow(obs, w, threshold, hour, draw);
    Hourly.MetricPairBounded(Hourly.HourMean(obs, hour), r.queue, r.delay, draw(2 * hour), draw(2 * hour + 1));
  }

  /** The cycle test and the band always agree, so each row's greens are
      the shared rule's greens for the hour's band. */
  lemma RowUsesBandCycle(obs: seq<Hourly.Observation>, w: seq<real>, threshold: Option<real>, hour: nat, draw: nat -> real)
    ensures MakeRow(obs, w, threshold, hour, draw).greens
         == SignalWeights.HourGreens(w, HourBand(obs, threshold, hour))
  {
  }

  /** `optimize_signal_timings`: exactly one row per hour of the day, with
      or without data; an hour without data gets the base weights, a 90 s
      cycle and NaN metrics. */
  function OptimizeSignalTimings(obs: seq<Hourly.Observation>, w: seq<real>, threshold: Option<real>, draw: nat -> real): (rows: seq<HourRow>)
    ensures |rows| == 24
    ensures forall h :: 0 <= h < 24 ==> rows[h].hour == h && |rows[h].greens| == |w|
    ensures forall h :: 0 <= h < 24 ==> rows[h] == MakeRow(obs, w, threshold, h, draw)
  {
    seq(24, h requires 0 <= h < 24 => MakeRow(obs, w, threshold, h, draw))
  }

  /** An hour without data: base-weight greens on a 90 s cycle, NaN metrics. */
  lemma EmptyHourRow(obs: seq<Hourly.Observation>, w: seq<real>, threshold: Option<real>, hour: nat, draw: nat -> real)
    requires !Hourly.HasHour(obs, hour)
    ensures MakeRow(obs, w, threshold, hour, draw) == HourRow(hour, SignalWeights.GreenTimes(w, 90), None, None)
  {
    HourBandIsMeanBand(obs, threshold, hour);
  }

  /** The advice of `adjust_night_cycle`. */
  datatype NightAdvice = Reduce | Adjust | Keep

  function AdviceText(a: NightAdvice): string
  {
    match a
    case Reduce => "Low nighttime traffic detected. Reducing cycle length to 60s."
    case Adjust => "Moderate nighttime traffic detected. Adjusting cycle length to 80-100s."
    case Keep => "Nighttime traffic is similar to daytime. Keeping normal cycle length."
  }

  /** The comparison chain on two means, where NaN (`None`) fails every
      comparison and so falls through to keeping the normal cycle. */
  function Advice(night: Option<real>, day: Option<real>): (a: NightAdvice)
    ensures a == Reduce <==> night.Some? && day.Some? && night.value < 0.3 * day.value
    ensures a == Adjust <==> night.Some? && day.Some? && 0.3 * day.value <= night.value < 0.7 * day.value
    ensures day.Some? && day.value >= 0.0 ==>
      (a == Keep <==> night.None? || night.value >= 0.7 * day.value)
  {
    if night.Some? && day.Some? && night.value < 0.3 * day.value then Reduce
    else if night.Some? && day.Some? && 0.3 * day.value <= night.value < 0.7 * day.value then Adjust
    else Keep
  }

  /** The vehicle counts of the rows whose hour passes `inWindow`. */
  function WindowValues(obs: seq<Hourly.Observation>, inWindow: int -> bool): (xs: seq<real>)
    ensures |xs| <= |obs|
    ensures forall x :: x in xs <==>
              exists i :: 0 <= i < |obs| && inWindow(obs[i].hour) && obs[i].vehicles == Some(x)
  {
    if |obs| == 0 then []
    else (if inWindow(obs[0].hour) && obs[0].vehicles.Some? then [obs[0].vehicles.value] else [])
         + WindowValues(obs[1..], inWindow)
  }

  /** `Series.between(lo, hi)`: inclusive on both ends. */
  function Between(lo: int, hi: int): int -> bool
  {
    (h: int) => lo <= h <= hi
  }

  /** `adjust_night_cycle` as written: the night window is `between(22, 5)`. */
  function AdjustNightCycleAsWritten(obs: seq<Hourly.Observation>): NightAdvice
  {
    Advice(Numerics.Mean(WindowValues(obs, Between(22, 5))), Numerics.Mean(WindowValues(obs, Between(6, 21))))
  }

  /** No hour lies in `between(22, 5)`. */
  lemma {:induction false} ReversedWindowEmpty(obs: seq<Hourly.Observation>)
    ensures WindowValues(obs, Between(22, 5)) == []
  {
    if |obs| > 0 {
      ReversedWindowEmpty(obs[1..]);
    }
  }

  /** As written the night mean is always NaN, so the advice is always to
      keep the normal cycle, whatever the traffic. */
  lemma AsWrittenAlwaysKeeps(obs: seq<Hourly.Observation>)
    ensures AdjustNightCycleAsWritten(obs) == Keep
  {
    ReversedWindowEmpty(obs);
  }

  /** The night the code evidently means: 22:00 to 05:59, across midnight. */
  function NightHour(h: int): bool {
    h >= 22 || h <= 5
  }

  /** `adjust_night_cycle` with the night window wrapping midnight. */
  function AdjustNightCycle(obs: seq<Hourly.Observation>): NightAdvice
  {
    Advice(Numerics.Mean(WindowValues(obs, NightHour)), Numerics.Mean(WindowValues(obs, Between(6, 21))))
  }

  /** Each row with a count lies in exactly one of the two windows, so the
      corrected windows split the counted rows between night and day. */
  lemma {:induction false} WindowsSplitRows(obs: seq<Hourly.Observation>)
    ensures |WindowValues(obs, NightHour)| + |WindowValues(obs, Between(6, 21))|
         == |WindowValues(obs, (h: int) => true)|
  {
    if |obs| > 0 {
      WindowsSplitRows(obs[1..]);
    }
  }

  /** A quiet night (10 vehicles at 02:00 against 100 at noon) is reported
      as low traffic by the corrected window and missed as written. */
  lemma QuietNightDetected()
    ensures var obs := [Hourly.Observation("Monday", 2, Some(10.0)), Hourly.Observation("Monday", 12, Some(100.0))];
      AdjustNightCycle(obs) == Reduce && AdjustNightCycleAsWritten(obs) == Keep
  {
    var obs := [Hourly.Observation("Monday", 2, Some(10.0)), Hourly.Observation("Monday", 12, Some(100.0))];
    assert obs[1..] == [obs[1]];
    assert WindowValues(obs, NightHour) == [10.0];
    assert WindowValues(obs, Between(6, 21)) == [100.0];
    AsWrittenAlwaysKeeps(obs);
  }

  /** A request to `/optimize`: the `intersection_type` form field, whether
      a `file` part is present, and the dataset read from it (`None` when
      reading fails). */
  datatype Request = Request(intersectionType: Option<string>, hasFile: bool, dataset: Option<seq<Hourly.Observation>>)

  /** The answers: the CSV download, a bad request (a missing form field or
      file raises Flask's `BadRequestKeyError`), or a server error. */
  datatype Reply = CsvFile(fileName: string, rows: seq<HourRow>) | BadRequest | ServerError

  /** `optimize`: a missing field or file is a bad request; an unreadable
      or empty dataset and an unknown intersection type are server errors;
      otherwise the 24 rows. */
  function Optimize(req: Request, draw: nat -> real): (r: Reply)
    ensures req.intersectionType.None? || !req.hasFile ==> r == BadRequest
    ensures r.CsvFile? ==> |r.rows| == 24 && req.dataset.Some? && |req.dataset.value| > 0
    ensures r.CsvFile? ==> SignalWeights.BaseWeights(req.intersectionType.value).Some?
    ensures r.CsvFile? ==> r.fileName == SignalWeights.OutputFileName(req.intersectionType.value)
    ensures req.intersectionType.Some? && req.hasFile && req.dataset.None? ==> r == ServerError
    ensures req.intersectionType.Some? && req.hasFile && req.dataset.Some? && |req.dataset.value| == 0 ==> r == ServerError
    ensures req.intersectionType.Some? && req.hasFile && SignalWeights.BaseWeights(req.intersectionType.value).None? ==>
              r == ServerError
    ensures req.intersectionType.Some? && req.hasFile && req.dataset.Some? && |req.dataset.value| > 0
            && SignalWeights.BaseWeights(req.intersectionType.value).Some? ==>
              r == CsvFile(SignalWeights.OutputFileName(req.intersectionType.value),
                           OptimizeSignalTimings(req.dataset.value, SignalWeights.BaseWeights(req.intersectionType.value).value,
                                                 Hourly.Threshold(req.dataset.value).value, draw))
  {
    if req.intersectionType.None? || !req.hasFile then BadRequest
    else match req.dataset
      case None => ServerError
      case Some(obs) =>
        match Hourly.Threshold(obs)
        case Failure(_) => ServerError
        case Success(t) =>
          match SignalWeights.BaseWeights(req.intersectionType.value)
          case None => ServerError
          case Some(w) => CsvFile(SignalWeights.OutputFileName(req.intersectionType.value),
                                  OptimizeSignalTimings(obs, w, t, draw))
  }

  /** A successful reply has one row per hour of the day, in order, and each
      row's greens are the shared rule's greens for the band of that hour's
      own mean against the whole dataset's 75th-percentile threshold. */
  lemma ReplyRowsFollowBands(req: Request, draw: nat -> real)
    requires Optimize(req, draw).CsvFile?
    ensures var rows := Optimize(req, draw).rows;
            var obs := req.dataset.value;
            var w := SignalWeights.BaseWeights(req.intersectionType.value).value;
            forall h :: 0 <= h < 24 ==>
              rows[h].hour == h
              && rows[h].greens == SignalWeights.HourGreens(w, Hourly.BandOf(Hourly.HourMean(obs, h), Hourly.Threshold(obs).value))
  {
    var obs := req.dataset.value;
    var w := SignalWeights.BaseWeights(req.intersectionType.value).value;
    var t := Hourly.Threshold(obs).value;
    forall h: nat | h < 24
      ensures MakeRow(obs, w, t, h, draw).greens == SignalWeights.HourGreens(w, Hourly.BandOf(Hourly.HourMean(obs, h), t))
    {
      RowUsesBandCycle(obs, w, t, h, draw);
      HourBandIsMeanBand(obs, t, h);
    }
  }
}

=== FILE: calendar.dfy ===
/** The weekday table and the wrap-around day navigation of the client. */
module Calendar {
  import opened Wrappers
  import Numerics

  /** The weekday names, Monday first, as every page and the optimizer list them. */
  const DayNames: seq<string> :=
    ["Monday", "Tuesday", "Wednesday", "Thursday", "Friday", "Saturday", "Sunday"]

  /** A position in `DayNames`. */
  type DayIndex = i: int | 0 <= i < 7

  /** `(prev + 1) % dayNames.length`, with JavaScript's remainder. */
  function NextDay(i: DayIndex): (j: DayIndex)
    ensures j == if i == 6 then 0 else i + 1
  {
    Numerics.JsRem(i + 1, |DayNames|)
  }

  /** `(prev - 1 + dayNames.length) % dayNames.length`, with JavaScript's remainder. */
  function PreviousDay(i: DayIndex): (j: DayIndex)
    ensures j == if i == 0 then 6 else i - 1
  {
    Numerics.JsRem(i - 1 + |DayNames|, |DayNames|)
  }

  /** Stepping forward then back, or back then forward, returns to the same day. */
  lemma NextPreviousInverse(i: DayIndex)
    ensures PreviousDay(NextDay(i)) == i
    ensures NextDay(PreviousDay(i)) == i
  {
  }

  /** `n` steps forward. */
  function Forward(i: DayIndex, n: nat): DayIndex
  {
    if n == 0 then i else NextDay(Forward(i, n - 1))
  }

  /** `n` forward steps land on day `(i + n) mod 7`. */
  lemma {:induction false} ForwardIsModular(i: DayIndex, n: nat)
    ensures Forward(i, n) == (i + n) % 7
  {
    if n > 0 {
      ForwardIsModular(i, n - 1);
      StepMod(i + n - 1);
    }
  }

  /** Moving one day on from `m mod 7` gives `(m + 1) mod 7`. */
  lemma StepMod(m: nat)
    ensures NextDay(m % 7) == (m + 1) % 7
  {
    var q, r := m / 7, m % 7;
    assert m == 7 * q + r;
    if r == 6 {
      assert m + 1 == 7 * (q + 1);
    } else {
      assert m + 1 == 7 * q + (r + 1);
    }
  }

  /** The position of a weekday name in the visualizer's `days` array, or
      `None` for any other string. */
  function DayIndexOf(name: string): (r: Option<DayIndex>)
    ensures r.Some? <==> name in DayNames
    ensures r.Some? ==> DayNames[r.value] == name
  {
    if name == "Monday" then Some(0)
    else if name == "Tuesday" then Some(1)
    else if name == "Wednesday" then Some(2)
    else if name == "Thursday" then Some(3)
    else if name == "Friday" then Some(4)
    else if name == "Saturday" then Some(5)
    else if name == "Sunday" then Some(6)
    else None
  }
}

=== FILE: csv_codec.dfy ===
/** The client's naive CSV codec: `text.trim().split("\n")`, the first line is
    the header, every line is `split(",")` with each cell trimmed; and the
    inverse used for downloads, cells joined by "," and lines by "\n". No
    quoting or escaping exists on either side. */
module CsvCodec {
  import opened Text

  /** `CSVData`: a header line and the data lines, as cell strings. */
  datatype Table = Table(headers: seq<string>, rows: seq<seq<string>>)

  /** Every cell is free of surrounding whitespace. */
  predicate AllTrimmed(cells: seq<string>) {
    forall j :: 0 <= j < |cells| ==> IsTrimmed(cells[j])
  }

  /** `line.split(",").map(cell => cell.trim())`. */
  function ParseLine(line: string): (cells: seq<string>)
    ensures |cells| == Count(line, ',') + 1
    ensures AllTrimmed(cells)
  {
    var parts := Split(line, ',');
    seq(|parts|, i requires 0 <= i < |parts| => Trim(parts[i]))
  }

  /** `text.trim().split("\n")`. */
  function Lines(text: string): (lines: seq<string>)
    ensures |lines| == Count(Trim(text), '\n') + 1
  {
    Split(Trim(text), '\n')
  }

  /** `parseCSV`: never fails; every cell of the result is trimmed and the
      table has one data row per newline left inside the trimmed text. */
  function Parse(text: string): (t: Table)
    ensures |t.rows| == Count(Trim(text), '\n')
    ensures |t.headers| >= 1
    ensures AllTrimmed(t.headers)
    ensures forall i :: 0 <= i < |t.rows| ==> AllTrimmed(t.rows[i])
  {
    var lines := Lines(text);
    Table(ParseLine(lines[0]), ParseLines(lines[1..]))
  }

  /** Each line parsed on its own. */
  function ParseLines(lines: seq<string>): (rows: seq<seq<string>>)
    ensures |rows| == |lines|
    ensures forall i :: 0 <= i < |lines| ==> rows[i] == ParseLine(lines[i])
  {
    seq(|lines|, i requires 0 <= i < |lines| => ParseLine(lines[i]))
  }

  /** The text before the first newline, or all of it. */
  function FirstLine(t: string): string
  {
    if '\n' in t then t[..FirstIndex(t, '\n')] else t
  }

  /** The header comes from the first line of the trimmed text alone, and it
      has one more cell than that line has commas. */
  lemma HeadersFromFirstLine(text: string)
    ensures Parse(text).headers == ParseLine(FirstLine(Trim(text)))
    ensures |Parse(text).headers| == Count(FirstLine(Trim(text)), ',') + 1
  {
    SplitFirstPart(Trim(text), '\n');
  }

  /** Data row `i` is line `i + 1` of the trimmed text, with one more cell
      than that line has commas. */
  lemma RowFromLine(text: string, i: nat)
    requires i < Count(Trim(text), '\n')
    ensures Parse(text).rows[i] == ParseLine(Lines(text)[i + 1])
    ensures |Parse(text).rows[i]| == Count(Lines(text)[i + 1], ',') + 1
  {
    var lines := Lines(text);
    var rest := lines[1..];
    assert rest[i] == lines[i + 1];
    assert Parse(text).rows == ParseLines(rest);
  }

  /** Empty or blank input is not an error: it parses to the single empty
      header and no rows. */
  lemma ParseBlank(text: string)
    requires AllWhitespace(text)
    ensures Parse(text) == Table([""], [])
  {
    TrimBlank(text);
  }

  /** A cell the codec can carry unchanged: no separator, no line break, no
      surrounding whitespace. */
  predicate SafeCell(c: string) {
    ',' !in c && '\n' !in c && IsTrimmed(c)
  }

  /** Joins cells with "," and lines with "\n", with no trailing newline. */
  function Serialize(lines: seq<seq<string>>): string
  {
    Join(seq(|lines|, i requires 0 <= i < |lines| => Join(lines[i], ',')), '\n')
  }

  /** A line of at least two safe cells is a non-empty trimmed text without
      line breaks. */
  lemma SerializedLine(cells: seq<string>)
    requires |cells| >= 2
    requires forall j :: 0 <= j < |cells| ==> SafeCell(cells[j])
    ensures var l := Join(cells, ','); |l| > 0 && IsTrimmed(l) && '\n' !in l
  {
    JoinEnds(cells, ',');
    JoinAvoids(cells, ',', '\n');
  }

  /** The serialized lines, before they are joined by line breaks. */
  function JoinedLines(lines: seq<seq<string>>): (joined: seq<string>)
    ensures |joined| == |lines|
    ensures forall i :: 0 <= i < |lines| ==> joined[i] == Join(lines[i], ',')
  {
    seq(|lines|, i requires 0 <= i < |lines| => Join(lines[i], ','))
  }

  /** Splitting a serialized table on line breaks gives its lines back. */
  lemma LinesOfSerialized(lines: seq<seq<string>>)
    requires |lines| >= 1
    requires forall i :: 0 <= i < |lines| ==> |lines[i]| >= 2
    requires forall i, j :: 0 <= i < |lines| && 0 <= j < |lines[i]| ==> SafeCell(lines[i][j])
    ensures Serialize(lines) == Join(JoinedLines(lines), '\n')
    ensures Lines(Serialize(lines)) == JoinedLines(lines)
  {
    var joined := JoinedLines(lines);
    assert Serialize(lines) == Join(joined, '\n');
    forall i | 0 <= i < |lines|
      ensures |joined[i]| > 0 && IsTrimmed(joined[i]) && '\n' !in joined[i]
    {
      SerializedLine(lines[i]);
    }
    if |lines| >= 2 {
      JoinEnds(joined, '\n');
    }
    TrimIdentity(Join(joined, '\n'));
    SplitJoin(joined, '\n');
  }

  /** A line of safe cells parses back to those cells. */
  lemma LineRoundTrip(cells: seq<string>)
    requires |cells| >= 1
    requires forall j :: 0 <= j < |cells| ==> SafeCell(cells[j])
    ensures ParseLine(Join(cells, ',')) == cells
  {
    SplitJoin(cells, ',');
    forall j | 0 <= j < |cells|
      ensures Trim(cells[j]) == cells[j]
    {
      TrimIdentity(cells[j]);
    }
  }

  /** Parsing a serialized table gives back its header and rows, provided
      every line has at least two cells and every cell is safe. */
  lemma RoundTrip(lines: seq<seq<string>>)
    requires |lines| >= 1
    requires forall i :: 0 <= i < |lines| ==> |lines[i]| >= 2
    requires forall i, j :: 0 <= i < |lines| && 0 <= j < |lines[i]| ==> SafeCell(lines[i][j])
    ensures Parse(Serialize(lines)) == Table(lines[0], lines[1..])
  {
    LinesOfSerialized(lines);
    ParseJoined(lines);
    ParseFromLines(Serialize(lines), JoinedLines(lines), lines);
  }

  /** A text whose lines parse to `rows` parses to the table with the first
      of them as header. */
  lemma ParseFromLines(text: string, ls: seq<string>, rows: seq<seq<string>>)
    requires Lines(text) == ls && ParseLines(ls) == rows
    ensures Parse(text) == Table(rows[0], rows[1..])
  {
    assert Parse(text) == Table(ParseLine(ls[0]), ParseLines(ls[1..]));
    assert ParseLine(ls[0]) == rows[0];
    ParseLinesDrop(ls);
  }

  /** Parsing all lines but the first drops the first parsed line. */
  lemma ParseLinesDrop(ls: seq<string>)
    requires |ls| > 0
    ensures ParseLines(ls[1..]) == ParseLines(ls)[1..]
  {
    var tail := ParseLines(ls[1..]);
    var all := ParseLines(ls);
    forall i | 0 <= i < |tail|
      ensures tail[i] == all[1..][i]
    {
      assert ls[1..][i] == ls[i + 1];
    }
  }

  /** Parsing each serialized line gives back its cells. */
  lemma ParseJoined(lines: seq<seq<string>>)
    requires forall i :: 0 <= i < |lines| ==> |lines[i]| >= 2
    requires forall i, j :: 0 <= i < |lines| && 0 <= j < |lines[i]| ==> SafeCell(lines[i][j])
    ensures ParseLines(JoinedLines(lines)) == lines
  {
    var joined := JoinedLines(lines);
    forall i | 0 <= i < |lines|
      ensures ParseLine(joined[i]) == lines[i]
    {
      LineRoundTrip(lines[i]);
    }
  }
}

=== FILE: dashboard.dfy ===
/** The dashboard's figures: headline metrics looked up by parameter name,
    the per-signal changes, and the percentage improvement of the other
    parameters. */
module Dashboard {
  import opened Wrappers
  import Text
  import Seqs
  import Numerics

  /** One entry of the stored radar data. */
  datatype RadarItem = RadarItem(parameter: string, before: real, after: real)

  /** `items.find(item => item.parameter === name)`: the first entry with
      that name. */
  function Find(items: seq<RadarItem>, name: string): (r: Option<RadarItem>)
    ensures r.None? <==> forall i :: 0 <= i < |items| ==> items[i].parameter != name
    ensures r.Some? ==> r.value in items && r.value.parameter == name
  {
    if |items| == 0 then None
    else if items[0].parameter == name then Some(items[0])
    else Find(items[1..], name)
  }

  /** Entries before the first match do not matter, nor do later ones. */
  lemma {:induction false} FindFirst(items: seq<RadarItem>, k: nat)
    requires k < |items|
    requires forall j :: 0 <= j < k ==> items[j].parameter != items[k].parameter
    ensures Find(items, items[k].parameter) == Some(items[k])
  {
    if k > 0 {
      FindFirst(items[1..], k - 1);
    }
  }

  /** `find(...)?.before || 0`. */
  function BeforeOf(items: seq<RadarItem>, name: string): real
  {
    match Find(items, name)
    case Some(it) => it.before
    case None => 0.0
  }

  /** `find(...)?.after || fallback`: a missing entry or a zero `after` gives
      the fallback. */
  function AfterOr(items: seq<RadarItem>, name: string, fallback: real): real
  {
    match Find(items, name)
    case Some(it) => if it.after != 0.0 then it.after else fallback
    case None => fallback
  }

  /** The five headline numbers. */
  datatype Metrics = Metrics(vehicles: real, delay: real, queue: real, improvedDelay: real, improvedQueue: real)

  const Zero: Metrics := Metrics(0.0, 0.0, 0.0, 0.0, 0.0)

  /** `calculateMetrics`. */
  function CalculateMetrics(items: seq<RadarItem>): (m: Metrics)
    ensures |items| == 0 ==> m == Zero
    ensures Find(items, "Avg_Delay_Time").None? ==> m.delay == 0.0 && m.improvedDelay == 0.0
    ensures Find(items, "Avg_Queue_Length").None? ==> m.queue == 0.0 && m.improvedQueue == 0.0
    ensures m.improvedDelay == 0.0 ==> m.delay == 0.0
    ensures m.improvedQueue == 0.0 ==> m.queue == 0.0
    ensures Find(items, "Total_Vehicles").None? ==> m.vehicles == 0.0
    ensures Find(items, "Total_Vehicles").Some? ==> m.vehicles == Find(items, "Total_Vehicles").value.before
    ensures Find(items, "Avg_Delay_Time").Some? ==> m.delay == Find(items, "Avg_Delay_Time").value.before
    ensures Find(items, "Avg_Queue_Length").Some? ==> m.queue == Find(items, "Avg_Queue_Length").value.before
  {
    if |items| == 0 then Zero
    else
      var delay := BeforeOf(items, "Avg_Delay_Time");
      var queue := BeforeOf(items, "Avg_Queue_Length");
      Metrics(BeforeOf(items, "Total_Vehicles"), delay, queue,
              AfterOr(items, "Avg_Delay_Time", delay), AfterOr(items, "Avg_Queue_Length", queue))
  }

  /** The early return for empty data changes nothing: the lookups alone
      already give all zeros. */
  lemma EmptyGuardRedundant()
    ensures CalculateMetrics([]) == Metrics(BeforeOf([], "Total_Vehicles"), BeforeOf([], "Avg_Delay_Time"),
      BeforeOf([], "Avg_Queue_Length"), AfterOr([], "Avg_Delay_Time", 0.0), AfterOr([], "Avg_Queue_Length", 0.0))
  {
  }

  /** A headline value comes from the first entry with its name. */
  lemma MetricsFromFirstEntry(items: seq<RadarItem>, k: nat)
    requires k < |items| && items[k].parameter == "Avg_Delay_Time"
    requires forall j :: 0 <= j < k ==> items[j].parameter != "Avg_Delay_Time"
    ensures CalculateMetrics(items).delay == items[k].before
    ensures CalculateMetrics(items).improvedDelay == if items[k].after != 0.0 then items[k].after else items[k].before
  {
    FindFirst(items, k);
  }

  /** The vehicle count comes from the first Total_Vehicles entry. */
  lemma VehiclesFromFirstEntry(items: seq<RadarItem>, k: nat)
    requires k < |items| && items[k].parameter == "Total_Vehicles"
    requires forall j :: 0 <= j < k ==> items[j].parameter != "Total_Vehicles"
    ensures CalculateMetrics(items).vehicles == items[k].before
  {
    FindFirst(items, k);
  }

  /** The queue figures come from the first Avg_Queue_Length entry, the
      improved one falling back to the baseline when `after` is 0. */
  lemma QueueFromFirstEntry(items: seq<RadarItem>, k: nat)
    requires k < |items| && items[k].parameter == "Avg_Queue_Length"
    requires forall j :: 0 <= j < k ==> items[j].parameter != "Avg_Queue_Length"
    ensures CalculateMetrics(items).queue == items[k].before
    ensures CalculateMetrics(items).improvedQueue == if items[k].after != 0.0 then items[k].after else items[k].before
  {
    FindFirst(items, k);
  }

  /** `(after - before) / before * 100` when `before > 0`, else `0`. */
  function ChangePercent(before: real, after: real): real
  {
    if before > 0.0 then (after - before) / before * 100.0 else 0.0
  }

  /** `getImprovementPercentage`: positive when the value went down, zero
      when it stayed, and at most 100 for a non-negative result. */
  function ImprovementPercentage(before: real, after: real): (p: real)
    ensures before <= 0.0 ==> p == 0.0
    ensures before > 0.0 ==> (p > 0.0 <==> after < before) && (p == 0.0 <==> after == before)
    ensures before > 0.0 && after >= 0.0 ==> p <= 100.0
  {
    if before > 0.0 then
      var p := (before - after) / before * 100.0;
      assert p * before == (before - after) * 100.0;
      assert (p - 100.0) * before == -after * 100.0;
      assert after >= 0.0 ==> p <= 100.0 by {
        if after >= 0.0 && p > 100.0 {
          Numerics.PositiveProduct(p - 100.0, before);
          assert false;
        }
      }
      p
    else 0.0
  }

  /** A signal's change and a parameter's improvement are the same figure
      with opposite signs. */
  lemma ChangeIsNegatedImprovement(before: real, after: real)
    ensures ChangePercent(before, after) == -ImprovementPercentage(before, after)
  {
  }

  /** `item.parameter.includes("Signal")`. */
  predicate IsSignal(item: RadarItem) {
    Text.Contains(item.parameter, "Signal")
  }

  predicate IsNotSignal(item: RadarItem) {
    !IsSignal(item)
  }

  /** `parameter.replace("_", " ")`: the shown name, with the first
      underscore made a space. */
  function DisplayName(parameter: string): (name: string)
    ensures |name| == |parameter|
    ensures '_' in parameter ==> Text.Count(name, '_') == Text.Count(parameter, '_') - 1
    ensures '_' !in parameter ==> name == parameter
    ensures Text.Contains(name, "Signal") ==> Text.Contains(parameter, "Signal")
    ensures '_' in parameter ==>
              name[Text.FirstIndex(parameter, '_')] == ' '
              && forall j :: 0 <= j < |parameter| && j != Text.FirstIndex(parameter, '_') ==> name[j] == parameter[j]
  {
    var name := Text.ReplaceFirst(parameter, '_', ' ');
    assert '_' in parameter ==> Text.Count(name, '_') == Text.Count(parameter, '_') - 1 by {
      if '_' in parameter {
        Text.ReplaceFirstCount(parameter, '_', ' ');
      }
    }
    assert ' ' !in "Signal";
    Text.ReplaceFirstKeepsAbsent(parameter, '_', ' ', "Signal");
    name
  }

  /** For a parameter without spaces, putting the underscore back in place
      of the first space recovers the parameter: the renaming loses
      nothing. */
  lemma DisplayNameRoundTrip(parameter: string)
    requires ' ' !in parameter
    ensures Text.ReplaceFirst(DisplayName(parameter), ' ', '_') == parameter
  {
    var name := DisplayName(parameter);
    if '_' in parameter {
      var i := Text.FirstIndex(parameter, '_');
      assert name[i] == ' ';
      var j := Text.FirstIndex(name, ' ');
      assert j == i;
    } else {
      assert ' ' !in name;
    }
  }

  /** One row of the signal table. */
  datatype Improvement = Improvement(name: string, before: real, after: real, change: real)

  /** The row for one signal entry. */
  function ToImprovement(item: RadarItem): (r: Improvement)
    ensures r.name == DisplayName(item.parameter)
    ensures r.before == item.before && r.after == item.after
    ensures r.change == -ImprovementPercentage(item.before, item.after)
  {
    ChangeIsNegatedImprovement(item.before, item.after);
    Improvement(DisplayName(item.parameter), item.before, item.after, ChangePercent(item.before, item.after))
  }

  /** `calculateImprovements`: one row per signal entry, in input order. */
  function CalculateImprovements(items: seq<RadarItem>): (r: seq<Improvement>)
    ensures |r| == |Seqs.Filter(IsSignal, items)|
    ensures forall i :: 0 <= i < |r| ==>
              r[i].change == -ImprovementPercentage(r[i].before, r[i].after)
    ensures var idx := Seqs.KeptIndices(IsSignal, items, 0);
      |r| == |idx| && forall i :: 0 <= i < |r| ==> r[i] == ToImprovement(items[idx[i]])
  {
    var signals := Seqs.Filter(IsSignal, items);
    assert items[0..] == items;
    Seqs.FilterAtKeptIndices(IsSignal, items, 0);
    seq(|signals|, i requires 0 <= i < |signals| => ToImprovement(signals[i]))
  }

  /** The summary cards: every non-signal entry, in input order, under its
      shown name and with its improvement. */
  function SummaryCards(items: seq<RadarItem>): (cards: seq<(string, real)>)
    ensures |cards| == |Seqs.Filter(IsNotSignal, items)|
    ensures forall i :: 0 <= i < |cards| ==> !Text.Contains(cards[i].0, "Signal")
    ensures var idx := Seqs.KeptIndices(IsNotSignal, items, 0);
      |cards| == |idx| && forall i :: 0 <= i < |cards| ==>
        cards[i] == (DisplayName(items[idx[i]].parameter),
                     ImprovementPercentage(items[idx[i]].before, items[idx[i]].after))
  {
    var others := Seqs.Filter(IsNotSignal, items);
    assert items[0..] == items;
    Seqs.FilterAtKeptIndices(IsNotSignal, items, 0);
    seq(|others|, i requires 0 <= i < |others| =>
      (DisplayName(others[i].parameter), ImprovementPercentage(others[i].before, others[i].after)))
  }

  /** Every entry appears exactly once: in the signal table or among the
      summary cards, counted with its multiplicity. */
  lemma TablesPartitionEntries(items: seq<RadarItem>)
    ensures |CalculateImprovements(items)| + |SummaryCards(items)| == |items|
    ensures multiset(Seqs.Filter(IsSignal, items)) + multiset(Seqs.Filter(IsNotSignal, items)) == multiset(items)
  {
    Seqs.FilterPartition(IsSignal, IsNotSignal, items);
  }

  /** Position by position: each entry is kept by exactly one of the two
      filters, the signal table's or the summary cards'. */
  lemma EachEntryInOneTable(items: seq<RadarItem>, i: nat)
    requires i < |items|
    ensures i in Seqs.KeptIndices(IsSignal, items, 0) <==> i !in Seqs.KeptIndices(IsNotSignal, items, 0)
  {
    if IsSignal(items[i]) {
      Seqs.KeptIndicesComplete(IsSignal, items, 0, i);
    } else {
      Seqs.KeptIndicesComplete(IsNotSignal, items, 0, i);
    }
  }
}

=== FILE: hourly.dfy ===
/** The traffic statistics both optimizers compute from an uploaded
    dataset with pandas and numpy: mean vehicle counts per hour, the 75th
    percentile of those means, the split of the observed hours into peak
    and non-peak hours, and the random queue and delay metrics drawn from an
    hour's mean. */
module Hourly {
  import opened Wrappers
  import Numerics
  import Seqs

  /** One row of the dataset: its `Day` cell, its `Hour`, and its
      `Total_Vehicles`, `None` when the cell is empty (NaN). */
  datatype Observation = Observation(day: string, hour: int, vehicles: Option<real>)

  /** Some row has this hour. */
  predicate HasHour(obs: seq<Observation>, h: int) {
    |obs| > 0 && (obs[0].hour == h || HasHour(obs[1..], h))
  }

  lemma {:induction false} HasHourAt(obs: seq<Observation>, i: nat)
    requires i < |obs|
    ensures HasHour(obs, obs[i].hour)
  {
    if i > 0 {
      HasHourAt(obs[1..], i - 1);
    }
  }

  /** The vehicle counts of the rows with this hour, NaN cells skipped. */
  function HourValues(obs: seq<Observation>, h: int): (xs: seq<real>)
    ensures |xs| <= |obs|
    ensures |xs| > 0 ==> HasHour(obs, h)
  {
    if |obs| == 0 then []
    else (if obs[0].hour == h && obs[0].vehicles.Some? then [obs[0].vehicles.value] else []) + HourValues(obs[1..], h)
  }

  /** `groupby('Hour')['Total_Vehicles'].mean()` at one hour, and equally
      `dataset[dataset['Hour'] == h]['Total_Vehicles'].mean()`: `None` (NaN)
      when the hour has no numeric count. */
  function HourMean(obs: seq<Observation>, h: int): (m: Option<real>)
    ensures m.Some? ==> HasHour(obs, h)
  {
    Numerics.Mean(HourValues(obs, h))
  }

  /** The hours of the dataset, each once: the index of the grouped series. */
  function DistinctHours(obs: seq<Observation>): (hs: seq<int>)
    ensures forall i, j :: 0 <= i < j < |hs| ==> hs[i] != hs[j]
    ensures forall h :: h in hs <==> HasHour(obs, h)
    ensures |hs| == 0 <==> |obs| == 0
  {
    if |obs| == 0 then []
    else
      var rest := DistinctHours(obs[1..]);
      if obs[0].hour in rest then rest else [obs[0].hour] + rest
  }

  /** The hours of the dataset as a set. */
  function ObservedHours(obs: seq<Observation>): (hours: set<int>)
    ensures forall h :: h in hours <==> HasHour(obs, h)
  {
    set h | h in DistinctHours(obs)
  }

  /** The grouped means, one per observed hour. */
  function HourlyMeans(obs: seq<Observation>): (ms: seq<Option<real>>)
    ensures |ms| == |DistinctHours(obs)|
    ensures forall k :: 0 <= k < |ms| ==> ms[k] == HourMean(obs, DistinctHours(obs)[k])
  {
    var hs := DistinctHours(obs);
    seq(|hs|, k requires 0 <= k < |hs| => HourMean(obs, hs[k]))
  }

  /** Every hour of the dataset has at least one numeric count. */
  predicate AllNumeric(ms: seq<Option<real>>) {
    forall k :: 0 <= k < |ms| ==> ms[k].Some?
  }

  function Values(ms: seq<Option<real>>): (xs: seq<real>)
    requires AllNumeric(ms)
    ensures |xs| == |ms|
    ensures forall k :: 0 <= k < |ms| ==> xs[k] == ms[k].value
  {
    seq(|ms|, k requires 0 <= k < |ms| => ms[k].value)
  }

  /** The integer part of the rank `0.75 * (n - 1)`: a valid index, and
      not the last one when the rank has a fractional part. */
  lemma RankIndex(n: nat)
    requires n > 0
    ensures (3 * (n - 1)) / 4 < n
    ensures (3 * (n - 1)) % 4 != 0 ==> (3 * (n - 1)) / 4 + 1 < n
  {
    var q := (3 * (n - 1)) / 4;
    var r := (3 * (n - 1)) % 4;
    assert 4 * q + r == 3 * (n - 1);
  }

  /** In an ascending sequence each value lies between the first and the
      last, and is at most its successor. */
  lemma SortedBetween(x: seq<real>, i: nat)
    requires Seqs.Sorted(x) && i < |x|
    ensures x[0] <= x[i] <= x[|x| - 1]
    ensures i + 1 < |x| ==> x[i] <= x[i + 1]
  {
  }

  /** The value at the fraction `g` of the way from `a` to `b`. */
  function Lerp(a: real, b: real, g: real): (r: real)
    requires a <= b && 0.0 <= g <= 1.0
    ensures a <= r <= b
  {
    var w := b - a;
    assert 0.0 <= w * g <= w by {
      Numerics.ScaleBounds(w, g);
    }
    a + w * g
  }

  /** The value at fractional rank `0.75 * (n - 1)` of an ascending
      sequence, interpolated linearly. */
  function RankValue(x: seq<real>): (p: real)
    requires |x| > 0 && Seqs.Sorted(x)
    ensures x[0] <= p <= x[|x| - 1]
  {
    var n := |x|;
    RankIndex(n);
    var i := (3 * (n - 1)) / 4;
    var r := (3 * (n - 1)) % 4;
    SortedBetween(x, i);
    if r == 0 then x[i]
    else
      SortedBetween(x, i + 1);
      Lerp(x[i], x[i + 1], r as real / 4.0)
  }

  /** `np.percentile(xs, 75)` with numpy's default linear interpolation. */
  function Percentile75(xs: seq<real>): (p: real)
    requires |xs| > 0
    ensures Seqs.Sort(xs)[0] <= p <= Seqs.Sort(xs)[|xs| - 1]
  {
    RankValue(Seqs.Sort(xs))
  }

  /** The percentile of a single value, or of equal values, is that value. */
  lemma PercentileOfConstant(xs: seq<real>, c: real)
    requires |xs| > 0 && forall k :: 0 <= k < |xs| ==> xs[k] == c
    ensures Percentile75(xs) == c
  {
    Seqs.SortEnds(xs);
  }

  /** The threshold of `detect_peak_hours`: an error for an empty series
      (numpy raises), `None` (NaN) when some hour's mean is NaN, otherwise
      the 75th percentile of the hourly means. */
  function Threshold(obs: seq<Observation>): (t: Result<Option<real>, string>)
    ensures t.Failure? <==> |obs| == 0
    ensures t.Success? && AllNumeric(HourlyMeans(obs)) ==>
              t.value == Some(Percentile75(Values(HourlyMeans(obs))))
    ensures t.Success? && !AllNumeric(HourlyMeans(obs)) ==> t.value.None?
  {
    var ms := HourlyMeans(obs);
    if |ms| == 0 then Failure("IndexError")
    else if AllNumeric(ms) then Success(Some(Percentile75(Values(ms))))
    else Success(None)
  }

  /** How an hour is treated: `peak` when its mean exceeds the threshold,
      `non_peak` when it does not, and neither when either side is NaN (both
      comparisons are false). */
  datatype Band = Peak | NonPeak | Neither

  function BandOf(mean: Option<real>, threshold: Option<real>): (b: Band)
    ensures b == Peak <==> mean.Some? && threshold.Some? && mean.value > threshold.value
    ensures b == NonPeak <==> mean.Some? && threshold.Some? && mean.value <= threshold.value
  {
    if mean.None? || threshold.None? then Neither
    else if mean.value > threshold.value then Peak
    else NonPeak
  }

  /** `hourly_traffic[hourly_traffic > threshold].index`. */
  function PeakHours(obs: seq<Observation>, threshold: Option<real>): set<int>
  {
    set h | h in DistinctHours(obs) && BandOf(HourMean(obs, h), threshold) == Peak
  }

  /** `hourly_traffic[hourly_traffic <= threshold].index`. */
  function NonPeakHours(obs: seq<Observation>, threshold: Option<real>): set<int>
  {
    set h | h in DistinctHours(obs) && BandOf(HourMean(obs, h), threshold) == NonPeak
  }

  /** Peak and non-peak hours never overlap and are hours of the dataset;
      with a numeric threshold and numeric hourly means they cover every
      hour of the dataset. */
  lemma PeakPartition(obs: seq<Observation>, threshold: Option<real>)
    ensures PeakHours(obs, threshold) * NonPeakHours(obs, threshold) == {}
    ensures PeakHours(obs, threshold) + NonPeakHours(obs, threshold) <= ObservedHours(obs)
    ensures threshold.Some? && AllNumeric(HourlyMeans(obs)) ==>
              PeakHours(obs, threshold) + NonPeakHours(obs, threshold) == ObservedHours(obs)
  {
    if threshold.Some? && AllNumeric(HourlyMeans(obs)) {
      var hs := DistinctHours(obs);
      forall h | h in ObservedHours(obs)
        ensures h in PeakHours(obs, threshold) + NonPeakHours(obs, threshold)
      {
        var k :| 0 <= k < |hs| && hs[k] == h;
        assert HourlyMeans(obs)[k].Some?;
      }
    }
  }

  /** When every hour has a numeric mean, the hour with the smallest mean is
      never above the 75th percentile: some hour is always non-peak, and not
      every hour can be a peak hour. */
  lemma SomeHourNonPeak(obs: seq<Observation>)
    requires |obs| > 0 && AllNumeric(HourlyMeans(obs))
    ensures Threshold(obs).Success? && Threshold(obs).value.Some?
    ensures NonPeakHours(obs, Threshold(obs).value) != {}
    ensures PeakHours(obs, Threshold(obs).value) < ObservedHours(obs)
  {
    var hs := DistinctHours(obs);
    var xs := Values(HourlyMeans(obs));
    var t := Threshold(obs).value;
    Seqs.SortEnds(xs);
    var lowest := Seqs.Sort(xs)[0];
    var k :| 0 <= k < |xs| && xs[k] == lowest;
    assert HourMean(obs, hs[k]) == Some(lowest);
    assert BandOf(HourMean(obs, hs[k]), t) == NonPeak;
    assert hs[k] in NonPeakHours(obs, t);
    PeakPartition(obs, t);
    assert hs[k] !in PeakHours(obs, t);
  }

  /** A random metric of an hour, as both optimizers compute its queue length
      and delay: `round(total_vehicles * np.random.uniform(lo, hi), 2)`;
      NaN stays NaN. */
  function Metric(mean: Option<real>, lo: real, hi: real, u: real): (m: Option<real>)
    requires lo <= hi
    ensures m.Some? <==> mean.Some?
  {
    match mean
    case None => None
    case Some(tv) => Some(Numerics.PyRound2(tv * Numerics.Uniform(lo, hi, u)))
  }

  /** A metric is the mean scaled into `[lo, hi]`, up to rounding to cents. */
  lemma MetricBounds(tv: real, lo: real, hi: real, u: real)
    requires 0.0 <= lo <= hi && tv >= 0.0 && 0.0 <= u <= 1.0
    ensures tv * lo - 0.005 <= Metric(Some(tv), lo, hi, u).value <= tv * hi + 0.005
  {
    var f := Numerics.Uniform(lo, hi, u);
    assert tv * lo <= tv * f <= tv * hi by {
      assert tv * (f - lo) >= 0.0;
      assert tv * (hi - f) >= 0.0;
    }
  }

  /** The queue length and delay of an hour with a non-negative mean lie
      between 1% and 4%, and between 2% and 5%, of the mean, up to rounding
      to cents. */
  lemma MetricPairBounded(mean: Option<real>, queue: Option<real>, delay: Option<real>, u: real, v: real)
    requires mean.Some? && mean.value >= 0.0 && 0.0 <= u <= 1.0 && 0.0 <= v <= 1.0
    requires queue == Metric(mean, 0.01, 0.04, u) && delay == Metric(mean, 0.02, 0.05, v)
    ensures mean.value * 0.01 - 0.005 <= queue.value <= mean.value * 0.04 + 0.005
    ensures mean.value * 0.02 - 0.005 <= delay.value <= mean.value * 0.05 + 0.005
  {
    MetricBounds(mean.value, 0.01, 0.04, u);
    MetricBounds(mean.value, 0.02, 0.05, v);
  }
}

=== FILE: js.dfy ===
/** JavaScript values as the client and the proxy route see them after
    `JSON.parse`, with JavaScript truthiness, property reads and string
    conversion. */
module Js {
  import opened Wrappers
  import Text

  /** A JavaScript value. `Undefined` and `NaN` arise from reads of missing
      properties and failed numeric parses; the rest mirror JSON. */
  datatype Value =
    | Undefined
    | Null
    | Bool(b: bool)
    | Num(n: real)
    | NaN
    | Str(s: string)
    | Arr(items: seq<Value>)
    | Obj(fields: map<string, Value>)

  /** A browser `File` handle, by name and size; its bytes are never read
      by the modelled logic. */
  datatype FileRef = FileRef(name: string, size: nat)

  /** The host's `parseInt` (radix 10) and `parseFloat` on a string; `None`
      stands for `NaN`. Their digit-scanning rules are not modelled. */
  datatype NumberParsers = NumberParsers(parseInt: string -> Option<int>, parseFloat: string -> Option<real>)

  /** JavaScript truthiness: `undefined`, `null`, `false`, `0`, `NaN` and
      `""` are falsy; every array and object is truthy, even an empty one. */
  predicate Truthy(v: Value) {
    match v
    case Undefined => false
    case Null => false
    case NaN => false
    case Bool(b) => b
    case Num(n) => n != 0.0
    case Str(s) => s != ""
    case Arr(_) => true
    case Obj(_) => true
  }

  /** `v || fallback`. */
  function Or(v: Value, fallback: Value): Value
  {
    if Truthy(v) then v else fallback
  }

  /** The property read `v.key` (or `v[key]`), `None` when it throws a
      `TypeError`, which it does exactly on `undefined` and `null`. Only own
      properties of plain objects are modelled: every key the code reads
      (`Day`, `status`, `data`, `color`, ...) is absent from primitives and
      arrays. */
  function Member(v: Value, key: string): (r: Option<Value>)
    ensures r.None? <==> v.Undefined? || v.Null?
    ensures v.Obj? ==> r == Some(if key in v.fields then v.fields[key] else Undefined)
  {
    match v
    case Undefined => None
    case Null => None
    case Obj(fields) => Some(if key in fields then fields[key] else Undefined)
    case _ => Some(Undefined)
  }

  /** Decimal digits of a natural number, as JavaScript prints it. */
  function NatToString(n: nat): (r: string)
    ensures |r| >= 1
    ensures forall i :: 0 <= i < |r| ==> '0' <= r[i] <= '9'
  {
    var digit := ('0' as int + n % 10) as char;
    if n < 10 then [digit] else NatToString(n / 10) + [digit]
  }

  /** The indexed read `v[i]`: an array element, a one-character string, an
      object property named by the decimal index, `undefined` past the end
      or on other primitives, and a `TypeError` (`None`) on `undefined` and
      `null`. */
  function Index(v: Value, i: nat): (r: Option<Value>)
    ensures r.None? <==> v.Undefined? || v.Null?
    ensures v.Arr? && i < |v.items| ==> r == Some(v.items[i])
  {
    match v
    case Undefined => None
    case Null => None
    case Arr(items) => Some(if i < |items| then items[i] else Undefined)
    case Str(s) => Some(if i < |s| then Str([s[i]]) else Undefined)
    case Obj(fields) => Member(v, NatToString(i))
    case _ => Some(Undefined)
  }

  /** `String(v)`. How a finite number is printed is the parameter `show`;
      an array prints as its elements joined by commas, with `null` and
      `undefined` elements printed empty. */
  function ToStr(v: Value, show: real -> string): string
  {
    match v
    case Undefined => "undefined"
    case Null => "null"
    case NaN => "NaN"
    case Bool(b) => if b then "true" else "false"
    case Num(n) => show(n)
    case Str(s) => s
    case Arr(items) =>
      Text.Join(seq(|items|, i requires 0 <= i < |items| =>
                      if items[i].Undefined? || items[i].Null? then "" else ToStr(items[i], show)), ',')
    case Obj(_) => "[object Object]"
  }
}

=== FILE: live_traffic.dfy ===
/** The Flask service `live_traffic.py`: `POST /optimize` either scales a
    list of green times by the traffic color of a map segment (JSON body) or
    optimizes an uploaded dataset day by day (multipart body) and returns
    the result as a CSV download. */
module LiveTraffic {
  import opened Wrappers
  import Text
  import Seqs
  import Numerics
  import Calendar
  import Hourly
  import SignalWeights

  /** `color_to_vehicle_count`: red 60, yellow 40, green 10, whatever the
      letter case; anything else counts as yellow. */
  function VehicleCount(color: string): (n: int)
    ensures n == 60 <==> Text.LowerAll(color) == "red"
    ensures n == 10 <==> Text.LowerAll(color) == "green"
    ensures n == 40 <==> Text.LowerAll(color) != "red" && Text.LowerAll(color) != "green"
  {
    var c := Text.LowerAll(color);
    if c == "red" then 60 else if c == "yellow" then 40 else if c == "green" then 10 else 40
  }

  /** Letter case does not matter. */
  lemma VehicleCountIgnoresCase(color: string)
    ensures VehicleCount(color) == VehicleCount(Text.LowerAll(color))
  {
    Text.LowerAllIdempotent(color);
  }

  /** One green time before rounding, with `u` the draw of
      `np.random.uniform` as a fraction of its interval: heavy traffic
      (more than 50 vehicles) lengthens it by 5-10% but caps it at half the
      cycle, moderate traffic (more than 30) lengthens it by 5-8%, light
      traffic shortens it by 5-10% but keeps at least 10 s. */
  function RawTiming(count: int, time: real, cycle: real, u: real): (x: real)
    ensures count > 50 ==> x <= 0.5 * cycle
    ensures count <= 30 ==> x >= 10.0
  {
    if count > 50 then
      var scaled := time * Numerics.Uniform(1.05, 1.10, u);
      if scaled <= 0.5 * cycle then scaled else 0.5 * cycle
    else if count > 30 then time * Numerics.Uniform(1.05, 1.08, u)
    else
      var scaled := time * Numerics.Uniform(0.90, 0.95, u);
      if scaled >= 10.0 then scaled else 10.0
  }

  /** `sum(given_green_times) + len(given_green_times) * 5`. */
  function TotalCycle(times: seq<real>): real
  {
    Numerics.Sum(times) + (|times| * 5) as real
  }

  function Timings(count: int, times: seq<real>, cycle: real, draw: nat -> real): (r: seq<int>)
    ensures |r| == |times|
    ensures forall k :: 0 <= k < |times| ==> r[k] == Numerics.PyRound(RawTiming(count, times[k], cycle, draw(k)))
  {
    seq(|times|, k requires 0 <= k < |times| => Numerics.PyRound(RawTiming(count, times[k], cycle, draw(k))))
  }

  /** `calculate_optimized_timings`: the new green times and the estimated
      delay, `round(count / 60 * mean(new times))`; an empty list fails
      with a division by zero. `draw(k)` is the random fraction used for the
      k-th time. */
  function CalculateOptimizedTimings(color: string, times: seq<real>, draw: nat -> real): (r: Result<(seq<int>, int), string>)
    ensures r.Failure? <==> |times| == 0
    ensures r.Success? ==> |r.value.0| == |times|
    ensures r.Success? && VehicleCount(color) <= 30 ==> forall k :: 0 <= k < |times| ==> r.value.0[k] >= 10
    ensures r.Success? && VehicleCount(color) > 50 ==>
              forall k :: 0 <= k < |times| ==> r.value.0[k] as real <= 0.5 * TotalCycle(times) + 0.5
  {
    if |times| == 0 then Failure("ZeroDivisionError")
    else
      var count := VehicleCount(color);
      var greens := Timings(count, times, TotalCycle(times), draw);
      assert count <= 30 ==> forall k :: 0 <= k < |times| ==> greens[k] >= 10 by {
        if count <= 30 {
          forall k | 0 <= k < |times|
            ensures greens[k] >= 10
          {
            Numerics.PyRoundAtLeast(RawTiming(count, times[k], TotalCycle(times), draw(k)), 10);
          }
        }
      }
      var mean := Numerics.Sum(seq(|greens|, k requires 0 <= k < |greens| => greens[k] as real)) / |greens| as real;
      Success((greens, Numerics.PyRound(count as real / 60.0 * mean)))
  }

  /** Under moderate traffic a whole, non-negative green time is never
      shortened. */
  lemma ModerateNeverShortens(color: string, times: seq<real>, draw: nat -> real, k: nat)
    requires VehicleCount(color) == 40 && k < |times|
    requires times[k] >= 0.0 && times[k] == (times[k].Floor) as real
    requires 0.0 <= draw(k) <= 1.0
    ensures CalculateOptimizedTimings(color, times, draw).value.0[k] >= times[k].Floor
  {
    var u := Numerics.Uniform(1.05, 1.08, draw(k));
    assert RawTiming(40, times[k], TotalCycle(times), draw(k)) == times[k] * u;
    assert times[k] * u >= times[k] * 1.0 by {
      assert times[k] * (u - 1.0) >= 0.0;
    }
    Numerics.PyRoundAtLeast(RawTiming(40, times[k], TotalCycle(times), draw(k)), times[k].Floor);
  }

  /** A JSON value as Flask's `request.json` yields it. `PNonFinite` is a
      float NaN or infinity, which the parser accepts. */
  datatype PyValue =
    | PNone
    | PBool(b: bool)
    | PInt(i: int)
    | PFloat(x: real)
    | PNonFinite
    | PStr(s: string)
    | PList(items: seq<PyValue>)
    | PDict(entries: map<string, PyValue>)

  /** Python truthiness: `None`, `False`, zero, `""`, `[]` and `{}` are
      falsy; NaN is truthy. */
  predicate PyTruthy(v: PyValue) {
    match v
    case PNone => false
    case PBool(b) => b
    case PInt(i) => i != 0
    case PFloat(x) => x != 0.0
    case PNonFinite => true
    case PStr(s) => s != ""
    case PList(items) => |items| > 0
    case PDict(entries) => |entries| > 0
  }

  /** `isinstance(v, (int, float))`: `bool` is a subclass of `int`. */
  predicate IsNumber(v: PyValue) {
    v.PBool? || v.PInt? || v.PFloat? || v.PNonFinite?
  }

  /** The number a finite numeric value stands for. */
  function NumberValue(v: PyValue): real
    requires IsNumber(v) && !v.PNonFinite?
  {
    match v
    case PBool(b) => if b then 1.0 else 0.0
    case PInt(i) => i as real
    case PFloat(x) => x
  }

  /** The answers of `POST /optimize`. `ServerError` is an uncaught or
      caught exception (status 500), whose message is not modelled. */
  datatype Reply =
    | Timed(greenTimes: seq<int>, delay: int)
    | Download(fileName: string, rows: seq<OutRow>)
    | BadRequest(message: string)
    | ServerError

  const NoData: string := "No data provided"
  const MissingParameters: string := "Missing required parameters (color, green_times)"
  const NotNumbers: string := "green_times must be a list of numbers"
  const NoFile: string := "No file provided"

  /** `dict.get(key)`. */
  function Get(entries: map<string, PyValue>, key: string): PyValue
  {
    if key in entries then entries[key] else PNone
  }

  /** `isinstance(v, list) and all(isinstance(t, (int, float)) for t in v)`. */
  predicate IsNumberList(v: PyValue) {
    v.PList? && forall k :: 0 <= k < |v.items| ==> IsNumber(v.items[k])
  }

  /** The green times of a number list with no infinity or NaN. */
  function Numbers(items: seq<PyValue>): (times: seq<real>)
    requires forall k :: 0 <= k < |items| ==> IsNumber(items[k]) && !items[k].PNonFinite?
    ensures |times| == |items|
    ensures forall k :: 0 <= k < |items| ==> times[k] == NumberValue(items[k])
  {
    seq(|items|, k requires 0 <= k < |items| => NumberValue(items[k]))
  }

  /** Some list entry is `NaN` or an infinity. */
  predicate AnyNonFinite(items: seq<PyValue>) {
    exists k :: 0 <= k < |items| && items[k].PNonFinite?
  }

  /** The JSON branch of `/optimize`. `body` is `None` when the JSON is
      malformed, which Flask answers with 400. */
  function OptimizeJson(body: Option<PyValue>, draw: nat -> real): (r: Reply)
    ensures body.None? ==> r == BadRequest("Bad Request")
    ensures body.Some? && !PyTruthy(body.value) ==> r == BadRequest(NoData)
    ensures body.Some? && PyTruthy(body.value) && !body.value.PDict? ==> r == ServerError
    ensures body.Some? && PyTruthy(body.value) && body.value.PDict? ==>
              var color := Get(body.value.entries, "color");
              var greens := Get(body.value.entries, "green_times");
              && (!PyTruthy(color) || !PyTruthy(greens) ==> r == BadRequest(MissingParameters))
              && (PyTruthy(color) && PyTruthy(greens) && !IsNumberList(greens) ==> r == BadRequest(NotNumbers))
              && (PyTruthy(color) && IsNumberList(greens) && |greens.items| > 0 && !color.PStr? ==> r == ServerError)
              && (PyTruthy(color) && IsNumberList(greens) && AnyNonFinite(greens.items) ==> r == ServerError)
              && (PyTruthy(color) && color.PStr? && IsNumberList(greens) && |greens.items| > 0
                    && (forall k :: 0 <= k < |greens.items| ==> !greens.items[k].PNonFinite?) ==>
                  CalculateOptimizedTimings(color.s, Numbers(greens.items), draw).Success?
                  && r == Timed(CalculateOptimizedTimings(color.s, Numbers(greens.items), draw).value.0,
                                CalculateOptimizedTimings(color.s, Numbers(greens.items), draw).value.1))
    ensures r.Timed? ==> body.Some? && body.value.PDict?
    ensures r.Timed? ==> var greens := Get(body.value.entries, "green_times");
      greens.PList? && |r.greenTimes| == |greens.items| > 0
    ensures !r.Download?
  {
    if body.None? then BadRequest("Bad Request")
    else
      var data := body.value;
      if !PyTruthy(data) then BadRequest(NoData)
      else if !data.PDict? then ServerError
      else
        var color := Get(data.entries, "color");
        var greens := Get(data.entries, "green_times");
        if !PyTruthy(color) || !PyTruthy(greens) then BadRequest(MissingParameters)
        else if !IsNumberList(greens) then BadRequest(NotNumbers)
        else if !color.PStr? then ServerError
        else if AnyNonFinite(greens.items) then ServerError
        else
          match CalculateOptimizedTimings(color.s, Numbers(greens.items), draw)
          case Success((g, delay)) => Timed(g, delay)
          case Failure(_) => ServerError
  }

  /** A light-traffic green time of one second is raised to the 10 s
      floor, and the delay is `round(10 / 60 * 10) = 2`. */
  lemma OneSecondGreen(draw: nat -> real)
    requires 0.0 <= draw(0) <= 1.0
    ensures CalculateOptimizedTimings("green", [1.0], draw) == Success(([10], 2))
  {
    var times := [1.0];
    assert Text.LowerAll("green") == "green";
    assert VehicleCount("green") == 10;
    var u := Numerics.Uniform(0.90, 0.95, draw(0));
    assert RawTiming(10, 1.0, TotalCycle(times), draw(0)) == 10.0;
    assert Timings(10, times, TotalCycle(times), draw) == [10];
    assert seq(1, k requires 0 <= k < 1 => [10][k] as real) == [10.0];
    assert Numerics.Sum([10.0]) == 10.0;
    assert Numerics.PyRound(10.0 / 60.0 * 10.0) == 2;
  }

  /** JSON booleans pass the number check and count as 0 and 1. */
  lemma BooleansCountAsNumbers(draw: nat -> real)
    requires 0.0 <= draw(0) <= 1.0
    ensures OptimizeJson(Some(PDict(map["color" := PStr("green"), "green_times" := PList([PBool(true)])])), draw)
         == Timed([10], 2)
  {
    OneSecondGreen(draw);
    var greens := PList([PBool(true)]);
    assert IsNumber(greens.items[0]);
    assert seq(1, k requires 0 <= k < 1 => NumberValue(greens.items[k])) == [1.0];
  }

  /** An uploaded dataset after loading: whether it has a `Day` column, and
      its rows. */
  datatype Dataset = Dataset(hasDayColumn: bool, rows: seq<Hourly.Observation>)

  /** `dataset['Day'] = 'Monday'` when the column is missing. */
  function WithDays(ds: Dataset): (obs: seq<Hourly.Observation>)
    ensures |obs| == |ds.rows|
    ensures !ds.hasDayColumn ==> forall i :: 0 <= i < |obs| ==> obs[i].day == "Monday"
    ensures ds.hasDayColumn ==> obs == ds.rows
  {
    if ds.hasDayColumn then ds.rows
    else seq(|ds.rows|, i requires 0 <= i < |ds.rows| => ds.rows[i].(day := "Monday"))
  }

  /** `dataset['Day'] == day`, row by row. */
  function OnDay(day: string): Hourly.Observation -> bool
  {
    (o: Hourly.Observation) => o.day == day
  }

  /** `dataset[dataset['Day'] == day]`: the rows of that day, in their
      original order. */
  function DayRows(obs: seq<Hourly.Observation>, day: string): (r: seq<Hourly.Observation>)
    ensures forall o :: o in r <==> o in obs && o.day == day
    ensures var idx := Seqs.KeptIndices(OnDay(day), obs, 0);
            |r| == |idx| && forall k :: 0 <= k < |idx| ==> r[k] == obs[idx[k]]
  {
    assert obs[0..] == obs;
    Seqs.FilterAtKeptIndices(OnDay(day), obs, 0);
    Seqs.Filter(OnDay(day), obs)
  }

  /** Sorting the days by their weekday position raises `ValueError` when
      a day is not a weekday name. */
  predicate AllWeekdays(obs: seq<Hourly.Observation>) {
    forall i :: 0 <= i < |obs| ==> obs[i].day in Calendar.DayNames
  }

  /** One output row: `Day`, `Hour`, `Signal_k_Green` for each weight,
      `Avg_Queue_Length` and `Avg_Delay_Time` (`None` is NaN). */
  datatype OutRow = OutRow(dayIndex: Calendar.DayIndex, hour: int, greens: seq<int>,
                           queue: Option<real>, delay: Option<real>)

  /** The position of a row in the week, hour by hour. */
  function SlotOf(r: OutRow): int {
    r.dayIndex * 24 + r.hour
  }

  /** The week slot of a day and hour, counted from Monday 00:00. */
  function Slot(d: Calendar.DayIndex, hour: int): nat
    requires 0 <= hour < 24
  {
    d * 24 + hour
  }

  /** The row of one day and hour with data: band from the day's own
      threshold, weights and cycle from the band, metrics from the hour's
      mean. `draw(2n)` and `draw(2n+1)` are the random fractions of slot n. */
  function MakeRow(obs: seq<Hourly.Observation>, w: seq<real>, d: Calendar.DayIndex, hour: int, draw: nat -> real): (r: OutRow)
    requires 0 <= hour < 24
    requires Hourly.HasHour(DayRows(obs, Calendar.DayNames[d]), hour)
    ensures r.dayIndex == d && r.hour == hour && |r.greens| == |w|
    ensures var rows := DayRows(obs, Calendar.DayNames[d]);
            r.greens == SignalWeights.HourGreens(w, Hourly.BandOf(Hourly.HourMean(rows, hour), Hourly.Threshold(rows).value))
            && (r.queue.Some? <==> Hourly.HourMean(rows, hour).Some?)
            && (r.delay.Some? <==> Hourly.HourMean(rows, hour).Some?)
    ensures var mean := Hourly.HourMean(DayRows(obs, Calendar.DayNames[d]), hour);
            r.queue == Hourly.Metric(mean, 0.01, 0.04, draw(2 * Slot(d, hour)))
            && r.delay == Hourly.Metric(mean, 0.02, 0.05, draw(2 * Slot(d, hour) + 1))
  {
    var rows := DayRows(obs, Calendar.DayNames[d]);
    var band := Hourly.BandOf(Hourly.HourMean(rows, hour), Hourly.Threshold(rows).value);
    var mean := Hourly.HourMean(rows, hour);
    var slot := Slot(d, hour);
    OutRow(d, hour, SignalWeights.HourGreens(w, band),
           Hourly.Metric(mean, 0.01, 0.04, draw(2 * slot)), Hourly.Metric(mean, 0.02, 0.05, draw(2 * slot + 1)))
  }

  /** A row's queue length lies between 1% and 4% of its hour's mean count,
      and its delay between 2% and 5%, up to rounding to cents. */
  lemma RowMetricsBounded(obs: seq<Hourly.Observation>, w: seq<real>, d: Calendar.DayIndex, hour: int, draw: nat -> real)
    requires 0 <= hour < 24
    requires Hourly.HasHour(DayRows(obs, Calendar.DayNames[d]), hour)
    requires Hourly.HourMean(DayRows(obs, Calendar.DayNames[d]), hour).Some?
    requires Hourly.HourMean(DayRows(obs, Calendar.DayNames[d]), hour).value >= 0.0
    requires 0.0 <= draw(2 * Slot(d, hour)) <= 1.0 && 0.0 <= draw(2 * Slot(d, hour) + 1) <= 1.0
    ensures var m := Hourly.HourMean(DayRows(obs, Calendar.DayNames[d]), hour).value;
            var r := MakeRow(obs, w, d, hour, draw);
            m * 0.01 - 0.005 <= r.queue.value <= m * 0.04 + 0.005
            && m * 0.02 - 0.005 <= r.delay.value <= m * 0.05 + 0.005
  {
    var r := MakeRow(obs, w, d, hour, draw);
    Hourly.MetricPairBounded(Hourly.HourMean(DayRows(obs, Calendar.DayNames[d]), hour), r.queue, r.delay,
                             draw(2 * Slot(d, hour)), draw(2 * Slot(d, hour) + 1));
  }

  /** The weekday of week slot `n`, found by comparison rather than by
      division so that the recursion over slots stays linear. */
  function SlotDay(n: nat): (d: Calendar.DayIndex)
    requires n < 168
    ensures d * 24 <= n < d * 24 + 24
  {
    if n < 24 then 0 else if n < 48 then 1 else if n < 72 then 2 else if n < 96 then 3
    else if n < 120 then 4 else if n < 144 then 5 else 6
  }

  /** The hour of week slot `n`. */
  function SlotHour(n: nat): (h: nat)
    requires n < 168
    ensures h < 24 && SlotDay(n) * 24 + h == n
  {
    n - SlotDay(n) * 24
  }

  /** A week slot is day `n / 24`, hour `n % 24`. */
  lemma SlotParts(n: nat)
    requires n < 168
    ensures SlotDay(n) == n / 24 && SlotHour(n) == n % 24
  {
  }

  /** Whether the week slot `n` has data. */
  predicate SlotHasData(obs: seq<Hourly.Observation>, n: nat)
    requires n < 168
  {
    Hourly.HasHour(DayRows(obs, Calendar.DayNames[SlotDay(n)]), SlotHour(n))
  }

  /** Whether a week slot has data, as a test on all naturals. */
  function HasData(obs: seq<Hourly.Observation>): nat -> bool
  {
    (n: nat) => n < 168 && SlotHasData(obs, n)
  }

  /** The week slots from `n` on that pass `has`, in order: the loop over
      the days in weekday order and the hours in order, skipping hours
      without data. */
  function DataSlots(has: nat -> bool, n: nat): (slots: seq<nat>)
    requires n <= 168
    ensures forall i :: 0 <= i < |slots| ==> n <= slots[i] < 168 && has(slots[i])
    ensures forall i, j :: 0 <= i < j < |slots| ==> slots[i] < slots[j]
    decreases 168 - n
  {
    if n == 168 then []
    else if has(n) then [n] + DataSlots(has, n + 1)
    else DataSlots(has, n + 1)
  }

  /** Every slot that passes `has` is enumerated. */
  lemma {:induction false} DataSlotsComplete(has: nat -> bool, n: nat, m: nat)
    requires n <= m < 168 && has(m)
    ensures m in DataSlots(has, n)
    decreases m - n
  {
    if n < m {
      DataSlotsComplete(has, n + 1, m);
      if has(n) {
        assert DataSlots(has, n) == [n] + DataSlots(has, n + 1);
      }
    }
  }

  /** The row of week slot `n`. */
  function SlotRow(obs: seq<Hourly.Observation>, w: seq<real>, n: nat, draw: nat -> real): (r: OutRow)
    requires n < 168 && SlotHasData(obs, n)
    ensures SlotOf(r) == n && 0 <= r.hour < 24 && |r.greens| == |w|
  {
    MakeRow(obs, w, SlotDay(n), SlotHour(n), draw)
  }

  /** The rows of `optimize_signal_timings`: one per slot with data. */
  function WeekRows(obs: seq<Hourly.Observation>, w: seq<real>, draw: nat -> real): (rows: seq<OutRow>)
    ensures |rows| == |DataSlots(HasData(obs), 0)|
    ensures forall i :: 0 <= i < |rows| ==>
              SlotOf(rows[i]) == DataSlots(HasData(obs), 0)[i] && 0 <= rows[i].hour < 24 && |rows[i].greens| == |w|
  {
    var slots := DataSlots(HasData(obs), 0);
    seq(|slots|, i requires 0 <= i < |slots| => SlotRow(obs, w, slots[i], draw))
  }

  /** Row i is the row of the i-th slot with data. */
  lemma WeekRowsAreSlotRows(obs: seq<Hourly.Observation>, w: seq<real>, draw: nat -> real)
    ensures forall i :: 0 <= i < |WeekRows(obs, w, draw)| ==>
              i < |DataSlots(HasData(obs), 0)| && WeekRows(obs, w, draw)[i] == SlotRow(obs, w, DataSlots(HasData(obs), 0)[i], draw)
  {
  }

  /** The rows come in strictly increasing (day, hour) order, and each is
      for a day and hour with data. */
  lemma RowsOrdered(obs: seq<Hourly.Observation>, w: seq<real>, draw: nat -> real)
    ensures forall i, j :: 0 <= i < j < |WeekRows(obs, w, draw)| ==>
              SlotOf(WeekRows(obs, w, draw)[i]) < SlotOf(WeekRows(obs, w, draw)[j])
    ensures forall i :: 0 <= i < |WeekRows(obs, w, draw)| ==>
              SlotOf(WeekRows(obs, w, draw)[i]) < 168 && SlotHasData(obs, SlotOf(WeekRows(obs, w, draw)[i]))
  {
    var rows := WeekRows(obs, w, draw);
    var slots := DataSlots(HasData(obs), 0);
    assert forall i :: 0 <= i < |rows| ==> SlotOf(rows[i]) == slots[i];
  }

  /** Every day and hour with data has its row. */
  lemma RowsComplete(obs: seq<Hourly.Observation>, w: seq<real>, draw: nat -> real, m: nat)
    requires m < 168 && SlotHasData(obs, m)
    ensures exists i :: 0 <= i < |WeekRows(obs, w, draw)| && SlotOf(WeekRows(obs, w, draw)[i]) == m
  {
    assert HasData(obs)(m);
    DataSlotsComplete(HasData(obs), 0, m);
    var slots := DataSlots(HasData(obs), 0);
    var k :| 0 <= k < |slots| && slots[k] == m;
    assert SlotOf(WeekRows(obs, w, draw)[k]) == m;
  }

  /** A row's band is the peak/non-peak classification of its day: its
      cycle is 120 s exactly when its hour is a peak hour of that day. */
  lemma RowBandMatchesPeakHours(obs: seq<Hourly.Observation>, w: seq<real>, d: Calendar.DayIndex, hour: int, draw: nat -> real)
    requires 0 <= hour < 24
    requires Hourly.HasHour(DayRows(obs, Calendar.DayNames[d]), hour)
    ensures var rows := DayRows(obs, Calendar.DayNames[d]);
      var t := Hourly.Threshold(rows).value;
      (hour in Hourly.PeakHours(rows, t) <==> Hourly.BandOf(Hourly.HourMean(rows, hour), t).Peak?)
      && (hour in Hourly.NonPeakHours(rows, t) <==> Hourly.BandOf(Hourly.HourMean(rows, hour), t).NonPeak?)
  {
  }

  /** An upload: whether a `file` part is present, the `intersection_type`
      field, and the dataset, `None` when reading it fails (unparsable
      file, no `Hour` or `Total_Vehicles` column, an `Hour` that
      `astype(int)` cannot convert: NaN, infinite or not numeric). The
      dataset's hours are those after the cast, which truncates a
      fractional hour such as 3.5 to 3. */
  datatype Upload = Upload(hasFile: bool, intersectionType: Option<string>, dataset: Option<Dataset>)

  /** The multipart branch of `/optimize`. */
  function OptimizeFile(up: Upload, draw: nat -> real): (r: Reply)
    ensures !up.hasFile ==> r == BadRequest(NoFile)
    ensures up.hasFile && up.dataset.None? ==> r == ServerError
    ensures r.Download? ==> up.dataset.Some? && AllWeekdays(WithDays(up.dataset.value))
    ensures r.Download? ==> SignalWeights.BaseWeights(up.intersectionType.GetOr("Four-Way")).Some?
    ensures r.Download? ==> r.fileName == SignalWeights.OutputFileName(up.intersectionType.GetOr("Four-Way"))
    ensures !r.Timed?
    ensures up.hasFile && up.dataset.Some? && !AllWeekdays(WithDays(up.dataset.value)) ==> r == ServerError
    ensures up.hasFile && SignalWeights.BaseWeights(up.intersectionType.GetOr("Four-Way")).None? ==> r == ServerError
    ensures var t := up.intersectionType.GetOr("Four-Way");
            up.hasFile && up.dataset.Some? && AllWeekdays(WithDays(up.dataset.value))
            && SignalWeights.BaseWeights(t).Some? ==>
              r == Download(SignalWeights.OutputFileName(t),
                            WeekRows(WithDays(up.dataset.value), SignalWeights.BaseWeights(t).value, draw))
  {
    if !up.hasFile then BadRequest(NoFile)
    else
      var topology := up.intersectionType.GetOr("Four-Way");
      match up.dataset
      case None => ServerError
      case Some(ds) =>
        var obs := WithDays(ds);
        if !AllWeekdays(obs) then ServerError
        else match SignalWeights.BaseWeights(topology)
          case None => ServerError
          case Some(w) => Download(SignalWeights.OutputFileName(topology), WeekRows(obs, w, draw))
  }

  /** Whether an upload gets past every check of the file branch. */
  predicate Accepted(up: Upload) {
    && up.hasFile && up.dataset.Some? && AllWeekdays(WithDays(up.dataset.value))
    && SignalWeights.BaseWeights(up.intersectionType.GetOr("Four-Way")).Some?
  }

  /** A successful upload downloads the week's schedule: one row per day
      and hour with data, in (day, hour) order, none missing. */
  lemma DownloadIsWeekSchedule(up: Upload, draw: nat -> real)
    requires Accepted(up)
    ensures OptimizeFile(up, draw).Download?
    ensures var rows := OptimizeFile(up, draw).rows;
            var obs := WithDays(up.dataset.value);
            (forall i, j :: 0 <= i < j < |rows| ==> SlotOf(rows[i]) < SlotOf(rows[j]))
            && (forall i :: 0 <= i < |rows| ==> SlotOf(rows[i]) < 168 && SlotHasData(obs, SlotOf(rows[i])))
            && (forall m :: 0 <= m < 168 && SlotHasData(obs, m) ==> exists i :: 0 <= i < |rows| && SlotOf(rows[i]) == m)
  {
    var obs := WithDays(up.dataset.value);
    var w := SignalWeights.BaseWeights(up.intersectionType.GetOr("Four-Way")).value;
    RowsOrdered(obs, w, draw);
    forall m | 0 <= m < 168 && SlotHasData(obs, m)
      ensures exists i :: 0 <= i < |WeekRows(obs, w, draw)| && SlotOf(WeekRows(obs, w, draw)[i]) == m
    {
      RowsComplete(obs, w, draw, m);
    }
  }

  /** Each downloaded row has the green times of its hour's band, judged
      against its own day's threshold, under the topology's weights. */
  lemma DownloadGreensFollowBands(up: Upload, draw: nat -> real)
    requires Accepted(up)
    ensures OptimizeFile(up, draw).Download?
    ensures forall i :: 0 <= i < |OptimizeFile(up, draw).rows| ==>
              var row := OptimizeFile(up, draw).rows[i];
              var day := DayRows(WithDays(up.dataset.value), Calendar.DayNames[row.dayIndex]);
              row.greens == SignalWeights.HourGreens(SignalWeights.BaseWeights(up.intersectionType.GetOr("Four-Way")).value,
                                                    Hourly.BandOf(Hourly.HourMean(day, row.hour), Hourly.Threshold(day).value))
  {
    var obs := WithDays(up.dataset.value);
    var w := SignalWeights.BaseWeights(up.intersectionType.GetOr("Four-Way")).value;
    WeekRowsAreSlotRows(obs, w, draw);
  }

  /** The upload page offers "Diamond Intersection", but the weight table's
      key is "Diamond": such an upload always ends in a server error, while
      the other three types the page offers are accepted. */
  lemma DiamondIntersectionRejected(up: Upload, draw: nat -> real)
    requires up.hasFile && up.intersectionType == Some("Diamond Intersection")
    ensures OptimizeFile(up, draw) == ServerError
    ensures forall t :: t in ["Four-Way", "T-Junction", "Roundabout"] ==> SignalWeights.BaseWeights(t).Some?
  {
  }
}

=== FILE: numerics.dfy ===
/** The numeric primitives of the two languages, on exact reals: JavaScript's
    truncating remainder and `Math.round`, Python's `round` (half to even),
    averages and the affine map behind `np.random.uniform`. */
module Numerics {
  import opened Wrappers

  /** JavaScript `a % b`: the remainder of truncating division, which takes
      the sign of `a` (Dafny's `%` is Euclidean and never negative). */
  function JsRem(a: int, b: int): (r: int)
    requires b > 0
    ensures a >= 0 ==> 0 <= r < b && r == a % b
    ensures a < 0 ==> -b < r <= 0
  {
    if a >= 0 then a % b else -((-a) % b)
  }

  /** `Math.round`: the nearest integer, halves rounded towards +infinity. */
  function JsRound(x: real): (r: int)
    ensures r as real - 0.5 <= x < r as real + 0.5
  {
    (x + 0.5).Floor
  }

  /** Python's built-in `round(x)`: the nearest integer, halves rounded to
      the even neighbour. */
  function PyRound(x: real): (r: int)
    ensures -0.5 <= r as real - x <= 0.5
    ensures (r as real - x == 0.5 || x - r as real == 0.5) ==> r % 2 == 0
  {
    var f := x.Floor;
    var frac := x - f as real;
    if frac < 0.5 then f
    else if frac > 0.5 then f + 1
    else if f % 2 == 0 then f
    else f + 1
  }

  /** Rounding half to even never reverses an order. */
  lemma PyRoundMonotonic(x: real, y: real)
    requires x <= y
    ensures PyRound(x) <= PyRound(y)
  {
    if x.Floor < y.Floor {
      assert PyRound(x) <= x.Floor + 1;
      assert y.Floor <= PyRound(y);
    }
  }

  /** Rounding a value at or above an integer stays at or above it. */
  lemma PyRoundAtLeast(x: real, n: int)
    requires n as real <= x
    ensures n <= PyRound(x)
  {
  }

  /** Python's `round(x, 2)`: the nearest multiple of 1/100, ties to even. */
  function PyRound2(x: real): (r: real)
    ensures -0.005 <= r - x <= 0.005
  {
    PyRound(x * 100.0) as real / 100.0
  }

  /** A value of `np.random.uniform(lo, hi)`, given the draw as the fraction
      `u` of the interval. */
  function Uniform(lo: real, hi: real, u: real): (r: real)
    requires lo <= hi
    ensures 0.0 <= u <= 1.0 ==> lo <= r <= hi
  {
    assert 0.0 <= u <= 1.0 ==> 0.0 <= (hi - lo) * u <= hi - lo by {
      if 0.0 <= u <= 1.0 {
        ScaleBounds(hi - lo, u);
      }
    }
    lo + (hi - lo) * u
  }

  /** Scaling a non-negative width by a fraction stays within the width. */
  lemma ScaleBounds(w: real, u: real)
    requires w >= 0.0 && 0.0 <= u <= 1.0
    ensures 0.0 <= w * u <= w
  {
    assert w * u <= w * 1.0 by {
      assert w * (1.0 - u) >= 0.0;
    }
  }

  /** The product of two positive reals is positive. */
  lemma PositiveProduct(a: real, b: real)
    requires a > 0.0 && b > 0.0
    ensures a * b > 0.0
  {
  }

  /** A positive product with a positive factor has a positive other factor. */
  lemma PositiveFactor(a: real, b: real)
    requires b > 0.0 && a * b > 0.0
    ensures a > 0.0
  {
    assert a == (a * b) / b;
  }

  function Sum(xs: seq<real>): real
  {
    if |xs| == 0 then 0.0 else xs[0] + Sum(xs[1..])
  }

  /** A bound on every element bounds the sum. */
  lemma {:induction false} SumBounds(xs: seq<real>, lo: real, hi: real)
    requires forall i :: 0 <= i < |xs| ==> lo <= xs[i] <= hi
    ensures lo * |xs| as real <= Sum(xs) <= hi * |xs| as real
  {
    if |xs| > 0 {
      SumBounds(xs[1..], lo, hi);
    }
  }

  /** pandas' `mean`: `None` stands for the NaN of an empty selection. */
  function Mean(xs: seq<real>): (r: Option<real>)
    ensures r.Some? <==> |xs| > 0
    ensures r.Some? ==> r.value * |xs| as real == Sum(xs)
  {
    if |xs| == 0 then None else Some(Sum(xs) / |xs| as real)
  }

  /** The mean lies between any lower and upper bound of the values. */
  lemma MeanBounds(xs: seq<real>, lo: real, hi: real)
    requires |xs| > 0
    requires forall i :: 0 <= i < |xs| ==> lo <= xs[i] <= hi
    ensures lo <= Mean(xs).value <= hi
  {
    SumBounds(xs, lo, hi);
  }
}

=== FILE: optimize_route.dfy ===
/** The Next.js route `POST /api/optimize-traffic`: it accepts a color and
    the current green times as JSON or as form fields, validates them, and
    answers with a mock optimization (the call to the optimizer service is
    disabled in the route). */
module OptimizeRoute {
  import opened Wrappers
  import opened Js
  import Text
  import Numerics

  /** One multipart form field. */
  datatype FormEntry = TextEntry(text: string) | FileEntry(file: FileRef)

  /** A request: its `Content-Type` header, and what `request.json()` and
      `request.formData()` would give for its body (`None` where the read
      throws). The header decides which of the two the route uses. */
  datatype Request = Request(
    contentType: Option<string>,
    json: Option<Value>,
    form: Option<seq<(string, FormEntry)>>)

  /** The route's answer: the mock result, or an error with its status. */
  datatype Answer =
    | Optimized(greenTimes: seq<Option<int>>, delay: int)
    | Error(status: int, error: string)

  const InvalidGreenTimes: string := "Invalid green_times format"
  const NotImplemented: string := "File upload not implemented yet"
  const MissingFormFields: string := "Invalid request: Missing required fields"
  const MissingFields: string := "Missing required fields"
  const Failed: string := "Failed to process request"

  /** `formData.has(key)`. */
  predicate Has(form: seq<(string, FormEntry)>, key: string) {
    exists i :: 0 <= i < |form| && form[i].0 == key
  }

  /** `formData.get(key)`: the first entry with that key. */
  function Get(form: seq<(string, FormEntry)>, key: string): (e: Option<FormEntry>)
    ensures e.Some? <==> Has(form, key)
    ensures e.Some? ==> (key, e.value) in form
  {
    if |form| == 0 then None
    else if form[0].0 == key then Some(form[0].1)
    else
      var rest := Get(form[1..], key);
      assert Has(form, key) ==> Has(form[1..], key) by {
        if Has(form, key) {
          var i :| 0 <= i < |form| && form[i].0 == key;
          assert form[1..][i - 1].0 == key;
        }
      }
      assert rest.Some? ==> (key, rest.value) in form by {
        if rest.Some? {
          assert (key, rest.value) in form[1..];
        }
      }
      rest
  }

  /** A form field as a JavaScript value: text is a string, a file is an
      object (truthy). */
  function EntryValue(e: FormEntry): Value
  {
    match e
    case TextEntry(t) => Str(t)
    case FileEntry(f) => Obj(map["name" := Str(f.name)])
  }

  /** `String(entry)`: what `JSON.parse` sees when handed a form field. */
  function EntryText(e: FormEntry): string
  {
    match e
    case TextEntry(t) => t
    case FileEntry(_) => "[object File]"
  }

  /** The request data a form yields: `color` and `green_times` (parsed as
      JSON) win over `file`; a `file` alone is not implemented; neither is a
      bad request. */
  function FromForm(form: seq<(string, FormEntry)>, parseJson: string -> Option<Value>): (r: Result<Value, Answer>)
    ensures Has(form, "color") && Has(form, "green_times") ==>
              (r.Failure? <==> parseJson(EntryText(Get(form, "green_times").value)).None?)
    ensures Has(form, "color") && Has(form, "green_times")
            && parseJson(EntryText(Get(form, "green_times").value)).None? ==>
              r == Failure(Error(400, InvalidGreenTimes))
    ensures Has(form, "color") && Has(form, "green_times")
            && parseJson(EntryText(Get(form, "green_times").value)).Some? ==>
              r == Success(Obj(map["color" := EntryValue(Get(form, "color").value),
                                   "green_times" := parseJson(EntryText(Get(form, "green_times").value)).value]))
    ensures !(Has(form, "color") && Has(form, "green_times")) && Has(form, "file") ==>
              r == Failure(Error(501, NotImplemented))
    ensures !(Has(form, "color") && Has(form, "green_times")) && !Has(form, "file") ==>
              r == Failure(Error(400, MissingFormFields))
    ensures r.Failure? ==> r.error.Error? && r.error.status in {400, 501}
  {
    if Has(form, "color") && Has(form, "green_times") then
      var color := EntryValue(Get(form, "color").value);
      match parseJson(EntryText(Get(form, "green_times").value))
      case None => Failure(Error(400, InvalidGreenTimes))
      case Some(greens) => Success(Obj(map["color" := color, "green_times" := greens]))
    else if Has(form, "file") then Failure(Error(501, NotImplemented))
    else Failure(Error(400, MissingFormFields))
  }

  /** `!data || !data.color || !data.green_times`. */
  predicate Valid(data: Value) {
    Truthy(data) && Truthy(Member(data, "color").value) && Truthy(Member(data, "green_times").value)
  }

  /** The mock factors for the three green times. */
  const Factors: seq<real> := [0.9, 1.1, 1.0]

  /** One scaled green time, `Math.round(n * factor)`. */
  function Scaled(n: int, factor: real): (g: int)
    ensures g as real - 0.5 <= n as real * factor < g as real + 0.5
  {
    Numerics.JsRound(n as real * factor)
  }

  /** `Math.round(parseInt(green_times[i]) * factor)`; `None` is `NaN`,
      which the JSON reply carries as `null`. */
  function MockGreen(greens: Value, i: nat, factor: real, p: NumberParsers, show: real -> string): (g: Option<int>)
    requires !greens.Undefined? && !greens.Null?
    ensures greens.Arr? && i < |greens.items| && greens.items[i].Str? ==>
              (g.Some? <==> p.parseInt(greens.items[i].s).Some?)
              && (g.Some? ==> g.value == Numerics.JsRound(p.parseInt(greens.items[i].s).value as real * factor))
    ensures greens.Arr? && i < |greens.items| ==>
              (g.Some? <==> p.parseInt(ToStr(greens.items[i], show)).Some?)
              && (g.Some? ==> g.value == Scaled(p.parseInt(ToStr(greens.items[i], show)).value, factor))
    ensures greens.Arr? && i >= |greens.items| && p.parseInt("undefined").None? ==> g.None?
  {
    var item := Index(greens, i).value;
    assert greens.Arr? && i < |greens.items| ==> item == greens.items[i];
    match p.parseInt(ToStr(item, show))
    case Some(n) => Some(Scaled(n, factor))
    case None => None
  }

  /** Whether the route reads the body as JSON. */
  predicate IsJson(req: Request) {
    Text.Contains(req.contentType.GetOr(""), "application/json")
  }

  /** The request data, or the answer that ends the request early: a body
      that cannot be read is a server error (500). */
  function RequestData(req: Request, parseJson: string -> Option<Value>): (r: Result<Value, Answer>)
    ensures IsJson(req) ==> (r.Failure? <==> req.json.None?)
    ensures IsJson(req) && req.json.None? ==> r == Failure(Error(500, Failed))
    ensures IsJson(req) && req.json.Some? ==> r == Success(req.json.value)
    ensures !IsJson(req) && req.form.None? ==> r == Failure(Error(500, Failed))
    ensures !IsJson(req) && req.form.Some? ==> r == FromForm(req.form.value, parseJson)
  {
    if IsJson(req) then
      match req.json
      case None => Failure(Error(500, Failed))
      case Some(v) => Success(v)
    else
      match req.form
      case None => Failure(Error(500, Failed))
      case Some(form) => FromForm(form, parseJson)
  }

  /** `POST`: `random` is the draw of `Math.random()`. Every answer is a
      bad request, a server error, "not implemented", or the mock result with
      three green times and a delay between 45 and 75 seconds. */
  function Handle(req: Request, parseJson: string -> Option<Value>, p: NumberParsers,
                  show: real -> string, random: real): (a: Answer)
    requires 0.0 <= random < 1.0
    ensures a.Error? ==> a.status in {400, 500, 501}
    ensures RequestData(req, parseJson).Failure? ==> a == RequestData(req, parseJson).error
    ensures RequestData(req, parseJson).Success? && !Valid(RequestData(req, parseJson).value) ==>
              a == Error(400, MissingFields)
    ensures a.Optimized? <==> RequestData(req, parseJson).Success? && Valid(RequestData(req, parseJson).value)
    ensures a.Optimized? ==> |a.greenTimes| == 3 && 45 <= a.delay <= 75
  {
    match RequestData(req, parseJson)
    case Failure(answer) => answer
    case Success(d) =>
      if !Valid(d) then Error(400, MissingFields)
      else
        var greens := Member(d, "green_times").value;
        var delay := Numerics.JsRound(45.0 + random * 30.0);
        Optimized([MockGreen(greens, 0, Factors[0], p, show),
                   MockGreen(greens, 1, Factors[1], p, show),
                   MockGreen(greens, 2, Factors[2], p, show)], delay)
  }

  /** For a JSON body with a truthy color and a green_times array of at
      least three items whose first three print as integers (numbers or
      numeric strings), the mock scales items 0, 1 and 2 by 0.9, 1.1 and
      1.0 and rounds; other keys and further items play no part. */
  lemma MockScalesGreenTimes(req: Request, fields: map<string, Value>, items: seq<Value>,
                             parseJson: string -> Option<Value>, p: NumberParsers, show: real -> string, random: real)
    requires 0.0 <= random < 1.0
    requires IsJson(req) && req.json == Some(Obj(fields))
    requires "color" in fields && Truthy(fields["color"])
    requires "green_times" in fields && fields["green_times"] == Arr(items) && |items| >= 3
    requires p.parseInt(ToStr(items[0], show)).Some? && p.parseInt(ToStr(items[1], show)).Some?
    requires p.parseInt(ToStr(items[2], show)).Some?
    ensures Handle(req, parseJson, p, show, random) ==
      Optimized([Some(Scaled(p.parseInt(ToStr(items[0], show)).value, 0.9)),
                 Some(Scaled(p.parseInt(ToStr(items[1], show)).value, 1.1)),
                 Some(Scaled(p.parseInt(ToStr(items[2], show)).value, 1.0))],
                Numerics.JsRound(45.0 + random * 30.0))
  {
  }

  /** JSON numbers in particular, from a four-way body with an extra key:
      green times 30, 25, 20 and 40 printed as their digits give 27, 28
      and 20, and the fourth is ignored. */
  lemma NumericGreenTimes(req: Request, parseJson: string -> Option<Value>, p: NumberParsers,
                          show: real -> string, random: real)
    requires 0.0 <= random < 1.0
    requires IsJson(req)
    requires req.json == Some(Obj(map["color" := Str("red"),
                                      "green_times" := Arr([Num(30.0), Num(25.0), Num(20.0), Num(40.0)]),
                                      "intersection_type" := Str("Four-Way")]))
    requires p.parseInt(show(30.0)) == Some(30) && p.parseInt(show(25.0)) == Some(25)
    requires p.parseInt(show(20.0)) == Some(20)
    ensures Handle(req, parseJson, p, show, random).Optimized?
    ensures Handle(req, parseJson, p, show, random).greenTimes == [Some(27), Some(28), Some(20)]
  {
    var fields := req.json.value.fields;
    MockScalesGreenTimes(req, fields, [Num(30.0), Num(25.0), Num(20.0), Num(40.0)], parseJson, p, show, random);
    assert Scaled(30, 0.9) == 27;
    assert Scaled(25, 1.1) == 28;
    assert Scaled(20, 1.0) == 20;
  }

  /** The validation uses JavaScript truthiness, so an empty list of green times
      passes it and every mock green time is `null`. */
  lemma EmptyGreenTimesPass(req: Request, parseJson: string -> Option<Value>, p: NumberParsers,
                            show: real -> string, random: real)
    requires 0.0 <= random < 1.0
    requires IsJson(req) && req.json == Some(Obj(map["color" := Str("red"), "green_times" := Arr([])]))
    requires p.parseInt("undefined").None?
    ensures Handle(req, parseJson, p, show, random).Optimized?
    ensures Handle(req, parseJson, p, show, random).greenTimes == [None, None, None]
  {
  }

  /** A form body whose `green_times` field is not valid JSON is a bad
      request, whatever else the form holds. */
  lemma InvalidFormGreenTimesRejected(req: Request, form: seq<(string, FormEntry)>,
                                      parseJson: string -> Option<Value>, p: NumberParsers,
                                      show: real -> string, random: real)
    requires 0.0 <= random < 1.0
    requires !IsJson(req) && req.form == Some(form)
    requires Has(form, "color") && Has(form, "green_times")
    requires parseJson(EntryText(Get(form, "green_times").value)).None?
    ensures Handle(req, parseJson, p, show, random) == Error(400, InvalidGreenTimes)
  {
  }

  /** A form body with a non-empty `color` text and a `green_times` text
      that parses to an array of at least three integers gets the same
      mock as the JSON body: items 0, 1 and 2 scaled by 0.9, 1.1 and 1.0. */
  lemma FormScalesGreenTimes(req: Request, form: seq<(string, FormEntry)>, color: string, items: seq<Value>,
                             parseJson: string -> Option<Value>, p: NumberParsers, show: real -> string, random: real)
    requires 0.0 <= random < 1.0
    requires !IsJson(req) && req.form == Some(form)
    requires Get(form, "color") == Some(TextEntry(color)) && color != ""
    requires Has(form, "green_times") && parseJson(EntryText(Get(form, "green_times").value)) == Some(Arr(items))
    requires |items| >= 3
    requires p.parseInt(ToStr(items[0], show)).Some? && p.parseInt(ToStr(items[1], show)).Some?
    requires p.parseInt(ToStr(items[2], show)).Some?
    ensures Handle(req, parseJson, p, show, random) ==
      Optimized([Some(Scaled(p.parseInt(ToStr(items[0], show)).value, 0.9)),
                 Some(Scaled(p.parseInt(ToStr(items[1], show)).value, 1.1)),
                 Some(Scaled(p.parseInt(ToStr(items[2], show)).value, 1.0))],
                Numerics.JsRound(45.0 + random * 30.0))
  {
  }
}

=== FILE: radar_chart.dfy ===
/** The radar chart component: the average improvement it shows in its
    footer and the way it prints parameter names. */
module RadarChart {
  import opened Wrappers
  import opened Js
  import Text
  import Numerics

  /** A `before`/`after` field of a chart entry: a number, a string, or absent. */
  datatype RadarValue = Number(x: real) | Text(s: string) | Missing

  datatype Entry = Entry(parameter: string, before: RadarValue, after: RadarValue)

  /** `typeof v === 'number' ? v : parseFloat(v) || 0`: a string that is not
      a number, and an absent field, count as `0`. */
  function NumericValue(v: RadarValue, p: NumberParsers): (x: real)
    ensures v.Number? ==> x == v.x
    ensures v.Missing? ==> x == 0.0
    ensures v.Text? && p.parseFloat(v.s).None? ==> x == 0.0
  {
    match v
    case Number(x) => x
    case Text(s) => p.parseFloat(s).GetOr(0.0)
    case Missing => 0.0
  }

  /** The entries shown when the component gets none. */
  const SampleData: seq<Entry> := [
    Entry("Total_Vehicles", Number(450.0), Number(500.0)),
    Entry("Signal_1_Vehicles", Number(150.0), Number(180.0)),
    Entry("Signal_2_Vehicles", Number(120.0), Number(150.0)),
    Entry("Signal_3_Vehicles", Number(100.0), Number(120.0)),
    Entry("Signal_1_Timings", Number(30.0), Number(25.0)),
    Entry("Signal_2_Timings", Number(25.0), Number(20.0)),
    Entry("Signal_3_Timings", Number(20.0), Number(18.0)),
    Entry("Avg_Queue_Length", Number(12.0), Number(8.0)),
    Entry("Avg_Delay_Time", Number(35.0), Number(25.0))]

  /** `data.length > 0 ? data : sample`. */
  function Displayed(data: seq<Entry>): (d: seq<Entry>)
    ensures |d| > 0
    ensures |data| > 0 ==> d == data
    ensures |data| == 0 ==> d == SampleData && |d| == 9
  {
    if |data| > 0 then data else SampleData
  }

  /** Timings, queue lengths and delays improve when they go down; every
      other parameter (vehicle counts) improves when it goes up. */
  predicate LowerIsBetter(parameter: string) {
    Text.Contains(parameter, "Timings") || Text.Contains(parameter, "Queue") || Text.Contains(parameter, "Delay")
  }

  /** One entry's percentage improvement, relative to `before`. */
  function Score(parameter: string, before: real, after: real): (s: real)
    requires before > 0.0
    ensures s > 0.0 <==> (if LowerIsBetter(parameter) then after < before else after > before)
  {
    var s := if LowerIsBetter(parameter) then (before - after) / before * 100.0
             else (after - before) / before * 100.0;
    assert s * before == (if LowerIsBetter(parameter) then before - after else after - before) * 100.0;
    s
  }

  /** Whether an entry takes part in the average: `beforeValue > 0`. */
  predicate Counted(e: Entry, p: NumberParsers) {
    NumericValue(e.before, p) > 0.0
  }

  /** Whether a counted entry moved in its good direction. */
  predicate Improved(e: Entry, p: NumberParsers) {
    var b := NumericValue(e.before, p);
    var a := NumericValue(e.after, p);
    b > 0.0 && (if LowerIsBetter(e.parameter) then a < b else a > b)
  }

  /** The loop of `calculateImprovement`: the sum of the scores and the
      number of entries counted. */
  function Tally(entries: seq<Entry>, p: NumberParsers): (t: (real, nat))
    ensures t.1 <= |entries|
    ensures t.1 == 0 ==> t.0 == 0.0
  {
    if |entries| == 0 then (0.0, 0)
    else
      var rest := Tally(entries[1..], p);
      var e := entries[0];
      var b := NumericValue(e.before, p);
      if b > 0.0 then (Score(e.parameter, b, NumericValue(e.after, p)) + rest.0, rest.1 + 1)
      else rest
  }

  /** Entries whose `before` is not positive leave the tally alone. */
  lemma {:induction false} UncountedIgnored(entries: seq<Entry>, e: Entry, k: nat, p: NumberParsers)
    requires k <= |entries| && !Counted(e, p)
    ensures Tally(entries[..k] + [e] + entries[k..], p) == Tally(entries, p)
  {
    if k == 0 {
      assert ([e] + entries)[1..] == entries;
      assert entries[..0] + [e] + entries[0..] == [e] + entries;
    } else {
      UncountedIgnored(entries[1..], e, k - 1, p);
      var longer := entries[..k] + [e] + entries[k..];
      assert longer[0] == entries[0];
      assert longer[1..] == entries[1..][..k - 1] + [e] + entries[1..][k - 1..];
    }
  }

  /** When every counted entry improved, the sum of the scores is positive
      as soon as one entry is counted. */
  lemma {:induction false} AllImprovedPositive(entries: seq<Entry>, p: NumberParsers)
    requires forall i :: 0 <= i < |entries| && Counted(entries[i], p) ==> Improved(entries[i], p)
    ensures Tally(entries, p).1 > 0 ==> Tally(entries, p).0 > 0.0
  {
    if |entries| > 0 {
      AllImprovedPositive(entries[1..], p);
    }
  }

  /** `calculateImprovement` before `toFixed(1)`: `null` for no entries,
      otherwise the mean score of the counted entries, or 0 when none counts. */
  function Improvement(entries: seq<Entry>, p: NumberParsers): (r: Option<real>)
    ensures r.None? <==> |entries| == 0
    ensures r.Some? && Tally(entries, p).1 == 0 ==> r.value == 0.0
    ensures r.Some? && Tally(entries, p).1 > 0 ==> r.value * (Tally(entries, p).1 as real) == Tally(entries, p).0
  {
    if |entries| == 0 then None
    else
      var (sum, count) := Tally(entries, p);
      if count > 0 then Some(sum / count as real) else Some(0.0)
  }

  /** The figure the footer shows: never `null`, because an empty `data`
      falls back to the sample. */
  function ShownImprovement(data: seq<Entry>, p: NumberParsers): (r: real)
    ensures Improvement(Displayed(data), p) == Some(r)
  {
    Improvement(Displayed(data), p).value
  }

  /** If every counted entry improved and at least one counts, the footer
      reports a positive improvement. */
  lemma ImprovingDataShowsGain(data: seq<Entry>, p: NumberParsers)
    requires forall i :: 0 <= i < |Displayed(data)| && Counted(Displayed(data)[i], p) ==> Improved(Displayed(data)[i], p)
    requires Tally(Displayed(data), p).1 > 0
    ensures ShownImprovement(data, p) > 0.0
  {
    ImprovingEntriesGain(Displayed(data), p);
  }

  /** The same on the entries themselves. */
  lemma ImprovingEntriesGain(entries: seq<Entry>, p: NumberParsers)
    requires forall i :: 0 <= i < |entries| && Counted(entries[i], p) ==> Improved(entries[i], p)
    requires Tally(entries, p).1 > 0
    ensures |entries| > 0 && Improvement(entries, p).value > 0.0
  {
    AllImprovedPositive(entries, p);
    var t := Tally(entries, p);
    assert |entries| > 0;
    MeanPositive(Improvement(entries, p), t.0, t.1);
  }

  /** A mean whose product with a positive count is a positive sum is
      itself positive. */
  lemma MeanPositive(mean: Option<real>, sum: real, count: nat)
    requires mean.Some? && count > 0 && sum > 0.0 && mean.value * (count as real) == sum
    ensures mean.value > 0.0
  {
    Numerics.PositiveFactor(mean.value, count as real);
  }

  /** A counted entry makes the count of the tally positive. */
  lemma {:induction false} CountedMakesTally(entries: seq<Entry>, p: NumberParsers, k: nat)
    requires k < |entries| && Counted(entries[k], p)
    ensures Tally(entries, p).1 > 0
  {
    if k > 0 && !Counted(entries[0], p) {
      CountedMakesTally(entries[1..], p, k - 1);
    }
  }

  /** Without data the footer reports the sample's figure, and the
      fallback is never applied twice. */
  lemma EmptyDataShowsSample(data: seq<Entry>, p: NumberParsers)
    ensures Displayed(Displayed(data)) == Displayed(data)
    ensures |data| == 0 ==> ShownImprovement(data, p) == Improvement(SampleData, p).value
  {
  }

  /** `word.charAt(0).toUpperCase() + word.slice(1).toLowerCase()`. */
  function Capitalize(word: string): (w: string)
    ensures |w| == |word|
  {
    if |word| == 0 then "" else [Text.ToUpper(word[0])] + Text.LowerAll(word[1..])
  }

  function CapitalizeAll(words: seq<string>): (r: seq<string>)
    ensures |r| == |words|
    ensures forall i :: 0 <= i < |words| ==> r[i] == Capitalize(words[i])
  {
    if |words| == 0 then [] else [Capitalize(words[0])] + CapitalizeAll(words[1..])
  }

  /** `formatParameter`: underscores become spaces, then each space-separated
      word is capitalized. */
  function FormatParameter(param: string): string
  {
    Text.Join(CapitalizeAll(Text.Split(Text.ReplaceAll(param, '_', ' '), ' ')), ' ')
  }

  /** The same formatting, character by character: a space stays, the first
      character of a word is upper-cased and the rest lower-cased. */
  function CaseByPosition(s: string, atWordStart: bool): (r: string)
    ensures |r| == |s|
  {
    if |s| == 0 then ""
    else if s[0] == ' ' then " " + CaseByPosition(s[1..], true)
    else [if atWordStart then Text.ToUpper(s[0]) else Text.ToLower(s[0])] + CaseByPosition(s[1..], false)
  }

  /** Putting text in front of the first part puts it in front of the join. */
  lemma JoinPrepend(x: string, first: string, rest: seq<string>, d: char)
    ensures Text.Join([x + first] + rest, d) == x + Text.Join([first] + rest, d)
  {
    if |rest| > 0 {
      assert ([x + first] + rest)[1..] == rest;
      assert ([first] + rest)[1..] == rest;
    }
  }

  /** Splitting on spaces and capitalizing each word agrees with the
      position-wise definition; in the middle of a word the first piece is
      only lower-cased. */
  lemma {:induction false} SplitCapitalizeIsCaseByPosition(s: string)
    ensures Text.Join(CapitalizeAll(Text.Split(s, ' ')), ' ') == CaseByPosition(s, true)
    ensures var parts := Text.Split(s, ' ');
      Text.Join([Text.LowerAll(parts[0])] + CapitalizeAll(parts[1..]), ' ') == CaseByPosition(s, false)
  {
    var parts := Text.Split(s, ' ');
    if |s| == 0 {
      assert parts == [""];
    } else {
      SplitCapitalizeIsCaseByPosition(s[1..]);
      var rest := Text.Split(s[1..], ' ');
      assert s == [s[0]] + s[1..];
      if s[0] == ' ' {
        assert parts == [""] + rest;
        SpaceCons(rest, s[1..]);
        assert parts[1..] == rest;
      } else {
        assert parts == [[s[0]] + rest[0]] + rest[1..];
        LetterConsUpper(s[0], rest[0], rest[1..], s[1..]);
        LetterConsLower(s[0], rest[0], rest[1..], s[1..]);
        assert parts[1..] == rest[1..];
      }
    }
  }

  /** A space in front of the text starts a new, empty word. */
  lemma SpaceCons(words: seq<string>, text: string)
    requires |words| > 0
    requires Text.Join(CapitalizeAll(words), ' ') == CaseByPosition(text, true)
    ensures Text.Join(CapitalizeAll([""] + words), ' ') == CaseByPosition([' '] + text, true)
    ensures Text.Join([Text.LowerAll("")] + CapitalizeAll(words), ' ') == CaseByPosition([' '] + text, false)
  {
    var caps := CapitalizeAll(words);
    assert CaseByPosition([' '] + text, true) == " " + CaseByPosition(text, true) by {
      assert ([' '] + text)[1..] == text;
    }
    assert CaseByPosition([' '] + text, false) == " " + CaseByPosition(text, true) by {
      assert ([' '] + text)[1..] == text;
    }
    assert Text.Join([""] + caps, ' ') == " " + Text.Join(caps, ' ') by {
      assert ([""] + caps)[1..] == caps;
    }
    assert CapitalizeAll([""] + words) == [""] + caps;
    assert Text.LowerAll("") == "";
  }

  /** A letter in front of the text joins the first word: capitalized at a
      word start. */
  lemma LetterConsUpper(c: char, word: string, more: seq<string>, text: string)
    requires c != ' '
    requires Text.Join([Text.LowerAll(word)] + CapitalizeAll(more), ' ') == CaseByPosition(text, false)
    ensures Text.Join(CapitalizeAll([[c] + word] + more), ' ') == CaseByPosition([c] + text, true)
  {
    var tail := CapitalizeAll(more);
    assert CaseByPosition([c] + text, true) == [Text.ToUpper(c)] + CaseByPosition(text, false) by {
      assert ([c] + text)[1..] == text;
    }
    assert CapitalizeAll([[c] + word] + more) == [[Text.ToUpper(c)] + Text.LowerAll(word)] + tail by {
      assert ([c] + word)[1..] == word;
    }
    JoinPrepend([Text.ToUpper(c)], Text.LowerAll(word), tail, ' ');
  }

  /** A letter in front of the text joins the first word: lower-cased inside
      a word. */
  lemma LetterConsLower(c: char, word: string, more: seq<string>, text: string)
    requires c != ' '
    requires Text.Join([Text.LowerAll(word)] + CapitalizeAll(more), ' ') == CaseByPosition(text, false)
    ensures Text.Join([Text.LowerAll([c] + word)] + CapitalizeAll(more), ' ') == CaseByPosition([c] + text, false)
  {
    assert CaseByPosition([c] + text, false) == [Text.ToLower(c)] + CaseByPosition(text, false) by {
      assert ([c] + text)[1..] == text;
    }
    assert Text.LowerAll([c] + word) == [Text.ToLower(c)] + Text.LowerAll(word);
    JoinPrepend([Text.ToLower(c)], Text.LowerAll(word), CapitalizeAll(more), ' ');
  }

  /** `formatParameter` as a position-wise mapping: the output is as long
      as the input, has a space exactly where the input had a space or an
      underscore, and is otherwise a case change of the input character. */
  lemma FormatByPosition(param: string)
    ensures FormatParameter(param) == CaseByPosition(Text.ReplaceAll(param, '_', ' '), true)
    ensures |FormatParameter(param)| == |param|
    ensures '_' !in FormatParameter(param)
  {
    SplitCapitalizeIsCaseByPosition(Text.ReplaceAll(param, '_', ' '));
    CaseNoUnderscore(Text.ReplaceAll(param, '_', ' '), true);
  }

  /** Position-wise casing never makes an underscore out of something else. */
  lemma {:induction false} CaseNoUnderscore(s: string, atWordStart: bool)
    requires '_' !in s
    ensures '_' !in CaseByPosition(s, atWordStart)
  {
    if |s| > 0 {
      CaseNoUnderscore(s[1..], s[0] == ' ');
      assert Text.ToUpper(s[0]) != '_' && Text.ToLower(s[0]) != '_';
    }
  }

  /** Position-wise casing applied twice is applied once. */
  lemma {:induction false} CaseIdempotent(s: string, atWordStart: bool)
    ensures CaseByPosition(CaseByPosition(s, atWordStart), atWordStart) == CaseByPosition(s, atWordStart)
  {
    if |s| > 0 {
      var once := CaseByPosition(s, atWordStart);
      CaseIdempotent(s[1..], s[0] == ' ');
      var c := if atWordStart then Text.ToUpper(s[0]) else Text.ToLower(s[0]);
      if s[0] != ' ' {
        assert c != ' ';
        assert once == [c] + CaseByPosition(s[1..], false);
        assert once[1..] == CaseByPosition(s[1..], false);
      } else {
        assert once[1..] == CaseByPosition(s[1..], true);
      }
    }
  }

  /** Formatting a formatted name changes nothing. */
  lemma FormatIdempotent(param: string)
    ensures FormatParameter(FormatParameter(param)) == FormatParameter(param)
  {
    var f := FormatParameter(param);
    FormatByPosition(param);
    FormatByPosition(f);
    assert Text.ReplaceAll(f, '_', ' ') == f;
    CaseIdempotent(Text.ReplaceAll(param, '_', ' '), true);
  }
}

=== FILE: seqs.dfy ===
/** Order-preserving selection over sequences: `Array.prototype.filter`. */
module Seqs {

  /** The elements of `s` that satisfy `p`, in their original order. */
  function Filter<T(!new)>(p: T -> bool, s: seq<T>): (r: seq<T>)
    ensures |r| <= |s|
    ensures forall i :: 0 <= i < |r| ==> p(r[i])
    ensures forall x :: x in r <==> x in s && p(x)
  {
    if |s| == 0 then []
    else (if p(s[0]) then [s[0]] else []) + Filter(p, s[1..])
  }

  /** The positions from `n` on whose elements satisfy `p`, in increasing
      order: an independent account of what `Filter` keeps. */
  function KeptIndices<T>(p: T -> bool, s: seq<T>, n: nat): (idx: seq<nat>)
    requires n <= |s|
    ensures forall k :: 0 <= k < |idx| ==> n <= idx[k] < |s| && p(s[idx[k]])
    ensures forall k, l :: 0 <= k < l < |idx| ==> idx[k] < idx[l]
    decreases |s| - n
  {
    if n == |s| then []
    else if p(s[n]) then [n] + KeptIndices(p, s, n + 1)
    else KeptIndices(p, s, n + 1)
  }

  /** No position whose element satisfies `p` is skipped. */
  lemma {:induction false} KeptIndicesComplete<T>(p: T -> bool, s: seq<T>, n: nat, i: nat)
    requires n <= i < |s| && p(s[i])
    ensures i in KeptIndices(p, s, n)
    decreases i - n
  {
    if n < i {
      KeptIndicesComplete(p, s, n + 1, i);
      if p(s[n]) {
        assert KeptIndices(p, s, n) == [n] + KeptIndices(p, s, n + 1);
      }
    }
  }

  /** `Filter` keeps exactly the elements at the kept positions, in the
      order of those positions: nothing is reordered, repeated or lost. */
  lemma {:induction false} FilterAtKeptIndices<T(!new)>(p: T -> bool, s: seq<T>, n: nat)
    requires n <= |s|
    ensures |Filter(p, s[n..])| == |KeptIndices(p, s, n)|
    ensures forall k :: 0 <= k < |KeptIndices(p, s, n)| ==> Filter(p, s[n..])[k] == s[KeptIndices(p, s, n)[k]]
    decreases |s| - n
  {
    if n < |s| {
      FilterAtKeptIndices(p, s, n + 1);
      var rest := Filter(p, s[n + 1..]);
      var later := KeptIndices(p, s, n + 1);
      assert s[n..][1..] == s[n + 1..];
      assert s[n..][0] == s[n];
      if p(s[n]) {
        assert Filter(p, s[n..]) == [s[n]] + rest;
        assert KeptIndices(p, s, n) == [n] + later;
        forall k | 0 <= k < |KeptIndices(p, s, n)|
          ensures Filter(p, s[n..])[k] == s[KeptIndices(p, s, n)[k]]
        {
          if k > 0 {
            assert Filter(p, s[n..])[k] == rest[k - 1];
            assert KeptIndices(p, s, n)[k] == later[k - 1];
          }
        }
      } else {
        assert Filter(p, s[n..]) == rest;
        assert KeptIndices(p, s, n) == later;
      }
    }
  }

  /** Filtering distributes over concatenation: the kept elements of an
      earlier part come before those of a later part. */
  lemma {:induction false} FilterAppend<T(!new)>(p: T -> bool, a: seq<T>, b: seq<T>)
    ensures Filter(p, a + b) == Filter(p, a) + Filter(p, b)
  {
    if |a| == 0 {
      assert a + b == b;
    } else {
      assert (a + b)[1..] == a[1..] + b;
      FilterAppend(p, a[1..], b);
    }
  }

  /** Filtering with a predicate and with its negation splits the input:
      every element goes to exactly one side, with its multiplicity. */
  lemma {:induction false} FilterPartition<T(!new)>(p: T -> bool, q: T -> bool, s: seq<T>)
    requires forall x :: q(x) == !p(x)
    ensures multiset(Filter(p, s)) + multiset(Filter(q, s)) == multiset(s)
    ensures |Filter(p, s)| + |Filter(q, s)| == |s|
  {
    if |s| > 0 {
      FilterPartition(p, q, s[1..]);
      assert s == [s[0]] + s[1..];
    }
  }

  /** Ascending order. */
  predicate Sorted(s: seq<real>) {
    forall i, j :: 0 <= i < j < |s| ==> s[i] <= s[j]
  }

  /** Insertion of one value into an ascending sequence. */
  function Insert(x: real, s: seq<real>): (r: seq<real>)
    requires Sorted(s)
    ensures |r| == |s| + 1
    ensures r[0] == if |s| > 0 && s[0] < x then s[0] else x
    ensures Sorted(r)
    ensures multiset(r) == multiset(s) + multiset{x}
  {
    if |s| == 0 then [x]
    else if x <= s[0] then [x] + s
    else
      assert s == [s[0]] + s[1..];
      var rest := Insert(x, s[1..]);
      assert s[0] <= rest[0];
      [s[0]] + rest
  }

  /** Insertion sort: the values of `s` in ascending order. */
  function Sort(s: seq<real>): (r: seq<real>)
    ensures Sorted(r)
    ensures multiset(r) == multiset(s)
    ensures |r| == |s|
  {
    if |s| == 0 then []
    else
      assert s == [s[0]] + s[1..];
      Insert(s[0], Sort(s[1..]))
  }

  /** The first value of the sorted sequence is a value of the input and
      bounds it from below; the last bounds it from above. */
  lemma SortEnds(s: seq<real>)
    requires |s| > 0
    ensures Sort(s)[0] in s && Sort(s)[|s| - 1] in s
    ensures forall x :: x in s ==> Sort(s)[0] <= x <= Sort(s)[|s| - 1]
  {
    PermutationEnds(Sort(s), s);
  }

  /** The ends of any ascending rearrangement of `s`. */
  lemma PermutationEnds(r: seq<real>, s: seq<real>)
    requires Sorted(r) && multiset(r) == multiset(s) && |r| > 0
    ensures |s| == |r| && r[0] in s && r[|r| - 1] in s
    ensures forall x :: x in s ==> r[0] <= x <= r[|r| - 1]
  {
    assert |multiset(r)| == |multiset(s)|;
    assert r[0] in multiset(r) && r[|r| - 1] in multiset(r);
    forall x | x in s
      ensures r[0] <= x <= r[|r| - 1]
    {
      assert x in multiset(r);
      var k :| 0 <= k < |r| && r[k] == x;
    }
  }
}

=== FILE: signal_weights.dfy ===
/** The signal-timing rule shared by both optimizers: fixed green-time
    weights per intersection type, scaled up in peak hours and down in
    non-peak hours, then turned into whole seconds of a cycle. */
module SignalWeights {
  import opened Wrappers
  import Numerics
  import Hourly
  import Text

  /** The intersection types the optimizers know, as their keys are spelled. */
  const Topologies: seq<string> := ["Four-Way", "T-Junction", "Roundabout", "Diamond"]

  /** `initialize_weights`: `None` is the `KeyError` of an unknown type. */
  function BaseWeights(topology: string): (w: Option<seq<real>>)
    ensures w.Some? <==> topology in Topologies
    ensures w.Some? ==> |w.value| == (if topology == "T-Junction" then 3 else 4)
    ensures w.Some? ==> forall k :: 0 <= k < |w.value| ==> 0.1 <= w.value[k] <= 0.4
  {
    if topology == "Four-Way" then Some([0.4, 0.3, 0.2, 0.1])
    else if topology == "T-Junction" then Some([0.3, 0.4, 0.2])
    else if topology == "Roundabout" then Some([0.25, 0.25, 0.25, 0.25])
    else if topology == "Diamond" then Some([0.35, 0.35, 0.2, 0.1])
    else None
  }

  /** The four-signal weights share out the whole cycle; the T-junction's
      three share out nine tenths of it. */
  lemma WeightTotals(topology: string)
    requires topology in Topologies
    ensures Numerics.Sum(BaseWeights(topology).value) == if topology == "T-Junction" then 0.9 else 1.0
  {
  }

  /** The weights for one hour: raised by 30% and capped at 0.6 in a peak
      hour, lowered by 30% with a floor of 0.1 in a non-peak hour, left as
      they are otherwise. */
  function Adjust(w: seq<real>, band: Hourly.Band): (r: seq<real>)
    ensures |r| == |w|
    ensures band.Peak? ==> forall k :: 0 <= k < |w| ==> r[k] <= 0.6 && r[k] <= w[k] * 1.3
    ensures band.Peak? ==> forall k :: 0 <= k < |w| ==> r[k] == 0.6 || r[k] == w[k] * 1.3
    ensures band.NonPeak? ==> forall k :: 0 <= k < |w| ==> r[k] >= 0.1 && r[k] >= w[k] * 0.7
    ensures band.NonPeak? ==> forall k :: 0 <= k < |w| ==> r[k] == 0.1 || r[k] == w[k] * 0.7
    ensures band.Neither? ==> r == w
  {
    match band
    case Peak => seq(|w|, k requires 0 <= k < |w| => if w[k] * 1.3 <= 0.6 then w[k] * 1.3 else 0.6)
    case NonPeak => seq(|w|, k requires 0 <= k < |w| => if w[k] * 0.7 >= 0.1 then w[k] * 0.7 else 0.1)
    case Neither => w
  }

  /** The cycle length in seconds: 120 in a peak hour, 90 otherwise. */
  function Cycle(band: Hourly.Band): (c: int)
    ensures c == (if band.Peak? then 120 else 90)
    ensures c > 0
  {
    if band.Peak? then 120 else 90
  }

  /** `round(w * total_cycle)`: the weight's share of the cycle, to the
      nearest second. */
  function Share(w: real, cycle: int): (g: int)
    ensures -0.5 <= g as real - w * cycle as real <= 0.5
  {
    Numerics.PyRound(w * cycle as real)
  }

  /** `[round(w * total_cycle) for w in weights]`. */
  function GreenTimes(w: seq<real>, cycle: int): (g: seq<int>)
    ensures |g| == |w|
    ensures forall k :: 0 <= k < |w| ==> g[k] == Share(w[k], cycle)
  {
    seq(|w|, k requires 0 <= k < |w| => Share(w[k], cycle))
  }

  /** The green times of one hour in a given band. */
  function HourGreens(w: seq<real>, band: Hourly.Band): (g: seq<int>)
    ensures |g| == |w|
  {
    GreenTimes(Adjust(w, band), Cycle(band))
  }

  /** A peak-hour green is at most 72 s (0.6 of 120 s); a non-peak green is
      at least 9 s (0.1 of 90 s). */
  lemma GreenBounds(w: seq<real>)
    ensures forall k :: 0 <= k < |w| ==> HourGreens(w, Hourly.Peak)[k] <= 72
    ensures forall k :: 0 <= k < |w| ==> HourGreens(w, Hourly.NonPeak)[k] >= 9
  {
    forall k | 0 <= k < |w|
      ensures HourGreens(w, Hourly.Peak)[k] <= 72 && HourGreens(w, Hourly.NonPeak)[k] >= 9
    {
      var p := Adjust(w, Hourly.Peak)[k];
      var n := Adjust(w, Hourly.NonPeak)[k];
      Numerics.PyRoundMonotonic(p * 120.0, 72.0);
      Numerics.PyRoundAtLeast(n * 90.0, 9);
    }
  }

  /** For the weights of any known intersection type, a signal's peak-hour
      green is never shorter than its non-peak green. */
  lemma PeakNotShorter(topology: string, k: nat)
    requires topology in Topologies && k < |BaseWeights(topology).value|
    ensures HourGreens(BaseWeights(topology).value, Hourly.Peak)[k]
         >= HourGreens(BaseWeights(topology).value, Hourly.NonPeak)[k]
  {
    var w := BaseWeights(topology).value;
    var p := Adjust(w, Hourly.Peak)[k];
    var n := Adjust(w, Hourly.NonPeak)[k];
    assert 0.1 <= w[k] <= 0.4;
    assert p >= 0.13;
    assert n <= 0.28;
    assert n * 90.0 <= p * 120.0;
    Numerics.PyRoundMonotonic(n * 90.0, p * 120.0);
  }

  /** `optimized_{intersection_type.lower()}_signals.csv`, the name of the
      CSV both optimizers write. */
  function OutputFileName(topology: string): (name: string)
    ensures Text.StartsWith(name, "optimized_")
    ensures |name| == |topology| + 22
  {
    "optimized_" + Text.LowerAll(topology) + "_signals.csv"
  }
}

=== FILE: text.dfy ===
/** The JavaScript string operations the client code relies on: `trim`,
    `split` and `join` on a one-character separator, `includes`, `replace`
    with a string pattern (first occurrence) and with a global pattern (all
    occurrences), and ASCII case mapping. */
module Text {

  /** The characters `String.prototype.trim` strips: the ECMAScript
      WhiteSpace and LineTerminator code points. */
  predicate IsWhitespace(c: char) {
    || c == ' ' || c == '\t' || c == '\n' || c == '\r'
    || c == '\U{000B}' || c == '\U{000C}' || c == '\U{00A0}' || c == '\U{1680}'
    || ('\U{2000}' <= c <= '\U{200A}')
    || c == '\U{2028}' || c == '\U{2029}' || c == '\U{202F}' || c == '\U{205F}'
    || c == '\U{3000}' || c == '\U{FEFF}'
  }

  /** Neither end of `s` is whitespace. */
  predicate IsTrimmed(s: string) {
    |s| == 0 || (!IsWhitespace(s[0]) && !IsWhitespace(s[|s| - 1]))
  }

  predicate AllWhitespace(s: string) {
    forall i :: 0 <= i < |s| ==> IsWhitespace(s[i])
  }

  function TrimStart(s: string): (r: string)
    ensures |r| <= |s| && r == s[|s| - |r|..]
    ensures |r| == 0 || !IsWhitespace(r[0])
    ensures AllWhitespace(s[..|s| - |r|])
  {
    if |s| > 0 && IsWhitespace(s[0]) then TrimStart(s[1..]) else s
  }

  function TrimEnd(s: string): (r: string)
    ensures |r| <= |s| && r == s[..|r|]
    ensures |r| == 0 || !IsWhitespace(r[|r| - 1])
    ensures AllWhitespace(s[|r|..])
  {
    if |s| > 0 && IsWhitespace(s[|s| - 1]) then TrimEnd(s[..|s| - 1]) else s
  }

  /** Number of leading whitespace characters of `s`. */
  function Leading(s: string): (k: nat)
    ensures k <= |s|
  {
    |s| - |TrimStart(s)|
  }

  /** `String.prototype.trim`: strip leading and trailing whitespace. */
  function Trim(s: string): (r: string)
    ensures IsTrimmed(r)
    ensures |r| <= |s|
  {
    TrimEnd(TrimStart(s))
  }

  /** What `Trim` removes is whitespace and nothing else: the result is the
      infix of `s` after its leading whitespace, followed only by whitespace. */
  lemma TrimInfix(s: string)
    ensures var k := Leading(s); var r := Trim(s);
      k + |r| <= |s| && r == s[k..k + |r|]
      && AllWhitespace(s[..k]) && AllWhitespace(s[k + |r|..])
  {
    var t := TrimStart(s);
    var r := TrimEnd(t);
    SuffixSlices(s, |s| - |t|, t, |r|);
  }

  /** Slicing a suffix `t == s[k..]` at `n` slices `s` at `k + n`. */
  lemma SuffixSlices(s: string, k: nat, t: string, n: nat)
    requires k <= |s| && t == s[k..] && n <= |t|
    ensures t[..n] == s[k..k + n] && t[n..] == s[k + n..]
  {
  }

  /** Trimming changes nothing exactly when there is nothing to trim. */
  lemma TrimIdentity(s: string)
    ensures Trim(s) == s <==> IsTrimmed(s)
  {
    if IsTrimmed(s) && |s| > 0 {
      assert TrimStart(s) == s;
      assert TrimEnd(s) == s;
    }
  }

  /** A blank text trims to nothing. */
  lemma TrimBlank(s: string)
    requires AllWhitespace(s)
    ensures Trim(s) == ""
  {
    TrimInfix(s);
  }

  /** Trimming introduces no character: a character absent from `s` is
      absent from `Trim(s)`. */
  lemma TrimAvoids(s: string, c: char)
    requires c !in s
    ensures c !in Trim(s)
  {
    TrimInfix(s);
  }

  /** Number of occurrences of `c` in `s`. */
  function Count(s: string, c: char): (n: nat)
    ensures n <= |s|
    ensures n == 0 <==> c !in s
  {
    if |s| == 0 then 0 else (if s[0] == c then 1 else 0) + Count(s[1..], c)
  }

  lemma CountAppend(a: string, b: string, c: char)
    ensures Count(a + b, c) == Count(a, c) + Count(b, c)
  {
    if |a| == 0 {
      assert a + b == b;
    } else {
      assert (a + b)[1..] == a[1..] + b;
      CountAppend(a[1..], b, c);
    }
  }

  /** `s.split(d)` for a one-character separator `d`: the maximal runs of
      non-separator characters, one more part than there are separators. */
  function Split(s: string, d: char): (parts: seq<string>)
    ensures |parts| == Count(s, d) + 1
    ensures forall i :: 0 <= i < |parts| ==> d !in parts[i]
  {
    if |s| == 0 then [""]
    else
      var rest := Split(s[1..], d);
      if s[0] == d then [""] + rest
      else [[s[0]] + rest[0]] + rest[1..]
  }

  /** `parts.join(d)`. */
  function Join(parts: seq<string>, d: char): string
  {
    if |parts| == 0 then ""
    else if |parts| == 1 then parts[0]
    else parts[0] + [d] + Join(parts[1..], d)
  }

  /** The first part of a split is the text up to the first separator. */
  lemma {:induction false} SplitFirstPart(s: string, d: char)
    ensures Split(s, d)[0] == if d in s then s[..FirstIndex(s, d)] else s
  {
    if |s| > 0 && s[0] != d {
      SplitFirstPart(s[1..], d);
      var first := Split(s[1..], d)[0];
      assert Split(s, d)[0] == [s[0]] + first;
      if d in s {
        assert d in s[1..];
        var j := FirstIndex(s[1..], d);
        assert FirstIndex(s, d) == j + 1;
        assert s[..j + 1] == [s[0]] + s[1..][..j];
      } else {
        assert [s[0]] + s[1..] == s;
      }
    }
  }

  /** The first and last characters of a join of at least two parts: those of
      the first and last parts, or the separator where that part is empty. */
  lemma {:induction false} JoinEnds(parts: seq<string>, d: char)
    requires |parts| >= 2
    ensures |Join(parts, d)| > 0
    ensures Join(parts, d)[0] == if |parts[0]| > 0 then parts[0][0] else d
    ensures var j := Join(parts, d); var l := parts[|parts| - 1];
      j[|j| - 1] == if |l| > 0 then l[|l| - 1] else d
  {
    var tail := Join(parts[1..], d);
    assert Join(parts, d) == parts[0] + [d] + tail;
    if |parts| > 2 {
      JoinEnds(parts[1..], d);
    }
  }

  /** Joining the parts of a split gives the text back. */
  lemma {:induction false} JoinSplit(s: string, d: char)
    ensures Join(Split(s, d), d) == s
  {
    if |s| > 0 {
      var rest := Split(s[1..], d);
      JoinSplit(s[1..], d);
      if s[0] == d {
        assert Join([""] + rest, d) == "" + [d] + Join(rest, d);
      } else {
        var parts := [[s[0]] + rest[0]] + rest[1..];
        if |rest| == 1 {
          assert Join(parts, d) == [s[0]] + rest[0];
        } else {
          assert parts[1..] == rest[1..];
          assert Join(rest, d) == rest[0] + [d] + Join(rest[1..], d);
        }
      }
    }
  }

  /** A text free of the separator is one part. */
  lemma {:induction false} SplitWithoutSeparator(s: string, d: char)
    requires d !in s
    ensures Split(s, d) == [s]
  {
    if |s| > 0 {
      assert d !in s[1..];
      SplitWithoutSeparator(s[1..], d);
      assert [s[0]] + s[1..] == s;
    }
  }

  /** Splitting a text that begins with a separator-free part `p`. */
  lemma {:induction false} SplitAfterPart(p: string, rest: string, d: char)
    requires d !in p
    ensures Split(p + [d] + rest, d) == [p] + Split(rest, d)
  {
    if |p| == 0 {
      assert p + [d] + rest == [d] + rest;
      assert ([d] + rest)[1..] == rest;
    } else {
      assert (p + [d] + rest)[1..] == p[1..] + [d] + rest;
      SplitAfterPart(p[1..], rest, d);
      assert [p[0]] + p[1..] == p;
    }
  }

  /** Splitting a join of separator-free parts gives the parts back. */
  lemma {:induction false} SplitJoin(parts: seq<string>, d: char)
    requires |parts| >= 1
    requires forall i :: 0 <= i < |parts| ==> d !in parts[i]
    ensures Split(Join(parts, d), d) == parts
  {
    if |parts| == 1 {
      SplitWithoutSeparator(parts[0], d);
    } else {
      SplitJoin(parts[1..], d);
      SplitAfterPart(parts[0], Join(parts[1..], d), d);
      assert [parts[0]] + parts[1..] == parts;
    }
  }

  /** A join of parts that all avoid `c` avoids `c`, as long as the
      separator is not `c` either. */
  lemma {:induction false} JoinAvoids(parts: seq<string>, d: char, c: char)
    requires c != d
    requires forall i :: 0 <= i < |parts| ==> c !in parts[i]
    ensures c !in Join(parts, d)
  {
    if |parts| > 1 {
      JoinAvoids(parts[1..], d, c);
    }
  }

  /** `s.startsWith(prefix)`. */
  predicate StartsWith(s: string, prefix: string) {
    |prefix| <= |s| && s[..|prefix|] == prefix
  }

  /** A join begins with its first part. */
  lemma JoinStartsWith(parts: seq<string>, d: char)
    requires |parts| >= 1
    ensures StartsWith(Join(parts, d), parts[0])
  {
    if |parts| > 1 {
      assert Join(parts, d) == parts[0] + ([d] + Join(parts[1..], d));
    }
  }

  /** `s.includes(sub)`: `sub` occurs somewhere in `s`. */
  predicate Contains(s: string, sub: string)
    decreases |s|
  {
    StartsWith(s, sub) || (|s| > 0 && Contains(s[1..], sub))
  }

  /** `Contains` agrees with the existence of an occurrence at some offset. */
  lemma {:induction false} ContainsAt(s: string, sub: string, k: nat)
    requires k + |sub| <= |s| && s[k..k + |sub|] == sub
    ensures Contains(s, sub)
  {
    if k > 0 {
      assert s[1..][k - 1..k - 1 + |sub|] == s[k..k + |sub|];
      ContainsAt(s[1..], sub, k - 1);
    }
  }

  /** An occurrence found by `Contains` sits at some offset. */
  lemma {:induction false} ContainsWitness(s: string, sub: string) returns (k: nat)
    requires Contains(s, sub)
    ensures k + |sub| <= |s| && s[k..k + |sub|] == sub
    decreases |s|
  {
    if StartsWith(s, sub) {
      k := 0;
    } else {
      var j := ContainsWitness(s[1..], sub);
      assert s[1..][j..j + |sub|] == s[j + 1..j + 1 + |sub|];
      k := j + 1;
    }
  }

  /** Index of the first occurrence of `c` in `s`. */
  function FirstIndex(s: string, c: char): (i: nat)
    requires c in s
    ensures i < |s| && s[i] == c
    ensures c !in s[..i]
  {
    if s[0] == c then 0
    else
      assert c in s[1..];
      var j := FirstIndex(s[1..], c);
      assert s[..j + 1] == [s[0]] + s[1..][..j];
      j + 1
  }

  /** `s.replace(c, repl)` with a one-character string pattern: only the first
      occurrence is replaced. */
  function ReplaceFirst(s: string, c: char, repl: char): (r: string)
    ensures |r| == |s|
    ensures c !in s ==> r == s
    ensures c in s ==> (r[FirstIndex(s, c)] == repl
      && forall j :: 0 <= j < |s| && j != FirstIndex(s, c) ==> r[j] == s[j])
  {
    if c in s then
      var i := FirstIndex(s, c);
      s[..i] + [repl] + s[i + 1..]
    else s
  }

  /** Replacing a character by one that `sub` does not contain cannot make
      `sub` appear. */
  lemma ReplaceFirstKeepsAbsent(s: string, c: char, repl: char, sub: string)
    requires repl !in sub
    ensures Contains(ReplaceFirst(s, c, repl), sub) ==> Contains(s, sub)
  {
    var r := ReplaceFirst(s, c, repl);
    if Contains(r, sub) {
      var k := ContainsWitness(r, sub);
      forall j | k <= j < k + |sub|
        ensures s[j] == r[j]
      {
        assert r[j] == sub[j - k];
      }
      assert s[k..k + |sub|] == r[k..k + |sub|];
      ContainsAt(s, sub, k);
    }
  }

  /** Replacing the first occurrence removes exactly one occurrence. */
  lemma ReplaceFirstCount(s: string, c: char, repl: char)
    requires c in s && c != repl
    ensures Count(ReplaceFirst(s, c, repl), c) == Count(s, c) - 1
  {
    var i := FirstIndex(s, c);
    assert s == s[..i] + [c] + s[i + 1..];
    CountAppend(s[..i] + [c], s[i + 1..], c);
    CountAppend(s[..i], [c], c);
    CountAppend(s[..i] + [repl], s[i + 1..], c);
    CountAppend(s[..i], [repl], c);
  }

  /** `s.replace(/c/g, repl)`: every occurrence is replaced. */
  function ReplaceAll(s: string, c: char, repl: char): (r: string)
    ensures |r| == |s|
    ensures c != repl ==> c !in r
    ensures forall j :: 0 <= j < |s| && s[j] != c ==> r[j] == s[j]
  {
    seq(|s|, j requires 0 <= j < |s| => if s[j] == c then repl else s[j])
  }

  /** `toUpperCase` restricted to ASCII letters. */
  function ToUpper(c: char): (u: char)
    ensures ('a' <= c <= 'z') == ('A' <= u <= 'Z' && u != c)
  {
    if 'a' <= c <= 'z' then (c as int - 32) as char else c
  }

  /** `toLowerCase` restricted to ASCII letters. */
  function ToLower(c: char): (l: char)
    ensures ('A' <= c <= 'Z') == ('a' <= l <= 'z' && l != c)
  {
    if 'A' <= c <= 'Z' then (c as int + 32) as char else c
  }

  function LowerAll(s: string): (r: string)
    ensures |r| == |s|
    ensures forall j :: 0 <= j < |s| ==> r[j] == ToLower(s[j])
  {
    seq(|s|, j requires 0 <= j < |s| => ToLower(s[j]))
  }

  /** Lower-casing twice is lower-casing once. */
  lemma LowerAllIdempotent(s: string)
    ensures LowerAll(LowerAll(s)) == LowerAll(s)
  {
  }
}

=== FILE: upload_page.dfy ===
/** The traffic upload page (`TrafficFileUpload`): it sends the first selected
    file and the intersection type to the optimizer, reshapes the JSON reply
    into fixed `OptimizedResult` records, rebuilds a downloadable CSV from
    them, and pages through the results one weekday at a time. */
module UploadPage {
  import opened Wrappers
  import opened Js
  import Text
  import CsvCodec
  import Calendar
  import Seqs

  /** The intersection types the page offers, in display order. */
  const IntersectionTypes: seq<string> :=
    ["Four-Way", "T-Junction", "Diamond Intersection", "Roundabout"]

  /** Only the T-junction has no fourth signal. */
  predicate HasFourthSignal(intersection: string) {
    intersection != "T-Junction"
  }

  /** The `OptimizedResult` fields every record carries. */
  const BaseFields: seq<string> := [
    "Day", "Hour", "Total_Vehicles",
    "Signal_1_Vehicles", "Signal_2_Vehicles", "Signal_3_Vehicles",
    "Signal_1_Timings", "Signal_2_Timings", "Signal_3_Timings",
    "Avg_Queue_Length", "Avg_Delay_Time",
    "Signal_1_Green", "Signal_1_Red", "Signal_2_Green", "Signal_2_Red",
    "Signal_3_Green", "Signal_3_Red"]

  /** The optional fourth-signal fields. */
  const Signal4Fields: seq<string> :=
    ["Signal_4_Vehicles", "Signal_4_Timings", "Signal_4_Green", "Signal_4_Red"]

  /** The fields a record has for the given intersection type. */
  function FieldNames(intersection: string): set<string>
  {
    (set f | f in BaseFields) + (if HasFourthSignal(intersection) then set f | f in Signal4Fields else {})
  }

  /** An `OptimizedResult`, as its field-to-value map. */
  type Record = map<string, Value>

  /** What a missing or falsy field becomes: `"Monday"` for the day, 0 otherwise. */
  function Default(name: string): Value
  {
    if name == "Day" then Str("Monday") else Num(0.0)
  }

  /** The reshaping of one response item (`item.X || default`, plus the
      fourth-signal block unless the intersection is a T-junction). Reading a
      field of `null` or `undefined` throws, which is `None`. */
  function NormalizeItem(item: Value, intersection: string): (r: Option<Record>)
    ensures r.None? <==> item.Undefined? || item.Null?
    ensures r.Some? ==> r.value.Keys == FieldNames(intersection)
    ensures r.Some? ==> forall name :: name in r.value ==>
              var given := Member(item, name).value;
              (Truthy(given) ==> r.value[name] == given)
              && (!Truthy(given) ==> r.value[name] == Default(name))
  {
    if item.Undefined? || item.Null? then None
    else Some(map name | name in FieldNames(intersection) :: Or(Member(item, name).value, Default(name)))
  }

  /** The fourth-signal fields are present exactly when the intersection is
      not a T-junction, and they are the only fields that depend on it. */
  lemma TopologyOnlyDecidesSignal4(item: Value, a: string, b: string)
    requires !item.Undefined? && !item.Null?
    ensures forall f :: f in Signal4Fields ==>
              (f in NormalizeItem(item, a).value <==> HasFourthSignal(a))
    ensures forall f :: f in BaseFields ==>
              f in NormalizeItem(item, a).value && f in NormalizeItem(item, b).value
              && NormalizeItem(item, a).value[f] == NormalizeItem(item, b).value[f]
  {
    assert forall f :: f in Signal4Fields ==> f !in BaseFields;
  }

  /** A falsy or absent numeric field reads as 0 and a falsy or absent day
      as `"Monday"`; in particular an item with no fields at all becomes the
      all-default record. */
  lemma EmptyItemIsDefaults(intersection: string)
    ensures var r := NormalizeItem(Obj(map[]), intersection).value;
      r["Day"] == Str("Monday")
      && forall f :: f in r && f != "Day" ==> r[f] == Num(0.0)
  {
  }

  /** `responseData.data.map(...)`: one record per item, in order; `None`
      when some item is `null` or `undefined`. */
  function NormalizeAll(items: seq<Value>, intersection: string): (r: Option<seq<Record>>)
    ensures r.Some? <==> forall i :: 0 <= i < |items| ==> !items[i].Undefined? && !items[i].Null?
    ensures r.Some? ==> (|r.value| == |items|
              && forall i :: 0 <= i < |items| ==> NormalizeItem(items[i], intersection) == Some(r.value[i]))
    ensures r.Some? ==> forall i :: 0 <= i < |r.value| ==> r.value[i].Keys == FieldNames(intersection)
  {
    if forall i :: 0 <= i < |items| ==> !items[i].Undefined? && !items[i].Null? then
      Some(seq(|items|, i requires 0 <= i < |items| => NormalizeItem(items[i], intersection).value))
    else None
  }

  /** The download header list: the fourth-signal columns are inserted only
      when the intersection has a fourth signal. */
  function DownloadHeaders(intersection: string): (h: seq<string>)
    ensures |h| == if HasFourthSignal(intersection) then 21 else 17
  {
    var four := HasFourthSignal(intersection);
    ["Day", "Hour", "Total_Vehicles", "Signal_1_Vehicles", "Signal_2_Vehicles", "Signal_3_Vehicles"]
    + (if four then ["Signal_4_Vehicles"] else [])
    + ["Signal_1_Timings", "Signal_2_Timings", "Signal_3_Timings"]
    + (if four then ["Signal_4_Timings"] else [])
    + ["Avg_Queue_Length", "Avg_Delay_Time",
       "Signal_1_Green", "Signal_1_Red", "Signal_2_Green", "Signal_2_Red",
       "Signal_3_Green", "Signal_3_Red"]
    + (if four then ["Signal_4_Green", "Signal_4_Red"] else [])
  }

  /** The download columns are exactly the fields of a normalised record,
      each named once, so no column reads a field the record lacks. */
  lemma HeadersMatchFields(intersection: string)
    ensures (set h | h in DownloadHeaders(intersection)) == FieldNames(intersection)
  {
    var h := DownloadHeaders(intersection);
    if HasFourthSignal(intersection) {
      assert forall f :: f in h <==> f in BaseFields || f in Signal4Fields;
    } else {
      assert h == BaseFields;
    }
  }

  /** No download column is named twice. */
  lemma HeadersDistinct(intersection: string)
    ensures forall i, j :: 0 <= i < j < |DownloadHeaders(intersection)| ==>
              DownloadHeaders(intersection)[i] != DownloadHeaders(intersection)[j]
  {
  }

  /** Every field name is a safe CSV cell. */
  lemma FieldNamesAreSafe()
    ensures forall f :: f in BaseFields || f in Signal4Fields ==> CsvCodec.SafeCell(f)
  {
    BaseFieldsAreSafe();
    Signal4FieldsAreSafe();
  }

  lemma BaseFieldsAreSafe()
    ensures forall f :: f in BaseFields ==> CsvCodec.SafeCell(f)
  {
    assert CsvCodec.SafeCell("Day");
    assert CsvCodec.SafeCell("Hour");
    assert CsvCodec.SafeCell("Total_Vehicles");
    assert CsvCodec.SafeCell("Signal_1_Vehicles");
    assert CsvCodec.SafeCell("Signal_2_Vehicles");
    assert CsvCodec.SafeCell("Signal_3_Vehicles");
    assert CsvCodec.SafeCell("Signal_1_Timings");
    assert CsvCodec.SafeCell("Signal_2_Timings");
    assert CsvCodec.SafeCell("Signal_3_Timings");
    assert CsvCodec.SafeCell("Avg_Queue_Length");
    assert CsvCodec.SafeCell("Avg_Delay_Time");
    assert CsvCodec.SafeCell("Signal_1_Green");
    assert CsvCodec.SafeCell("Signal_1_Red");
    assert CsvCodec.SafeCell("Signal_2_Green");
    assert CsvCodec.SafeCell("Signal_2_Red");
    assert CsvCodec.SafeCell("Signal_3_Green");
    assert CsvCodec.SafeCell("Signal_3_Red");
  }

  lemma Signal4FieldsAreSafe()
    ensures forall f :: f in Signal4Fields ==> CsvCodec.SafeCell(f)
  {
    assert CsvCodec.SafeCell("Signal_4_Vehicles");
    assert CsvCodec.SafeCell("Signal_4_Timings");
    assert CsvCodec.SafeCell("Signal_4_Green");
    assert CsvCodec.SafeCell("Signal_4_Red");
  }

  /** Every header name is a safe CSV cell. */
  lemma HeadersAreSafe(intersection: string)
    ensures forall j :: 0 <= j < |DownloadHeaders(intersection)| ==>
              CsvCodec.SafeCell(DownloadHeaders(intersection)[j])
  {
    var h := DownloadHeaders(intersection);
    FieldNamesAreSafe();
    forall j | 0 <= j < |h|
      ensures CsvCodec.SafeCell(h[j])
    {
      assert h[j] in BaseFields || h[j] in Signal4Fields;
    }
  }

  /** `result[header] || ""`: a falsy value, 0 included, is an empty cell. */
  function Cell(record: Record, header: string, show: real -> string): (c: string)
    ensures (header !in record || !Truthy(record[header])) ==> c == ""
    ensures header in record && record[header].Str? && Truthy(record[header]) ==> c == record[header].s
    ensures header in record && record[header].Num? && Truthy(record[header]) ==> c == show(record[header].n)
  {
    if header in record && Truthy(record[header]) then ToStr(record[header], show) else ""
  }

  /** The lines of the download: the header, then one line per record with
      one cell per header. */
  function CsvLines(records: seq<Record>, intersection: string, show: real -> string): (lines: seq<seq<string>>)
    ensures |lines| == |records| + 1
    ensures lines[0] == DownloadHeaders(intersection)
    ensures forall i :: 0 < i < |lines| ==> |lines[i]| == |lines[0]|
    ensures forall i, j :: 0 <= i < |records| && 0 <= j < |lines[0]| ==>
              lines[i + 1][j] == Cell(records[i], lines[0][j], show)
  {
    var headers := DownloadHeaders(intersection);
    [headers] + seq(|records|, i requires 0 <= i < |records| =>
                      seq(|headers|, j requires 0 <= j < |headers| => Cell(records[i], headers[j], show)))
  }

  /** `csvContent`. */
  function DownloadCsv(records: seq<Record>, intersection: string, show: real -> string): string
  {
    CsvCodec.Serialize(CsvLines(records, intersection, show))
  }

  /** The download begins with the header names joined by commas. */
  lemma DownloadStartsWithHeader(records: seq<Record>, intersection: string, show: real -> string)
    ensures Text.StartsWith(DownloadCsv(records, intersection, show),
                            Text.Join(DownloadHeaders(intersection), ','))
  {
    var lines := CsvLines(records, intersection, show);
    var joined := seq(|lines|, i requires 0 <= i < |lines| => Text.Join(lines[i], ','));
    Text.JoinStartsWith(joined, '\n');
  }

  /** When no cell text contains a line break, the download does not end
      with one. */
  lemma DownloadHasNoTrailingNewline(records: seq<Record>, intersection: string, show: real -> string)
    requires forall i, j :: 0 <= i < |records| && 0 <= j < |DownloadHeaders(intersection)| ==>
               '\n' !in Cell(records[i], DownloadHeaders(intersection)[j], show)
    ensures var csv := DownloadCsv(records, intersection, show);
      |csv| > 0 && csv[|csv| - 1] != '\n'
  {
    var lines := CsvLines(records, intersection, show);
    var joined := seq(|lines|, i requires 0 <= i < |lines| => Text.Join(lines[i], ','));
    LastLineEnd(records, intersection, show);
    if |lines| >= 2 {
      Text.JoinEnds(joined, '\n');
    } else {
      assert Text.Join(joined, '\n') == joined[0];
    }
  }

  /** The last line of the download is non-empty and does not end with a
      line break: it ends with the last header or the last cell. */
  lemma LastLineEnd(records: seq<Record>, intersection: string, show: real -> string)
    requires forall i, j :: 0 <= i < |records| && 0 <= j < |DownloadHeaders(intersection)| ==>
               '\n' !in Cell(records[i], DownloadHeaders(intersection)[j], show)
    ensures var lines := CsvLines(records, intersection, show);
      var l := Text.Join(lines[|lines| - 1], ',');
      |l| > 0 && l[|l| - 1] != '\n'
  {
    var headers := DownloadHeaders(intersection);
    var lines := CsvLines(records, intersection, show);
    var last := lines[|lines| - 1];
    Text.JoinEnds(last, ',');
    var c := last[|last| - 1];
    if |records| == 0 {
      assert c == headers[|headers| - 1];
      assert c == "Signal_4_Red" || c == "Signal_3_Red";
    } else {
      assert c == Cell(records[|records| - 1], headers[|headers| - 1], show);
    }
  }

  /** When every cell is safe for the codec, parsing the download gives back
      the header list and exactly the written cells: every data line has as
      many fields as the header line. */
  lemma DownloadParsesBack(records: seq<Record>, intersection: string, show: real -> string)
    requires forall i, j :: 0 <= i < |records| && 0 <= j < |DownloadHeaders(intersection)| ==>
               CsvCodec.SafeCell(Cell(records[i], DownloadHeaders(intersection)[j], show))
    ensures var t := CsvCodec.Parse(DownloadCsv(records, intersection, show));
      t.headers == DownloadHeaders(intersection)
      && |t.rows| == |records|
      && forall i :: 0 <= i < |records| ==> |t.rows[i]| == |t.headers|
    ensures var t := CsvCodec.Parse(DownloadCsv(records, intersection, show));
      forall i, j :: 0 <= i < |records| && 0 <= j < |DownloadHeaders(intersection)| ==>
        t.rows[i][j] == Cell(records[i], DownloadHeaders(intersection)[j], show)
  {
    var lines := CsvLines(records, intersection, show);
    HeadersAreSafe(intersection);
    forall i, j | 0 <= i < |lines| && 0 <= j < |lines[i]|
      ensures CsvCodec.SafeCell(lines[i][j])
    {
      if i > 0 {
        assert lines[i][j] == Cell(records[i - 1], lines[0][j], show);
      }
    }
    CsvCodec.RoundTrip(lines);
  }

  /** The optimizer's answer as the page receives it: a thrown error with its
      message, or an HTTP status and the decoded JSON body. */
  datatype Reply = Thrown(message: string) | Response(status: int, body: Value)

  /** Stand-in for the engine's text of a `TypeError`, which the model does
      not fix. */
  const TypeErrorText: string := "TypeError"

  /** `new Error(v || "Optimization failed").message`. */
  function RaisedMessage(v: Value, show: real -> string): string
  {
    ToStr(Or(v, Str("Optimization failed")), show)
  }

  /** The `try` block of `handleUpload`: the normalised records and the CSV
      text, or the message of the error it throws. */
  function ProcessReply(reply: Reply, intersection: string, show: real -> string)
    : (r: Result<(seq<Record>, string), string>)
    ensures reply.Thrown? ==> r == Failure(reply.message)
    ensures r.Success? ==> (reply.Response? && 200 <= reply.status < 300
              && Member(reply.body, "status") == Some(Str("success"))
              && var data := Member(reply.body, "data").value;
                 data.Arr? && NormalizeAll(data.items, intersection) == Some(r.value.0)
                 && r.value.1 == DownloadCsv(r.value.0, intersection, show))
    ensures reply.Response? && 200 <= reply.status < 300
            && Member(reply.body, "status") == Some(Str("success"))
            && Member(reply.body, "data").Some? && Member(reply.body, "data").value.Arr?
            && NormalizeAll(Member(reply.body, "data").value.items, intersection).Some? ==>
              var records := NormalizeAll(Member(reply.body, "data").value.items, intersection).value;
              r == Success((records, DownloadCsv(records, intersection, show)))
  {
    match reply
    case Thrown(m) => Failure(m)
    case Response(status, body) =>
      if status < 200 || status >= 300 then
        Failure(match Member(body, "message")
                case None => "Optimization failed"
                case Some(m) => RaisedMessage(m, show))
      else match (Member(body, "status"), Member(body, "data"))
        case (None, _) => Failure(TypeErrorText)
        case (_, None) => Failure(TypeErrorText)
        case (Some(status), Some(data)) =>
          if status == Str("success") && Truthy(data) then
            if !data.Arr? then Failure(TypeErrorText)
            else match NormalizeAll(data.items, intersection)
              case None => Failure(TypeErrorText)
              case Some(records) => Success((records, DownloadCsv(records, intersection, show)))
          else Failure(RaisedMessage(Member(body, "message").value, show))
  }

  /** A 2xx reply whose `status` is not `"success"`, or whose `data` is
      falsy, fails with the reply's own message or "Optimization failed". */
  lemma UnsuccessfulReplyFails(status: int, body: Value, intersection: string, show: real -> string)
    requires 200 <= status < 300 && body.Obj?
    requires Member(body, "status") != Some(Str("success")) || !Truthy(Member(body, "data").value)
    ensures ProcessReply(Response(status, body), intersection, show)
              == Failure(RaisedMessage(Member(body, "message").value, show))
  {
  }

  /** The page state that the upload flow reads and writes. */
  datatype PageState = PageState(
    files: seq<FileRef>,
    results: Option<seq<Record>>,
    download: Option<string>,
    message: string,
    intersection: string,
    dayIndex: Calendar.DayIndex,
    selectedDay: string,
    loading: bool)

  /** The state on first render. */
  const Initial: PageState :=
    PageState([], None, None, "", "Four-Way", 0, "Monday", false)

  /** The selected day name is the name at the day index. */
  predicate DayConsistent(st: PageState) {
    st.selectedDay == Calendar.DayNames[st.dayIndex]
  }

  /** `handleFileChange`: the new files are appended and the results cleared. */
  function AddFiles(st: PageState, newFiles: seq<FileRef>): (r: PageState)
    ensures |r.files| == |st.files| + |newFiles|
    ensures r.files[..|st.files|] == st.files && r.files[|st.files|..] == newFiles
    ensures r.results.None?
    ensures r.download == st.download && r.message == st.message && r.dayIndex == st.dayIndex
    ensures r.intersection == st.intersection && r.selectedDay == st.selectedDay && r.loading == st.loading
  {
    st.(files := st.files + newFiles, results := None)
  }

  /** `handleRemoveDataset`: files, results, download link and message are
      all cleared; the intersection and day selection are kept. */
  function RemoveDataset(st: PageState): (r: PageState)
    ensures |r.files| == 0 && r.results.None? && r.download.None? && r.message == ""
    ensures r.intersection == st.intersection && r.dayIndex == st.dayIndex && r.selectedDay == st.selectedDay
    ensures r.loading == st.loading
  {
    st.(files := [], results := None, download := None, message := "")
  }

  /** `handleNextDay`. */
  function NextDay(st: PageState): (r: PageState)
    ensures DayConsistent(r)
    ensures r.dayIndex == Calendar.NextDay(st.dayIndex)
  {
    var i := Calendar.NextDay(st.dayIndex);
    st.(dayIndex := i, selectedDay := Calendar.DayNames[i])
  }

  /** `handlePreviousDay`. */
  function PreviousDay(st: PageState): (r: PageState)
    ensures DayConsistent(r)
    ensures r.dayIndex == Calendar.PreviousDay(st.dayIndex)
  {
    var i := Calendar.PreviousDay(st.dayIndex);
    st.(dayIndex := i, selectedDay := Calendar.DayNames[i])
  }

  /** Next then previous (or previous then next) restores the day selection. */
  lemma DayNavigationRoundTrip(st: PageState)
    requires DayConsistent(st)
    ensures PreviousDay(NextDay(st)) == st
    ensures NextDay(PreviousDay(st)) == st
  {
    Calendar.NextPreviousInverse(st.dayIndex);
  }

  /** `result.Day === selectedDay`. */
  function OnDay(day: string): Record -> bool
  {
    (r: Record) => "Day" in r && r["Day"] == Str(day)
  }

  /** The rows of the results table: the results of the selected day, in
      their original order. */
  function VisibleResults(st: PageState): (rows: seq<Record>)
    ensures st.results.None? ==> rows == []
    ensures st.results.Some? ==> forall r :: r in rows <==>
              r in st.results.value && "Day" in r && r["Day"] == Str(st.selectedDay)
    ensures st.results.Some? ==>
              var idx := Seqs.KeptIndices(OnDay(st.selectedDay), st.results.value, 0);
              |rows| == |idx| && forall k :: 0 <= k < |idx| ==> rows[k] == st.results.value[idx[k]]
  {
    if st.results.None? then []
    else
      var all := st.results.value;
      assert all[0..] == all;
      Seqs.FilterAtKeptIndices(OnDay(st.selectedDay), all, 0);
      Seqs.Filter(OnDay(st.selectedDay), all)
  }

  /** `handleUpload`'s request: nothing when no file is selected, otherwise
      the first file and the selected intersection type. */
  function UploadRequest(st: PageState): (req: Option<(FileRef, string)>)
    ensures req.None? <==> |st.files| == 0
    ensures req.Some? ==> req.value == (st.files[0], st.intersection)
  {
    if |st.files| == 0 then None else Some((st.files[0], st.intersection))
  }

  /** The message shown for a failed upload. */
  function ErrorText(message: string): string
  {
    "Error: " + (if message == "" then "Unknown error" else message)
  }

  /** `handleUpload` from click to `finally`: a no-op without files; otherwise
      the results, download and message follow the reply, and loading ends. */
  function Upload(st: PageState, reply: Reply, show: real -> string): (r: PageState)
    ensures |st.files| == 0 ==> r == st
    ensures |st.files| > 0 ==> !r.loading
    ensures r.files == st.files && r.intersection == st.intersection && r.dayIndex == st.dayIndex
    ensures r.selectedDay == st.selectedDay
  {
    if |st.files| == 0 then st
    else match ProcessReply(reply, st.intersection, show)
      case Success((records, csv)) =>
        st.(results := Some(records), download := Some(csv), message := "Optimization complete!", loading := false)
      case Failure(m) =>
        st.(message := ErrorText(m), loading := false)
  }

  /** A failed upload keeps the previous results and download link and
      shows the error's message after "Error: "; a successful one replaces
      both. Either way the selected day stays as it was. */
  lemma UploadOutcome(st: PageState, reply: Reply, show: real -> string)
    requires |st.files| > 0
    ensures var r := Upload(st, reply, show);
      match ProcessReply(reply, st.intersection, show)
      case Failure(m) =>
        r.results == st.results && r.download == st.download
        && r.message == ErrorText(m) && Text.StartsWith(r.message, "Error: ")
      case Success((records, csv)) =>
        r.results == Some(records) && r.download == Some(csv) && r.message == "Optimization complete!"
    ensures Upload(st, reply, show).selectedDay == st.selectedDay
  {
    match ProcessReply(reply, st.intersection, show)
    case Failure(m) =>
      assert ErrorText(m)[..|"Error: "|] == "Error: ";
    case Success(_) =>
  }
}

=== FILE: upload_widget.dfy ===
/** The reusable upload widget (`FileUpload`): it posts the first selected
    file and the intersection type, and on an OK reply keeps a download link
    and the parsed CSV of the returned file. */
module UploadWidget {
  import opened Wrappers
  import opened Js
  import Text
  import CsvCodec

  /** The widget's state. */
  datatype WidgetState = WidgetState(
    files: seq<FileRef>,
    download: Option<string>,
    csvData: Option<CsvCodec.Table>,
    intersection: string)

  const Initial: WidgetState := WidgetState([], None, None, "Four-Way")

  /** The widget's `parseCSV`, the same naive codec as the page's: the header
      has one more cell than the first line of the trimmed text has commas,
      and every header and data cell is trimmed. */
  lemma ParseShape(text: string)
    ensures var t := CsvCodec.Parse(text);
      |t.headers| == Text.Count(CsvCodec.FirstLine(Text.Trim(text)), ',') + 1
      && CsvCodec.AllTrimmed(t.headers)
      && forall i :: 0 <= i < |t.rows| ==> CsvCodec.AllTrimmed(t.rows[i])
  {
    CsvCodec.HeadersFromFirstLine(text);
  }

  /** `handleFileChange`: new files are appended in order and the parsed
      data is dropped. */
  function AddFiles(st: WidgetState, newFiles: seq<FileRef>): (r: WidgetState)
    ensures |r.files| == |st.files| + |newFiles|
    ensures r.files[..|st.files|] == st.files && r.files[|st.files|..] == newFiles
    ensures r.csvData.None?
    ensures r.download == st.download && r.intersection == st.intersection
  {
    st.(files := st.files + newFiles, csvData := None)
  }

  /** The form `handleUpload` posts, in field order: the intersection type,
      then the first file; nothing when no file is selected. */
  datatype UploadForm = UploadForm(intersectionType: string, file: FileRef)

  function UploadRequest(st: WidgetState): (req: Option<UploadForm>)
    ensures req.None? <==> |st.files| == 0
    ensures req.Some? ==> req.value.file == st.files[0] && req.value.intersectionType == st.intersection
  {
    if |st.files| == 0 then None else Some(UploadForm(st.intersection, st.files[0]))
  }

  /** How the `fetch` ended: it threw, or it answered with `ok`, the object
      URL made for the body, and the body's text. */
  datatype FetchOutcome = Threw | Answered(ok: bool, url: string, text: string)

  /** `handleUpload`: without files nothing happens; a thrown error or a
      non-OK reply leaves the state as it was; an OK reply sets the download
      link and the parsed table. */
  function Upload(st: WidgetState, outcome: FetchOutcome): (r: WidgetState)
    ensures |st.files| == 0 ==> r == st
    ensures (outcome.Threw? || !outcome.ok) ==> r == st
    ensures |st.files| > 0 && outcome.Answered? && outcome.ok ==>
              r.download == Some(outcome.url) && r.csvData == Some(CsvCodec.Parse(outcome.text))
    ensures r.files == st.files && r.intersection == st.intersection
  {
    if |st.files| == 0 then st
    else match outcome
      case Threw => st
      case Answered(ok, url, text) =>
        if ok then st.(download := Some(url), csvData := Some(CsvCodec.Parse(text))) else st
  }
}

=== FILE: visualizer.dfy ===
/** The visualizer page: it reads the optimized CSV that the upload page
    left in browser storage, turns each row into chart data by column
    position, and shows the rows of one weekday at a time. */
module Visualizer {
  import opened Wrappers
  import opened Js
  import Seqs
  import Calendar
  import CsvCodec

  /** One chart row. `None` in `hour`, the signals and the averages is
      `NaN`; the outer `None` of `signal3`/`signal4` is `undefined` (empty or
      missing cell); a missing `day` is `undefined`. */
  datatype SignalData = SignalData(
    day: Option<string>,
    hour: Option<int>,
    signal1: Option<int>,
    signal2: Option<int>,
    signal3: Option<Option<int>>,
    signal4: Option<Option<int>>,
    avgQueue: Option<real>,
    avgDelay: Option<real>,
    originalQueue: real,
    originalDelay: real)

  /** `row[i]`, `undefined` past the end. */
  function CellAt(row: seq<string>, i: nat): (c: Option<string>)
    ensures c.Some? <==> i < |row|
    ensures c.Some? ==> c.value == row[i]
  {
    if i < |row| then Some(row[i]) else None
  }

  /** `parseInt(row[i])`: `parseInt(undefined)` is `NaN`. */
  function IntAt(row: seq<string>, i: nat, p: NumberParsers): (n: Option<int>)
    ensures i >= |row| ==> n.None?
    ensures i < |row| ==> n == p.parseInt(row[i])
  {
    match CellAt(row, i)
    case None => None
    case Some(c) => p.parseInt(c)
  }

  /** `parseFloat(row[i])`. */
  function RealAt(row: seq<string>, i: nat, p: NumberParsers): (x: Option<real>)
    ensures i >= |row| ==> x.None?
    ensures i < |row| ==> x == p.parseFloat(row[i])
  {
    match CellAt(row, i)
    case None => None
    case Some(c) => p.parseFloat(c)
  }

  /** `row[i] ? parseInt(row[i]) : undefined`: an empty or missing cell is
      `undefined`, anything else is parsed. */
  function OptionalIntAt(row: seq<string>, i: nat, p: NumberParsers): (n: Option<Option<int>>)
    ensures n.None? <==> (i >= |row| || row[i] == "")
    ensures n.Some? ==> n.value == p.parseInt(row[i])
  {
    match CellAt(row, i)
    case Some(c) => if c != "" then Some(p.parseInt(c)) else None
    case None => None
  }

  /** `parseFloat(row[i]) || 0`: `NaN` and `0` both become `0`. */
  function RealOrZeroAt(row: seq<string>, i: nat, p: NumberParsers): (x: real)
    ensures (i >= |row| || p.parseFloat(row[i]).None?) ==> x == 0.0
    ensures i < |row| && p.parseFloat(row[i]).Some? ==> x == p.parseFloat(row[i]).value
  {
    RealAt(row, i, p).GetOr(0.0)
  }

  /** The row mapping of `transformDataForChart`, by column position. */
  function ToSignalData(row: seq<string>, p: NumberParsers): (d: SignalData)
    ensures d.day == CellAt(row, 0)
    ensures d.hour == IntAt(row, 1, p) && d.signal1 == IntAt(row, 2, p) && d.signal2 == IntAt(row, 3, p)
    ensures d.signal3 == OptionalIntAt(row, 4, p) && d.signal4 == OptionalIntAt(row, 5, p)
    ensures d.avgQueue == RealAt(row, 6, p) && d.avgDelay == RealAt(row, 7, p)
    ensures d.originalQueue == RealOrZeroAt(row, 8, p) && d.originalDelay == RealOrZeroAt(row, 9, p)
  {
    SignalData(
      CellAt(row, 0),
      IntAt(row, 1, p), IntAt(row, 2, p), IntAt(row, 3, p),
      OptionalIntAt(row, 4, p), OptionalIntAt(row, 5, p),
      RealAt(row, 6, p), RealAt(row, 7, p),
      RealOrZeroAt(row, 8, p), RealOrZeroAt(row, 9, p))
  }

  /** `rows.map(...)`: one chart row per CSV row, in order. */
  function ChartRows(rows: seq<seq<string>>, p: NumberParsers): (data: seq<SignalData>)
    ensures |data| == |rows|
    ensures forall i :: 0 <= i < |rows| ==> data[i] == ToSignalData(rows[i], p)
  {
    if |rows| == 0 then [] else [ToSignalData(rows[0], p)] + ChartRows(rows[1..], p)
  }

  /** A CSV from a three-signal intersection (no sixth column, or an empty
      one) has no fourth signal in the chart. */
  lemma ThreeSignalRowsHaveNoSignal4(rows: seq<seq<string>>, p: NumberParsers)
    requires forall i :: 0 <= i < |rows| ==> |rows[i]| <= 5 || rows[i][5] == ""
    ensures forall d :: d in ChartRows(rows, p) ==> d.signal4.None?
  {
  }

  /** The page's state. */
  datatype ViewState = ViewState(
    chart: seq<SignalData>,
    dayIndex: Calendar.DayIndex,
    error: Option<string>,
    loading: bool)

  const Initial: ViewState := ViewState([], 0, None, true)

  const NoValidData: string := "No valid data found in the CSV file."
  const NoData: string := "No optimization data found. Please upload a file."
  const LoadError: string := "Error loading optimization data."

  /** `transformDataForChart`: a table without data rows keeps the previous
      chart and reports an error; otherwise the chart is replaced and the
      error cleared. The header names play no part. */
  function Transform(st: ViewState, t: CsvCodec.Table, p: NumberParsers): (r: ViewState)
    ensures |t.rows| == 0 ==> r == st.(error := Some(NoValidData))
    ensures |t.rows| > 0 ==> r == st.(chart := ChartRows(t.rows, p), error := None)
  {
    var data := ChartRows(t.rows, p);
    if |data| > 0 then st.(chart := data, error := None)
    else st.(error := Some(NoValidData))
  }

  /** Two tables with the same rows chart the same, whatever their headers. */
  lemma TransformIgnoresHeaders(st: ViewState, a: CsvCodec.Table, b: CsvCodec.Table, p: NumberParsers)
    requires a.rows == b.rows
    ensures Transform(st, a, p) == Transform(st, b, p)
  {
  }

  /** Browser storage: the raw CSV (`optimizedCSVData`) and the parsed table
      as JSON text (`parsedCSVData`); `None` when the key is absent. */
  datatype Storage = Storage(rawCsv: Option<string>, parsed: Option<string>)

  /** `if (value)` on a `getItem` result: absent and empty are both falsy. */
  predicate Present(v: Option<string>) {
    v.Some? && v.value != ""
  }

  /** `JSON.parse` of the stored table and `JSON.stringify` of one; a JSON
      text that does not describe a `{headers, rows}` table (so that
      `transformDataForChart` would throw) decodes to `None`. */
  datatype TableJson = TableJson(decode: string -> Option<CsvCodec.Table>, encode: CsvCodec.Table -> string)

  /** `processCSV`: parse the raw text, store the parsed table, chart it. */
  function ProcessCsv(st: ViewState, store: Storage, raw: string, j: TableJson, p: NumberParsers): (r: (ViewState, Storage))
    ensures r.1 == store.(parsed := Some(j.encode(CsvCodec.Parse(raw))))
    ensures r.0 == Transform(st, CsvCodec.Parse(raw), p)
  {
    var t := CsvCodec.Parse(raw);
    (Transform(st, t, p), store.(parsed := Some(j.encode(t))))
  }

  /** The first-mount effect: a stored parsed table wins over the raw CSV;
      with neither, or with an unreadable table, an error is shown; loading
      always ends. */
  function Mount(st: ViewState, store: Storage, j: TableJson, p: NumberParsers): (r: (ViewState, Storage))
    ensures !r.0.loading
    ensures r.0.dayIndex == st.dayIndex
    ensures !Present(store.parsed) ==> r.1.rawCsv == store.rawCsv
    ensures Present(store.parsed) ==> r.1 == store
    ensures !Present(store.parsed) && !Present(store.rawCsv) ==>
              r == (st.(error := Some(NoData), loading := false), store)
    ensures Present(store.parsed) && j.decode(store.parsed.value).None? ==>
              r.0 == st.(error := Some(LoadError), loading := false)
    ensures Present(store.parsed) && j.decode(store.parsed.value).Some? ==>
              r == (Transform(st, j.decode(store.parsed.value).value, p).(loading := false), store)
    ensures !Present(store.parsed) && Present(store.rawCsv) ==>
              r.0 == ProcessCsv(st, store, store.rawCsv.value, j, p).0.(loading := false)
              && r.1 == ProcessCsv(st, store, store.rawCsv.value, j, p).1
  {
    var (s, out) :=
      if Present(store.parsed) then
        match j.decode(store.parsed.value)
        case Some(t) => (Transform(st, t, p), store)
        case None => (st.(error := Some(LoadError)), store)
      else if Present(store.rawCsv) then ProcessCsv(st, store, store.rawCsv.value, j, p)
      else (st.(error := Some(NoData)), store);
    (s.(loading := false), out)
  }

  /** Whatever raw CSV is stored, a readable parsed table decides the page. */
  lemma ParsedTakesPrecedence(st: ViewState, parsed: string, raw1: Option<string>, raw2: Option<string>,
                              j: TableJson, p: NumberParsers)
    requires parsed != ""
    ensures Mount(st, Storage(raw1, Some(parsed)), j, p).0 == Mount(st, Storage(raw2, Some(parsed)), j, p).0
  {
  }

  /** A first visit with only the raw CSV stores its parse, so that the
      next mount reads the parsed table and charts the same rows, provided
      the JSON encoding of a table decodes back to it. */
  lemma MountCachesParse(st: ViewState, raw: string, j: TableJson, p: NumberParsers)
    requires raw != ""
    requires forall t :: j.decode(j.encode(t)) == Some(t)
    requires j.encode(CsvCodec.Parse(raw)) != ""
    ensures var (v1, s1) := Mount(st, Storage(Some(raw), None), j, p);
      Present(s1.parsed) && Mount(st, s1, j, p).0 == v1
  {
    var t := CsvCodec.Parse(raw);
    var first := Mount(st, Storage(Some(raw), None), j, p);
    assert first == (Transform(st, t, p).(loading := false), Storage(Some(raw), Some(j.encode(t))));
    assert j.decode(j.encode(t)) == Some(t);
  }

  /** `checkStorageChanges`, run every second and on storage events: a
      missing table empties the chart with an error; an unreadable one
      reports the load error and keeps the chart. The raw CSV is not read. */
  function Refresh(st: ViewState, store: Storage, j: TableJson, p: NumberParsers): (r: ViewState)
    ensures !Present(store.parsed) ==> r == st.(chart := [], error := Some(NoData))
    ensures Present(store.parsed) && j.decode(store.parsed.value).None? ==>
              r == st.(error := Some(LoadError))
    ensures Present(store.parsed) && j.decode(store.parsed.value).Some? ==>
              r == Transform(st, j.decode(store.parsed.value).value, p)
    ensures r.dayIndex == st.dayIndex && r.loading == st.loading
  {
    if !Present(store.parsed) then st.(chart := [], error := Some(NoData))
    else match j.decode(store.parsed.value)
      case Some(t) => Transform(st, t, p)
      case None => st.(error := Some(LoadError))
  }

  /** With a parsed table stored, the periodic refresh shows what a fresh
      mount would show, apart from the loading flag it leaves alone. */
  lemma RefreshAgreesWithMount(st: ViewState, store: Storage, j: TableJson, p: NumberParsers)
    requires Present(store.parsed)
    ensures Refresh(st, store, j, p) == Mount(st, store, j, p).0.(loading := st.loading)
  {
  }

  /** A first visit with only raw CSV charts the rows of that CSV's parse,
      one chart row per data row, and clears the error; a CSV without data
      rows keeps the previous chart and reports that no valid data was found. */
  lemma RawMountChartsParse(st: ViewState, raw: string, j: TableJson, p: NumberParsers)
    requires raw != ""
    ensures var v := Mount(st, Storage(Some(raw), None), j, p).0;
      if |CsvCodec.Parse(raw).rows| > 0
      then v.chart == ChartRows(CsvCodec.Parse(raw).rows, p) && v.error.None?
           && |v.chart| == |CsvCodec.Parse(raw).rows|
      else v.chart == st.chart && v.error == Some(NoValidData)
  {
  }

  /** Once the parsed table is gone from browser storage (nothing in the
      application removes it: the user or the browser clears the site's
      storage), the next refresh empties the chart, whatever was shown
      before. */
  lemma RemovalClearsChart(st: ViewState, raw: Option<string>, j: TableJson, p: NumberParsers)
    ensures Refresh(st, Storage(raw, None), j, p).chart == []
  {
  }

  function NextDay(st: ViewState): (r: ViewState)
    ensures r.dayIndex == Calendar.NextDay(st.dayIndex)
    ensures r.chart == st.chart && r.error == st.error
  {
    st.(dayIndex := Calendar.NextDay(st.dayIndex))
  }

  function PreviousDay(st: ViewState): (r: ViewState)
    ensures r.dayIndex == Calendar.PreviousDay(st.dayIndex)
    ensures r.chart == st.chart && r.error == st.error
  {
    st.(dayIndex := Calendar.PreviousDay(st.dayIndex))
  }

  /** Going forward a day and back again restores the view. */
  lemma DayNavigationRoundTrip(st: ViewState)
    ensures PreviousDay(NextDay(st)) == st && NextDay(PreviousDay(st)) == st
  {
    Calendar.NextPreviousInverse(st.dayIndex);
  }

  /** `data.Day === days[currentDayIndex]`. */
  function OnDay(day: string): SignalData -> bool
  {
    (d: SignalData) => d.day == Some(day)
  }

  /** `filteredData`: the chart rows of the selected weekday, in order. */
  function FilteredData(st: ViewState): (rows: seq<SignalData>)
    ensures |rows| <= |st.chart|
    ensures forall d :: d in rows <==> d in st.chart && d.day == Some(Calendar.DayNames[st.dayIndex])
    ensures var idx := Seqs.KeptIndices(OnDay(Calendar.DayNames[st.dayIndex]), st.chart, 0);
            |rows| == |idx| && forall k :: 0 <= k < |idx| ==> rows[k] == st.chart[idx[k]]
  {
    assert st.chart[0..] == st.chart;
    Seqs.FilterAtKeptIndices(OnDay(Calendar.DayNames[st.dayIndex]), st.chart, 0);
    Seqs.Filter(OnDay(Calendar.DayNames[st.dayIndex]), st.chart)
  }

  /** Paging through all seven days shows every chart row whose day is a
      weekday name exactly once per week: the row is visible on day `i`
      precisely when `i` is the index of its day. */
  lemma RowVisibleOnItsDay(st: ViewState, d: SignalData)
    requires d in st.chart && d.day.Some?
    ensures d in FilteredData(st) <==> Calendar.DayIndexOf(d.day.value) == Some(st.dayIndex)
  {
  }
}

=== FILE: wrappers.dfy ===
/** Failure-compatible wrappers shared by every module of the model. */
module Wrappers {

  /** A value that may be absent: JavaScript's `undefined`/`NaN`, a failed parse,
      a missing storage key. */
  datatype Option<+T> = None | Some(value: T) {

    /** The wrapped value, or `default` when there is none. */
    function GetOr(default: T): T {
      match this
      case Some(v) => v
      case None => default
    }
  }

  /** The outcome of an operation that can raise: a value or an error. */
  datatype Result<+R, +E> = Success(value: R) | Failure(error: E) {

    predicate IsFailure() {
      Failure?
    }

    function PropagateFailure<U>(): Result<U, E>
      requires Failure?
    {
      Failure(error)
    }

    function Extract(): R
      requires Success?
    {
      value
    }
  }
}
